=== FILE: README.md ===
# pheme.anonymize in Dafny

A model of the core of `pheme.anonymize`, which anonymizes MBDS (Minimum
Biosurveillance Data Set) messages in HL7 2.5 format. The anonymizer works in
four steps:

1. A message is parsed into segments, fields and components.
2. Every component named in the anonymize map (`anon_map`) is replaced by a
   random substitute of the same kind.
3. Each substitute is remembered in a persistent term cache. The same input
   therefore always gets the same substitute, and all dates move by one shared
   offset.
4. A batch file is cut into messages at carriage returns.

The project has one module per component:

| module | file | models |
|---|---|---|
| `Results` | `results.dfy` | Python's exceptions as `Err` values, and `Option` |
| `PyText` | `pytext.dfy` | the Python string operations the source relies on: `find`, `split`, `join`, `capitalize`, slicing, decimal text |
| `TermCache` | `termcache.dfy` | `termcache.py`; the shelf is a `map<string, Value>` |
| `Alter` | `alter.dfy` | the generators of `alter.py`: `fixed_length_string`, `fixed_length_digits`, `random_date_delta` |
| `Resolver` | `resolver.dfy` | `anon_term`, plus the compound generators of `field_map.py` that call back into it |
| `FieldMap` | `fieldmap.dfy` | the `FieldMap` dictionary: key parsing, `__setitem__`, `__getitem__`, `__contains__` |
| `AnonMap` | `anonmap.dfy` | the constant `anon_map` table |
| `Mbds` | `mbds.dfy` | `MBDS_anon.anonymize` |
| `LineSplit` | `linesplit.dfy` | `line_at_a_time` |

How the model handles what it cannot compute directly:

- **Randomness.** It is an explicit stream `Rng = seq<nat>`. A
  `random.choice` over `n` items takes `rng[0] % n` and passes on the rest of
  the stream. An exhausted stream reads as zeros.
  - Every property is proved for all streams.
  - Reachability lemmas show that every allowed output can actually be drawn.
- **Date and time.** `strptime` and `strftime` are the two functions of a
  `Calendar` value passed in by the caller. Moments are integer seconds.
- **Cache state.** Every operation that touches the term cache takes the cache
  and returns its successor.
- **Exceptions.** Every exception the source raises is an `Err` result carrying
  the exception's class, with one exception: the AssertionError of
  `assert(initial)` in the generators. That check is the precondition
  `initial != ""`, which every caller in the package meets.

## Model

| member | source | states |
|---|---|---|
| TermCache.Get | pheme/anonymize/termcache.py:21-32 | A lookup converts the key to its string form. It returns the stored value, or None when the key is absent. |
| TermCache.Set | pheme/anonymize/termcache.py:34-36 | A store makes the term present and reading back the value. Every other key reads as before, and the key set grows by exactly the stored key. |
| TermCache.Delete | pheme/anonymize/termcache.py:38-39 | Deleting fails with KeyError exactly when the term is absent. Otherwise the term is gone and every other key is unchanged. |
| TermCache.StoreGuarded | pheme/anonymize/termcache.py:97-100 | Storing fails with ValueError exactly when the term already has a value and overwrite is off. Otherwise the value is stored and nothing else changes. |
| TermCache.CanonicalKeysShareEntry | pheme/anonymize/termcache.py:21-24 | An integer and its decimal text read, test and write the same entry of the cache. |
| TermCache.DistinctIntsDistinctEntries | pheme/anonymize/termcache.py:21-24 | Storing under one integer leaves the entry of every other integer unchanged. This is the converse direction of the key conversion. |
| TermCache.StoredNoneReadsAsMissing | pheme/anonymize/termcache.py:29-35 | A stored None cannot be told apart from a missing key by a lookup. |
| Alter.FixedLengthString | pheme/anonymize/alter.py:20-21 | The builder fails with ValueError exactly when the prefix is longer than the requested length. |
| Alter.GenerateLetters | pheme/anonymize/alter.py:23-29 | The output is the prefix followed by random lower-case letters up to the length, then capitalized. If the prefix is already as long as the length, nothing is added. |
| Alter.LettersEveryFillReachable | pheme/anonymize/alter.py:26-29 | Every lower-case fill of the right length is produced by some random stream, so the contract above is exact. |
| Alter.LettersFullPrefix | pheme/anonymize/alter.py:26-29 | A prefix that fills the whole length comes back capitalized with no draw added: "tom" of length 3 gives "Tom". |
| Alter.LettersWithoutPrefix | pheme/anonymize/alter.py:26-29 | With no prefix, the output is one capital letter followed by lower-case letters, to the full length. |
| Alter.LettersAvoid | pheme/anonymize/alter.py:26-29 | A non-letter character that is not in the prefix never appears in the output. |
| Alter.FixedLengthDigits | pheme/anonymize/alter.py:47-55 | Without a point frequency, the point is scheduled at the length, which is never reached. With one, it must be two integers, else ValueError, and the choices are `range(lo, hi)`. |
| Alter.GenerateDigits | pheme/anonymize/alter.py:57-70 | The output has exactly the length and holds only digits and points. It fails with IndexError exactly when the point choices are empty. |
| Alter.GenerateDigitsWalk | pheme/anonymize/alter.py:60-70 | The first point falls at the first drawn position. Each later point falls one drawn choice after the previous one. Any point still pending is out of reach of the end. |
| Alter.DigitsPointSpacing | pheme/anonymize/alter.py:47-70 | For point frequency (lo, hi): the first point sits at an index in [lo, hi), and the gap of digits between two consecutive points is in [lo, hi). |
| Alter.DigitsPointEveryHi | pheme/anonymize/alter.py:47-70 | For point frequency (lo, hi) with lo at least 0, every window of hi consecutive characters holds a point. |
| Alter.PointCountBound | pheme/anonymize/alter.py:63-69 | A string with a point in every window of width w holds at least (len - w + 1) / w points. |
| Alter.DigitsWithoutFrequencyHaveNoPoint | pheme/anonymize/alter.py:54-55 | Without a point frequency, the output is all digits, of exactly the length. |
| Alter.DigitsFixedGap | pheme/anonymize/alter.py:57-70 | With choices [f] and f below the length, the one offset serves both the first point and every gap. The points sit exactly at f, 2f+1, 3f+2, and so on. So there is a second point at 2f+1 whenever that is inside, and none when the length is at most 2f+1. |
| Alter.SinglePointAgrees | pheme/anonymize/alter.py:57-70 | The generator with choices [f], and a generator that places one point at f and no later one, produce the same text and stream when f is negative or 2f+1 is at or past the end. |
| Alter.RandomDateDelta | pheme/anonymize/alter.py:97-113 | A delta already cached for the ballpark is reused. Otherwise a ballpark under five years fails with ValueError. Otherwise the delta is within 10% of the ballpark and is stored under the ballpark's key. |
| Alter.TenYearDeltaKey | pheme/anonymize/alter.py:97 | The cache key for a 3650-day ballpark is the Python timedelta text: "date_delta-3650 days, 0:00:00". |
| Alter.ParseLenient | pheme/anonymize/alter.py:123-131 | The input is parsed in the format. A full timestamp that fails to parse but has 8 characters is retried as a date only. Any other failure is ValueError. |
| Alter.ShiftMoment | pheme/anonymize/alter.py:132 | Adding the delta gives TypeError when the cached delta is not a number, and OverflowError when the sum leaves the range of `datetime` (years 1 to 9999). Otherwise it succeeds and moves the moment by exactly the delta. |
| Alter.ShiftText | pheme/anonymize/alter.py:115-133 | Every outcome of shifting text is stated. With no format the result is TypeError. An unparseable input is ValueError. A non-numeric delta is TypeError. A shift out of range is OverflowError. A moment `strftime` refuses is ValueError. Otherwise it succeeds with the parsed moment moved by the delta, rendered in the same format. |
| Alter.ShiftTextPreservesSpacing | pheme/anonymize/alter.py:115-133 | With a calendar whose render inverts parse, two shifted dates lie exactly as far apart as the originals. Shifting therefore preserves the order of events. |
| Alter.ShiftPreservesSpacing | pheme/anonymize/alter.py:132 | Shifting two moments by one delta, when both shifts succeed, keeps their difference, and keeps their order in both directions. |
| Resolver.AnonTerm | pheme/anonymize/alter.py:138-162 | An empty term is returned as is. A cached substitute is returned, whatever the generator. Otherwise the generator runs once, and its result is stored under the term and returned. |
| Resolver.AnonTermRepeat | pheme/anonymize/alter.py:144-145 | Resolving a term a second time gives the first substitute and changes nothing, with any generator and any stream. |
| Resolver.InstancesConstructed | pheme/anonymize/field_map.py:132-140 | The module-level generators are built without error, with the lengths, prefixes and point frequency the source gives them. |
| Resolver.MsgControlIdKeepsCounter | pheme/anonymize/field_map.py:143-159 | The last four characters of a control id, its counter, are carried over verbatim. |
| Resolver.MsgControlIdLength | pheme/anonymize/field_map.py:155-159 | On a fresh cache, a 28-character control id keeps its length: ten digits, the shifted timestamp, and the counter. This holds when the shifted timestamp is in range and renders in 14 characters. |
| Resolver.FacilityFewParts | pheme/anonymize/field_map.py:176-178 | A value with fewer than three `&` parts becomes one 30-character dotted sequence, stored for the whole value. |
| Resolver.FacilityThreeParts | pheme/anonymize/field_map.py:179-181 | When nothing is cached for the first two parts, a value with three or more parts becomes exactly three. They are the site-name substitute of part one, the dotted substitute of part two, and part three unchanged. Further parts are dropped. For cached parts see `Resolver.FacilityReusesCached`. |
| Resolver.FacilityReusesCached | pheme/anonymize/field_map.py:169-181 | When the first two parts already have cached substitutes, for example from MSH-4.1 and MSH-4.2, the facility joins exactly those with part three. The cache and the stream stay as they were. |
| Resolver.SiteNamePart | pheme/anonymize/field_map.py:179 | When nothing is cached for it, the first facility part becomes a 12-character name starting with "Site ", and it is stored for the part. |
| Resolver.DottedPart | pheme/anonymize/field_map.py:180 | The second facility part becomes a 30-character dotted sequence, or reuses an `&`-free cached value. |
| Resolver.ZipShape | pheme/anonymize/field_map.py:184-194 | A zip code becomes exactly 5 characters: the first three kept plus two digits, or five digits when it is shorter. The cache is not used. |
| Resolver.TypeMagnitudeInteger | pheme/anonymize/field_map.py:207-209 | An integer-looking value becomes digits of the same length, stored for the value. |
| Resolver.TypeMagnitudeFloat | pheme/anonymize/field_map.py:211-215 | A float-looking value with its first point at f becomes a string of the same length, stored for the value. Its points sit exactly at f, 2f+1, 3f+2, and so on, so a second point appears at 2f+1 whenever that is inside. |
| Resolver.TypeMagnitudeFloatNoPoint | pheme/anonymize/field_map.py:211-215 | A float-looking value without a point, such as "1e5" or "nan", becomes digits only, of the same length, stored for the value. |
| Resolver.FloatSecondPoint | pheme/anonymize/field_map.py:211-215 | "0.75" becomes a 4-character string with points at indices 1 and 3, which is not float-like. |
| Resolver.TypeMagnitudeCorrectedFloat | pheme/anonymize/field_map.py:197-201 | The corrected float case gives a float-looking value one point, exactly where the input's first point is, and digits everywhere else. The result has the same length and is stored for the value. |
| Resolver.TypeMagnitudeAgree | pheme/anonymize/field_map.py:205-217 | The code as written and the corrected one agree on every input with no point, or with its first point at f and 2f+1 at or past the end, such as "98.6". |
| Resolver.IntLikeExamples | pheme/anonymize/field_map.py:207-208 | `int()` accepts "- 5" and " 42\n", with whitespace after the sign and around the number. It rejects a bare "+" and "4 2". |
| Resolver.TypeMagnitudeOther | pheme/anonymize/field_map.py:216-217 | Anything else becomes a fresh 10-letter capitalized string. `type_and_magnitude` itself does not cache it; the caller's `anon_term` stores it. |
| FieldMap.SegmentKey | pheme/anonymize/field_map.py:67-80 | The key is returned exactly when it matches `^[A-Z]{2}[A-Z0-9]$`, where `$` also accepts one final newline. |
| FieldMap.FormatParseRoundTrip | pheme/anonymize/field_map.py:57-63 | Parsing the key written for a coordinate gives back that coordinate. For MSH, FHS and BHS the element is stored one lower than written. |
| FieldMap.ShiftedKeyExample | pheme/anonymize/field_map.py:50-54 | "MSH-3.2" is stored at element 2, component 2. |
| FieldMap.UnshiftedKeyExample | pheme/anonymize/field_map.py:61-63 | "EVN-3.1" keeps element 3. |
| FieldMap.LeadingZeroSameLeaf | pheme/anonymize/field_map.py:57-63 | Keys that differ only by a leading zero in the element name the same leaf. |
| FieldMap.MissingComponentExample | pheme/anonymize/field_map.py:57-65 | A key without a component number is a ValueError. |
| FieldMap.SetThenGet | pheme/anonymize/field_map.py:82-107 | After a successful set, `__contains__` is true for the key and `__getitem__` returns the value. |
| FieldMap.SetKeepsOtherLeaves | pheme/anonymize/field_map.py:82-92 | A set changes only the leaf its key names. Every other leaf reads as before. |
| FieldMap.SetOverwrites | pheme/anonymize/field_map.py:85-88 | Setting a key twice leaves the second value, exactly as if only the second set had happened. |
| FieldMap.SegmentKeyCannotBeSet | pheme/anonymize/field_map.py:82-84 | Setting with the bare segment key "MSH" is a ValueError: a segment key names no leaf. |
| FieldMap.Contains | pheme/anonymize/field_map.py:109-125 | A segment key tests for the segment. A triple key tests for its leaf. Any other key is a ValueError rather than False. |
| FieldMap.SegmentEntryHoldsLeaves | pheme/anonymize/field_map.py:94-107 | The dictionary `__getitem__` returns for a segment holds exactly the leaves that triple keys of that segment reach. |
| AnonMap.RowKeyParses | pheme/anonymize/field_map.py:220-301 | The key written for each table line parses to that line's coordinate, with the MSH/FHS/BHS offset applied. |
| AnonMap.BuildSpec | pheme/anonymize/field_map.py:220-301 | Setting the table line by line succeeds. Every coordinate then holds the generator of the last line naming it, or what it held before. |
| AnonMap.AnonMapOf | pheme/anonymize/field_map.py:128-136 | Building the map fails exactly when the day-shift delta cannot be made. Otherwise every leaf is the table's entry for it. |
| AnonMap.Configure | pheme/anonymize/field_map.py:135-136 | `yyyymm` and `ymdhms` share one cached delta, with formats "%Y%m" and "%Y%m%d%H%M%S". |
| AnonMap.AnonMapPositive | pheme/anonymize/field_map.py:220-301 | Every coordinate in the built map has an element of 0 or above and a component of 1 or above. |
| AnonMap.MshSendingIdEntry | pheme/anonymize/field_map.py:244 | MSH-3.2 is stored at element 2, component 2, with the dotted sequence. |
| AnonMap.MshTimeEntry | pheme/anonymize/field_map.py:251 | MSH-7.1 is stored at element 6 with the full-timestamp date shift. |
| AnonMap.BirthDateEntry | pheme/anonymize/field_map.py:262 | PID-7.1 is shifted with the year-month generator. |
| AnonMap.ObservationEntry | pheme/anonymize/field_map.py:291 | OBX-5.1 uses `type_and_magnitude`. |
| Mbds.PyIndex | pheme/anonymize/mbds_hl7.py:39-44 | A Python index reaches an item exactly when it lies in [-n, n). Negative indices count from the end. |
| Mbds.RewriteAt | pheme/anonymize/mbds_hl7.py:37-46 | A position the segment does not have is skipped unchanged. Otherwise only that component changes, to its substitute. |
| Mbds.ProcessSegment | pheme/anonymize/mbds_hl7.py:32-46 | A segment without a tag is IndexError. A segment whose tag is not mapped is kept, and a mapped one is rewritten by its entry. As written, the membership test goes through the field map, with these outcomes. A tag that is neither a segment tag nor a triple key is ValueError. A tag that is a triple key naming a stored leaf is AttributeError, because `.keys()` is then called on a generator. Any other triple key is kept. |
| Mbds.RewriteSegmentSpec | pheme/anonymize/mbds_hl7.py:34-46 | Each component named by the segment's entry holds its substitute. Every other component is unchanged. |
| Mbds.ProcessMessageSpec | pheme/anonymize/mbds_hl7.py:32-46 | In the whole message, exactly the mapped components are replaced by their final cached substitutes, and the message keeps its shape. |
| Mbds.ConsistentSubstitution | pheme/anonymize/mbds_hl7.py:45-46 | Two mapped components with equal text get equal substitutes anywhere in a message. |
| Mbds.CachedTermsReused | pheme/anonymize/mbds_hl7.py:45-46 | A mapped component whose text was already cached gets the cached substitute. |
| Mbds.Anonymize | pheme/anonymize/mbds_hl7.py:21-48 | An instance already anonymized is returned unchanged. Otherwise the result is marked anonymized, keeps the message's shape, and only adds to the cache. |
| Mbds.AnonymizeIdempotent | pheme/anonymize/mbds_hl7.py:27-29 | Anonymizing an anonymized instance again returns it unchanged, with the cache and stream untouched. |
| Mbds.SegmentModesAgree | pheme/anonymize/mbds_hl7.py:34 | For a well-formed tag, testing `segment in anon_map` through `FieldMap.__contains__` agrees with plain membership. |
| Mbds.ModesAgree | pheme/anonymize/mbds_hl7.py:32-46 | For messages whose tags are all well-formed, the pass as written and the corrected pass give the same result. |
| Mbds.MalformedTagAborts | pheme/anonymize/mbds_hl7.py:32-34 | As written, a message fails with ValueError at its first segment if that tag is neither a segment tag nor a triple key, whatever segments follow. |
| Mbds.UnkeyedSegmentAborts | pheme/anonymize/mbds_hl7.py:34 | As written, a message with a segment tagged "Z01" fails with ValueError. |
| Mbds.UnkeyedSegmentKept | pheme/anonymize/mbds_hl7.py:34 | With plain membership, a segment tagged "Z01" passes through unchanged. |
| Mbds.Ascending | pheme/anonymize/mbds_hl7.py:35-36 | The keys of a map entry are visited once each, in ascending order. |
| LineSplit.LineAtATime | pheme/anonymize/mbds_hl7.py:51-67 | Reading chunk by chunk gives the same lines as cutting the whole text at once, whatever the chunking. |
| LineSplit.LinesShape | pheme/anonymize/mbds_hl7.py:59-66 | No yielded line is empty, and no line but the last holds a carriage return. |
| LineSplit.LinesRejoin | pheme/anonymize/mbds_hl7.py:59-66 | Joining the yielded lines with carriage returns gives back the input, up to one final terminator. |
| LineSplit.EmptyLineStalls | pheme/anonymize/mbds_hl7.py:61 | As written, "A\r\rB" yields "A" and then "\rB": the cutting stops at an empty line. |
| LineSplit.LinesStallAtEmptyLine | pheme/anonymize/mbds_hl7.py:59-66 | As written, for any lines free of carriage returns followed by an empty line: those lines are yielded. Everything from the empty line's carriage return on then comes out as one last line. |
| LineSplit.SplitLinesIsSplit | pheme/anonymize/mbds_hl7.py:61-63 | The corrected cut is `split('\r')` without a trailing empty piece. |
| LineSplit.SplitLinesShape | pheme/anonymize/mbds_hl7.py:61-66 | The corrected lines hold no carriage return, and rejoin to the input up to one final terminator. |
| LineSplit.LinesAgree | pheme/anonymize/mbds_hl7.py:61-66 | On text without empty lines, the loop as written and the corrected cut agree. |
| PyText.SplitJoin | pheme/anonymize/field_map.py:176-181 | Splitting on `&` and joining on `&` are inverse for parts free of the separator. |
| PyText.DecimalRoundTrip | pheme/anonymize/field_map.py:63 | `int()` of the decimal text of a natural number is that number. |
| PyText.Capitalize | pheme/anonymize/alter.py:29 | The first character is upper-cased and all others are lower-cased, with the length kept. |

## Left out

- The shelve file behind the term cache and its `sync`. The cache is a value passed in and returned.
- `Config` and the `dayshift` setting. The day shift is a parameter of `AnonMap.Configure`.
- The command-line entry points `lookup_term_ep`, `store_term_ep` and `anonymize_file`, together with `argparse`, `print` and stdout. The guard of `store_term_ep` is kept as `TermCache.StoreGuarded`.
- `hl7.parse` and `str(unicode(msg))`. A message is given already parsed, as segments of fields of components, and the output stays in that form.
- `db_static_data.py` and `setup.py`, which are not part of the anonymizing logic.
- The distributions of `random.choice` and `random.triangular`. Only which outputs are possible is modelled, not their probabilities.
- Alter.RandomDateDelta: the delta is a whole number of seconds anywhere within a tenth of the ballpark. The source draws a float from a triangular distribution, and the model keeps only its range.
- Alter.ParseLenient: `strptime` and `strftime` are the functions of a `Calendar` parameter. Format directives themselves are not modelled. When `render` returns None, `strftime` refuses the moment; Python 2 refuses years before 1900.
- Resolver.TypeMagnitude: `int()` and `float()` are the predicates `IntLike` and `FloatLike`. They are written from Python 2's conversion rules, not taken from the runtime.
  - `IntLike` accepts surrounding whitespace, an optional sign, optional whitespace after the sign, and decimal digits.
  - `FloatLike` accepts surrounding whitespace and an optional sign around one of two forms: a mantissa with at most one point and an optional signed exponent, or `inf`, `infinity` or `nan` in any case.
  - Only ASCII whitespace is recognised, and locale-specific forms are not modelled.
- Resolver.MsgControlId: it is modelled as a generator but, as in the source, it is not in the table.
- Mbds.ProcessMessage: a failure returns only the error, not the partly updated cache. In the source, substitutes stored before an exception stay in the shelf.
- Mbds.Anonymize: a failure returns only the error, not the instance. The source rewrites `self.msg` in place and sets `_anonymized` only at the end. After an exception part-way through, the instance holds a partly anonymized message that is not marked as anonymized. The model does not keep that state.
- Mbds.ProcessMessageSpec: the key order is ascending. Python 2 dictionaries iterate in hash order, which the model does not reproduce, and the substitution properties do not depend on the order.
- Mbds.ProcessMessageSpec: the per-component statement assumes every coordinate in the map has element 0 or above and component 1 or above. The built table meets this, as `AnonMap.AnonMapPositive` shows.
- LineSplit.LineAtATime: `readlines()` is replaced by the sequence of chunks it returns.
- `message_at_a_time`, `ALPHA` and `ten_digits_starting_w_1` are imported elsewhere but are not defined in the source files of the package, so they are not part of this model. The importers are test_mbds.py:4, test_alter.py:4, test_field_map.py:7 and db_static_data.py:16.
- Alter.GenerateLetters, Alter.GenerateDigits, Alter.ShiftText: `assert(initial)` (alter.py:25, 59, 122) is modelled as the precondition `initial != ""`, not as an `Err` carrying AssertionError. No caller in the package passes an empty term. `anon_term` returns an empty term before calling the generator (alter.py:153-154), and `zipcode` and `type_and_magnitude` check for it first (field_map.py:189-190, 205-206).

## Findings

| source | as written | input that shows it | evidently intended | confidence | as-written member | corrected member |
|---|---|---|---|---|---|---|
| pheme/anonymize/mbds_hl7.py:34 | `segment in anon_map` goes through `FieldMap.__contains__`. A tag that is not `[A-Z]{2}[A-Z0-9]` is then parsed as a triple key, which raises ValueError. | a message whose only segment is tagged "Z01" (`[[["Z01"]]]`) | a segment the map does not name is passed through unchanged | not executed | Mbds.MalformedTagAborts | Mbds.UnkeyedSegmentKept |
| pheme/anonymize/mbds_hl7.py:61 | `buffered.find('\r') > 0` stops cutting once the buffer starts with a carriage return. An empty line is then glued to the rest of the batch. | "A\r\rB" yields "A" and "\rB" | every carriage return ends a line (`split('\r')`) | not executed | LineSplit.LinesStallAtEmptyLine | LineSplit.SplitLinesIsSplit |
| pheme/anonymize/field_map.py:213 | `fixed_length_digits(len(initial), (lenb4, lenb4+1))` makes `lenb4` the only offset. `fixed_len` uses it for the first point and again for every gap (alter.py:66), so a second point follows at `2*lenb4+1` whenever that is inside. | "0.75" becomes a string shaped `d.d.`, and ".5" becomes ".." | a float keeps its shape: one point, where the input's is | not executed | Resolver.FloatSecondPoint | Resolver.TypeMagnitudeCorrectedFloat |

The corrected membership test is the `Plain` mode of `Mbds.ProcessMessage`:

- `Mbds.ProcessMessageSpec` states its behaviour.
- `Mbds.ModesAgree` shows that it agrees with the code as written whenever every tag is well-formed.

The corrected line cutter is `LineSplit.SplitLines`:

- `LineSplit.SplitLinesShape` states its behaviour.
- `LineSplit.LinesAgree` shows that it agrees with the code as written on text without empty lines.

The corrected float case is `Resolver.TypeMagnitudeCorrected`, which uses the single-point generator `Alter.SinglePointDigits`:

- `Resolver.TypeMagnitudeCorrectedFloat` states its behaviour.
- `Resolver.TypeMagnitudeAgree` shows that it agrees with the code as written when the input has no point, or when the gap after its point would already run past the end. This covers "98.6", the float in test_field_map.py:26.

=== FILE: alter.dfy ===
/** The substitution generators of `alter.py`.

  Randomness is an explicit stream of draws: a call of `random.choice` over
  `n` items takes the next draw modulo `n`, so every choice the source could
  make is the outcome of some stream, and the properties below hold for all
  streams.  An exhausted stream reads as a run of zeros.

  Date-times are whole seconds; `strptime` and `strftime` are the two
  functions of a `Calendar` value supplied by the caller.
 */
module Alter {
  import opened Results
  import opened PyText
  import opened TermCache

  type Rng = seq<nat>

  /** `random.choice` over `n` items: the index chosen and the rest of the stream. */
  function Choose(rng: Rng, n: nat): (r: (nat, Rng))
    requires n > 0
    ensures r.0 < n
    ensures rng != [] ==> r == (rng[0] % n, rng[1..])
  {
    if rng == [] then (0, []) else (rng[0] % n, rng[1..])
  }

  // ---------------------------------------------------------------------------
  // fixed_length_string

  /** The parameters of a `fixed_length_string` generator. */
  datatype LetterSpec = LetterSpec(length: int, prefix: string)

  /** `fixed_length_string(length, prefix)`: ValueError when the prefix is
      longer than the requested length. */
  function FixedLengthString(length: int, prefix: string): (r: Result<LetterSpec>)
    ensures r.Err? <==> length < |prefix|
    ensures r.Err? ==> r.error == ValueError
    ensures r.Ok? ==> r.value.length == length && r.value.prefix == prefix
  {
    if length < |prefix| then Err(ValueError) else Ok(LetterSpec(length, prefix))
  }

  /** `n` draws from `string.ascii_lowercase`. */
  function RandomLetters(n: nat, rng: Rng): (r: (string, Rng))
    ensures |r.0| == n && AllLower(r.0)
  {
    if n == 0 then ("", rng)
    else
      var (k, r1) := Choose(rng, 26);
      var (rest, r2) := RandomLetters(n - 1, r1);
      ([('a' as int + k) as char] + rest, r2)
  }

  /** The number of random letters appended after the prefix. */
  function FillLength(spec: LetterSpec): nat {
    if spec.length <= |spec.prefix| then 0 else spec.length - |spec.prefix|
  }

  /** The generated `fixed_len(initial)`: the prefix padded with random lower-case
      letters to the fixed length, then capitalized. */
  function GenerateLetters(spec: LetterSpec, initial: string, rng: Rng): (r: (string, Rng))
    requires initial != ""
    ensures |r.0| == |spec.prefix| + FillLength(spec)
    ensures exists fill :: |fill| == FillLength(spec) && AllLower(fill) && r.0 == Capitalize(spec.prefix + fill)
  {
    var (fill, r1) := RandomLetters(FillLength(spec), rng);
    assert AllLower(fill);
    (Capitalize(spec.prefix + fill), r1)
  }

  /** The draws that make `RandomLetters` produce exactly `w`. */
  function LetterDraws(w: string): (d: Rng)
    requires AllLower(w)
    ensures |d| == |w|
  {
    if w == [] then [] else [w[0] as int - 'a' as int] + LetterDraws(w[1..])
  }

  lemma {:induction false} RandomLettersReaches(w: string, tail: Rng)
    requires AllLower(w)
    ensures RandomLetters(|w|, LetterDraws(w) + tail) == (w, tail)
  {
    if w != [] {
      var d := LetterDraws(w) + tail;
      assert d[1..] == LetterDraws(w[1..]) + tail;
      var k := w[0] as int - 'a' as int;
      assert d[0] == k && 0 <= k < 26;
      assert Choose(d, 26) == (k, d[1..]);
      RandomLettersReaches(w[1..], tail);
      assert |w[1..]| == |w| - 1;
      var (rest, r2) := RandomLetters(|w| - 1, d[1..]);
      assert rest == w[1..] && r2 == tail;
      assert RandomLetters(|w|, d) == ([('a' as int + k) as char] + rest, r2);
      assert [('a' as int + k) as char] + w[1..] == w;
    } else {
      assert LetterDraws(w) + tail == tail;
    }
  }

  /** Every admissible output is produced by some stream: for any lower-case fill
      of the right length there are draws making the generator emit
      `capitalize(prefix + fill)`. */
  lemma {:induction false} LettersEveryFillReachable(spec: LetterSpec, initial: string, fill: string)
    requires initial != ""
    requires |fill| == FillLength(spec) && AllLower(fill)
    ensures GenerateLetters(spec, initial, LetterDraws(fill)).0 == Capitalize(spec.prefix + fill)
  {
    RandomLettersReaches(fill, []);
    assert LetterDraws(fill) + [] == LetterDraws(fill);
  }

  /** A prefix as long as the length leaves nothing to chance:
      `fixed_length_string(3, 'tom')` always yields `'Tom'`. */
  lemma {:induction false} LettersFullPrefix(initial: string, rng: Rng)
    requires initial != ""
    ensures FixedLengthString(3, "tom") == Ok(LetterSpec(3, "tom"))
    ensures GenerateLetters(LetterSpec(3, "tom"), initial, rng).0 == "Tom"
  {
    var r := GenerateLetters(LetterSpec(3, "tom"), initial, rng).0;
    assert FillLength(LetterSpec(3, "tom")) == 0;
    var fill :| |fill| == 0 && AllLower(fill) && r == Capitalize("tom" + fill);
    assert "tom" + fill == "tom";
  }

  /** Capitalizing never introduces a character that is not a letter. */
  lemma {:induction false} CapitalizeKeepsOthers(s: string, ch: char)
    requires !IsLower(ch) && !IsUpper(ch) && ch !in s
    ensures ch !in Capitalize(s)
  {
    var r := Capitalize(s);
    forall i | 0 <= i < |r|
      ensures r[i] != ch
    {
      assert s[i] != ch;
    }
  }

  /** A character that is neither a letter nor in the prefix never appears in
      a generated string: a site name holds no `&`. */
  lemma {:induction false} LettersAvoid(spec: LetterSpec, initial: string, rng: Rng, ch: char)
    requires initial != ""
    requires !IsLower(ch) && !IsUpper(ch) && ch !in spec.prefix
    ensures ch !in GenerateLetters(spec, initial, rng).0
  {
    var r := GenerateLetters(spec, initial, rng).0;
    var fill :| |fill| == FillLength(spec) && AllLower(fill) && r == Capitalize(spec.prefix + fill);
    assert ch !in spec.prefix + fill by {
      forall i | 0 <= i < |spec.prefix + fill|
        ensures (spec.prefix + fill)[i] != ch
      {
        if i >= |spec.prefix| {
          assert IsLower(fill[i - |spec.prefix|]);
        } else {
          assert spec.prefix[i] in spec.prefix;
        }
      }
    }
    CapitalizeKeepsOthers(spec.prefix + fill, ch);
  }

  /** Without a prefix the result is one upper-case letter followed by
      lower-case letters. */
  lemma {:induction false} LettersWithoutPrefix(spec: LetterSpec, initial: string, rng: Rng)
    requires initial != "" && spec.prefix == "" && spec.length > 0
    ensures var r := GenerateLetters(spec, initial, rng).0;
      |r| == spec.length && IsUpper(r[0]) && forall i :: 0 < i < |r| ==> IsLower(r[i])
  {
    var r := GenerateLetters(spec, initial, rng).0;
    var fill :| |fill| == FillLength(spec) && AllLower(fill) && r == Capitalize(spec.prefix + fill);
    assert spec.prefix + fill == fill;
    assert IsLower(fill[0]);
  }

  // ---------------------------------------------------------------------------
  // fixed_length_digits

  /** An argument of the `pointfrequency` tuple: an int or anything else. */
  datatype Arg = IntArg(i: int) | OtherArg(text: string)

  /** The parameters of a `fixed_length_digits` generator: the length and the
      offsets a point may be placed at after the previous one. */
  datatype DigitSpec = DigitSpec(length: int, pointchoice: seq<int>)

  /** `range(lo, hi)` */
  function Range(lo: int, hi: int): (r: seq<int>)
    ensures |r| == if lo < hi then hi - lo else 0
    ensures forall x :: x in r <==> lo <= x < hi
    decreases hi - lo
  {
    if lo >= hi then [] else [lo] + Range(lo + 1, hi)
  }

  /** `fixed_length_digits(length, pointfrequency)`.  An empty `pointfrequency`
      stands for None and every other falsy value; without one the only point
      offset is `length` itself, which is never reached. */
  function FixedLengthDigits(length: int, pointfrequency: seq<Arg>): (r: Result<DigitSpec>)
    ensures |pointfrequency| == 0 ==> r == Ok(DigitSpec(length, [length]))
    ensures |pointfrequency| > 0 ==>
      (r.Ok? <==> |pointfrequency| == 2 && pointfrequency[0].IntArg? && pointfrequency[1].IntArg?)
    ensures r.Err? ==> r.error == ValueError
    ensures r.Ok? && |pointfrequency| > 0 ==>
      r.value == DigitSpec(length, Range(pointfrequency[0].i, pointfrequency[1].i))
  {
    if |pointfrequency| == 0 then Ok(DigitSpec(length, [length]))
    else if |pointfrequency| != 2 || !pointfrequency[0].IntArg? || !pointfrequency[1].IntArg? then
      Err(ValueError)
    else Ok(DigitSpec(length, Range(pointfrequency[0].i, pointfrequency[1].i)))
  }

  predicate DigitOrPoint(s: string) {
    forall j :: 0 <= j < |s| ==> s[j] == '.' || IsDigit(s[j])
  }

  /** The loop of the generated `fixed_len`, from position `i` on, with the
      pending point position `next`. */
  function Walk(i: int, length: int, next: int, pc: seq<int>, rng: Rng): (r: (string, Rng))
    requires |pc| > 0
    ensures |r.0| == if i >= length then 0 else length - i
    ensures DigitOrPoint(r.0)
    decreases length - i
  {
    if i >= length then ("", rng)
    else if i == next then
      var (k, r1) := Choose(rng, |pc|);
      var (rest, r2) := Walk(i + 1, length, i + 1 + pc[k], pc, r1);
      (['.'] + rest, r2)
    else
      var (d, r1) := Choose(rng, 10);
      var (rest, r2) := Walk(i + 1, length, next, pc, r1);
      ([DigitChar(d)] + rest, r2)
  }

  /** The generated `fixed_len(initial)`: IndexError when the point range is
      empty (the first `random.choice` fails); otherwise `length` characters,
      each a digit or a point. */
  function GenerateDigits(spec: DigitSpec, initial: string, rng: Rng): (r: Result<(string, Rng)>)
    requires initial != ""
    ensures r.Err? <==> |spec.pointchoice| == 0
    ensures r.Err? ==> r.error == IndexError
    ensures r.Ok? ==> |r.value.0| == (if spec.length < 0 then 0 else spec.length)
    ensures r.Ok? ==> DigitOrPoint(r.value.0)
  {
    if |spec.pointchoice| == 0 then Err(IndexError)
    else
      var (k, r1) := Choose(rng, |spec.pointchoice|);
      Ok(Walk(0, spec.length, spec.pointchoice[k], spec.pointchoice, r1))
  }

  /** The first point of a walk `o` from position `i` sits at `next`. */
  ghost predicate FirstPointAt(o: string, i: int, next: int) {
    forall j :: IsFirstPoint(o, j) ==> i + j == next
  }

  /** `o` has its first point at `j`. */
  predicate IsFirstPoint(o: string, j: int) {
    0 <= j < |o| && o[j] == '.' && '.' !in o[..j]
  }

  /** A pending position inside the range of a walk from `i` gets its point. */
  predicate PendingPlaced(o: string, i: int, next: int) {
    i <= next < i + |o| ==> o[next - i] == '.'
  }

  /** Consecutive points sit `1 + c` apart, `c` one of the offsets. */
  ghost predicate GapsFrom(o: string, pc: seq<int>) {
    forall j, k :: IsGap(o, j, k) ==> k - j - 1 in pc
  }

  /** `o` has points at `j` and `k` and none in between. */
  predicate IsGap(o: string, j: int, k: int) {
    0 <= j < k < |o| && o[j] == '.' && o[k] == '.' && '.' !in o[j + 1..k]
  }

  /** After the last point of a walk from `i` the next scheduled position is out of reach. */
  predicate TailOutOfReach(o: string, i: int, length: int, pc: seq<int>) {
    forall j :: 0 <= j < |o| && o[j] == '.' && '.' !in o[j + 1..] ==>
      exists c :: c in pc && (c < 0 || i + j + 1 + c >= length)
  }

  lemma {:induction false} ConsFirstPoint(o: string, x: char, rest: string, i: int, next: int)
    requires o == [x] + rest
    requires x == '.' ==> i == next
    requires x != '.' ==> FirstPointAt(rest, i + 1, next)
    ensures FirstPointAt(o, i, next)
  {
    forall j | IsFirstPoint(o, j)
      ensures i + j == next
    {
      if j > 0 {
        assert o[..j] == [x] + rest[..j - 1];
        assert rest[j - 1] == o[j];
        assert IsFirstPoint(rest, j - 1);
      }
    }
  }

  lemma {:induction false} ConsGaps(o: string, x: char, rest: string, i: int, c: int, pc: seq<int>)
    requires o == [x] + rest
    requires GapsFrom(rest, pc)
    requires x == '.' ==> c in pc && FirstPointAt(rest, i + 1, i + 1 + c)
    ensures GapsFrom(o, pc)
  {
    forall j, k | IsGap(o, j, k)
      ensures k - j - 1 in pc
    {
      if j == 0 {
        GapFromHead(x, rest, i, c, k);
      } else {
        GapInRest(x, rest, pc, j, k);
      }
    }
  }

  /** The gap from a leading point to the first point of the rest. */
  lemma {:induction false} GapFromHead(x: char, rest: string, i: int, c: int, k: int)
    requires 0 < k <= |rest| && rest[k - 1] == '.' && '.' !in ([x] + rest)[1..k]
    requires FirstPointAt(rest, i + 1, i + 1 + c)
    ensures k - 1 == c
  {
    assert rest[..k - 1] == ([x] + rest)[1..k];
    assert IsFirstPoint(rest, k - 1);
  }

  /** A gap between two points of the rest. */
  lemma {:induction false} GapInRest(x: char, rest: string, pc: seq<int>, j: int, k: int)
    requires GapsFrom(rest, pc)
    requires 0 < j < k <= |rest| && rest[j - 1] == '.' && rest[k - 1] == '.'
    requires '.' !in ([x] + rest)[j + 1..k]
    ensures k - j - 1 in pc
  {
    assert rest[j..k - 1] == ([x] + rest)[j + 1..k];
    assert IsGap(rest, j - 1, k - 1);
  }

  lemma {:induction false} ConsTail(o: string, x: char, rest: string, i: int, length: int, pc: seq<int>)
    requires o == [x] + rest
    requires TailOutOfReach(rest, i + 1, length, pc)
    requires x == '.' && '.' !in rest ==> exists c :: c in pc && (c < 0 || i + 1 + c >= length)
    ensures TailOutOfReach(o, i, length, pc)
  {
    forall j | 0 <= j < |o| && o[j] == '.' && '.' !in o[j + 1..]
      ensures exists c :: c in pc && (c < 0 || i + j + 1 + c >= length)
    {
      if j == 0 {
        assert o[1..] == rest;
      } else {
        assert rest[j - 1] == o[j];
        assert rest[j..] == o[j + 1..];
      }
    }
  }

  /** A walk that reaches its pending position places a point there and
      draws the offset `pc[k]` of the next one. */
  lemma {:induction false} WalkPoint(i: int, length: int, pc: seq<int>, rng: Rng, k: nat, r1: Rng)
    requires |pc| > 0 && i < length
    requires k == Choose(rng, |pc|).0 && r1 == Choose(rng, |pc|).1
    ensures k < |pc|
    ensures Walk(i, length, i, pc, rng).0 == ['.'] + Walk(i + 1, length, i + 1 + pc[k], pc, r1).0
  {
  }

  /** Anywhere else a walk places the digit `d`. */
  lemma {:induction false} WalkDigit(i: int, length: int, next: int, pc: seq<int>, rng: Rng, d: nat, r1: Rng)
    requires |pc| > 0 && i < length && i != next
    requires d == Choose(rng, 10).0 && r1 == Choose(rng, 10).1
    ensures Walk(i, length, next, pc, rng).0 == [DigitChar(d)] + Walk(i + 1, length, next, pc, r1).0
  {
  }

  lemma {:induction false} WalkFirstPoint(i: int, length: int, next: int, pc: seq<int>, rng: Rng)
    requires |pc| > 0
    ensures FirstPointAt(Walk(i, length, next, pc, rng).0, i, next)
    decreases length - i
  {
    if i < length {
      if i == next {
        var k, r1 := Choose(rng, |pc|).0, Choose(rng, |pc|).1;
        WalkPoint(i, length, pc, rng, k, r1);
        ConsFirstPoint(Walk(i, length, next, pc, rng).0, '.', Walk(i + 1, length, i + 1 + pc[k], pc, r1).0, i, next);
      } else {
        var d, r1 := Choose(rng, 10).0, Choose(rng, 10).1;
        WalkDigit(i, length, next, pc, rng, d, r1);
        WalkFirstPoint(i + 1, length, next, pc, r1);
        ConsFirstPoint(Walk(i, length, next, pc, rng).0, DigitChar(d), Walk(i + 1, length, next, pc, r1).0, i, next);
      }
    }
  }

  lemma {:induction false} WalkPendingPlaced(i: int, length: int, next: int, pc: seq<int>, rng: Rng)
    requires |pc| > 0
    ensures PendingPlaced(Walk(i, length, next, pc, rng).0, i, next)
    decreases length - i
  {
    if i < length && i != next {
      var d, r1 := Choose(rng, 10).0, Choose(rng, 10).1;
      WalkDigit(i, length, next, pc, rng, d, r1);
      WalkPendingPlaced(i + 1, length, next, pc, r1);
      var rest := Walk(i + 1, length, next, pc, r1).0;
      if i <= next < i + 1 + |rest| {
        assert ([DigitChar(d)] + rest)[next - i] == rest[next - (i + 1)];
      }
    } else if i < length {
      WalkPoint(i, length, pc, rng, Choose(rng, |pc|).0, Choose(rng, |pc|).1);
    }
  }

  lemma {:induction false} WalkGaps(i: int, length: int, next: int, pc: seq<int>, rng: Rng)
    requires |pc| > 0
    ensures GapsFrom(Walk(i, length, next, pc, rng).0, pc)
    decreases length - i, 1
  {
    if i < length && i == next {
      GapsAtPoint(i, length, pc, rng);
    } else if i < length {
      GapsAtDigit(i, length, next, pc, rng);
    }
  }

  /** `WalkGaps` where the walk places a point. */
  lemma {:induction false} GapsAtPoint(i: int, length: int, pc: seq<int>, rng: Rng)
    requires |pc| > 0 && i < length
    ensures GapsFrom(Walk(i, length, i, pc, rng).0, pc)
    decreases length - i, 0
  {
    var k, r1 := Choose(rng, |pc|).0, Choose(rng, |pc|).1;
    WalkPoint(i, length, pc, rng, k, r1);
    var c := pc[k];
    var rest := Walk(i + 1, length, i + 1 + c, pc, r1).0;
    WalkGaps(i + 1, length, i + 1 + c, pc, r1);
    WalkFirstPoint(i + 1, length, i + 1 + c, pc, r1);
    assert c in pc;
    ConsGaps(Walk(i, length, i, pc, rng).0, '.', rest, i, c, pc);
  }

  /** `WalkGaps` where the walk places a digit. */
  lemma {:induction false} GapsAtDigit(i: int, length: int, next: int, pc: seq<int>, rng: Rng)
    requires |pc| > 0 && i < length && i != next
    ensures GapsFrom(Walk(i, length, next, pc, rng).0, pc)
    decreases length - i, 0
  {
    var d, r1 := Choose(rng, 10).0, Choose(rng, 10).1;
    WalkDigit(i, length, next, pc, rng, d, r1);
    WalkGaps(i + 1, length, next, pc, r1);
    ConsGaps(Walk(i, length, next, pc, rng).0, DigitChar(d), Walk(i + 1, length, next, pc, r1).0, i, 0, pc);
  }

  lemma {:induction false} WalkTail(i: int, length: int, next: int, pc: seq<int>, rng: Rng)
    requires |pc| > 0
    ensures TailOutOfReach(Walk(i, length, next, pc, rng).0, i, length, pc)
    decreases length - i, 1
  {
    if i < length && i == next {
      TailAtPoint(i, length, pc, rng);
    } else if i < length {
      TailAtDigit(i, length, next, pc, rng);
    }
  }

  /** `WalkTail` where the walk places a point. */
  lemma {:induction false} TailAtPoint(i: int, length: int, pc: seq<int>, rng: Rng)
    requires |pc| > 0 && i < length
    ensures TailOutOfReach(Walk(i, length, i, pc, rng).0, i, length, pc)
    decreases length - i, 0
  {
    var k, r1 := Choose(rng, |pc|).0, Choose(rng, |pc|).1;
    WalkPoint(i, length, pc, rng, k, r1);
    var c := pc[k];
    var rest := Walk(i + 1, length, i + 1 + c, pc, r1).0;
    WalkTail(i + 1, length, i + 1 + c, pc, r1);
    WalkPendingPlaced(i + 1, length, i + 1 + c, pc, r1);
    assert c in pc;
    if 0 <= c && i + 1 + c < length {
      assert rest[c] == '.';
    }
    ConsTail(Walk(i, length, i, pc, rng).0, '.', rest, i, length, pc);
  }

  /** `WalkTail` where the walk places a digit. */
  lemma {:induction false} TailAtDigit(i: int, length: int, next: int, pc: seq<int>, rng: Rng)
    requires |pc| > 0 && i < length && i != next
    ensures TailOutOfReach(Walk(i, length, next, pc, rng).0, i, length, pc)
    decreases length - i, 0
  {
    var d, r1 := Choose(rng, 10).0, Choose(rng, 10).1;
    WalkDigit(i, length, next, pc, rng, d, r1);
    WalkTail(i + 1, length, next, pc, r1);
    ConsTail(Walk(i, length, next, pc, rng).0, DigitChar(d), Walk(i + 1, length, next, pc, r1).0, i, length, pc);
  }

  /** The four structural facts about a walk from position 0 whose first pending
      point is `c0`. */
  ghost predicate Scheduled(o: string, length: int, c0: int, pc: seq<int>) {
    && |o| == (if length < 0 then 0 else length)
    && FirstPointAt(o, 0, c0)
    && PendingPlaced(o, 0, c0)
    && GapsFrom(o, pc)
    && TailOutOfReach(o, 0, length, pc)
  }

  /** The walk a generator performs after its first draw, and its structure. */
  lemma {:induction false} GenerateDigitsWalk(spec: DigitSpec, initial: string, rng: Rng)
    requires initial != "" && |spec.pointchoice| > 0
    ensures var (k, r1) := Choose(rng, |spec.pointchoice|);
      && spec.pointchoice[k] in spec.pointchoice
      && GenerateDigits(spec, initial, rng) == Ok(Walk(0, spec.length, spec.pointchoice[k], spec.pointchoice, r1))
      && Scheduled(GenerateDigits(spec, initial, rng).value.0, spec.length, spec.pointchoice[k], spec.pointchoice)
  {
    var (k, r1) := Choose(rng, |spec.pointchoice|);
    var pc := spec.pointchoice;
    WalkFirstPoint(0, spec.length, pc[k], pc, r1);
    WalkPendingPlaced(0, spec.length, pc[k], pc, r1);
    WalkGaps(0, spec.length, pc[k], pc, r1);
    WalkTail(0, spec.length, pc[k], pc, r1);
  }

  /** Without a `pointfrequency` no point is ever placed. */
  lemma {:induction false} DigitsWithoutFrequencyHaveNoPoint(length: int, initial: string, rng: Rng)
    requires initial != ""
    ensures FixedLengthDigits(length, []).Ok?
    ensures var o := GenerateDigits(FixedLengthDigits(length, []).value, initial, rng).value.0;
      AllDigits(o) && |o| == (if length < 0 then 0 else length)
  {
    var spec := DigitSpec(length, [length]);
    GenerateDigitsWalk(spec, initial, rng);
    var o := GenerateDigits(spec, initial, rng).value.0;
    var f := Find(o, '.');
    if f >= 0 {
      assert IsFirstPoint(o, f);
    }
    forall x | 0 <= x < |o| ensures IsDigit(o[x]) {
      assert o[x] in o;
    }
  }

  /** With `pointfrequency (lo, hi)` the first point sits at an index in
      `[lo, hi)` and each later point sits `1 + c` after the previous one,
      with `c` in `[lo, hi)`. */
  lemma {:induction false} DigitsPointSpacing(length: int, lo: int, hi: int, initial: string, rng: Rng)
    requires initial != ""
    requires lo < hi
    ensures FixedLengthDigits(length, [IntArg(lo), IntArg(hi)]).Ok?
    ensures var o := GenerateDigits(FixedLengthDigits(length, [IntArg(lo), IntArg(hi)]).value, initial, rng).value.0;
      && (forall j :: IsFirstPoint(o, j) ==> lo <= j < hi)
      && (forall j, k :: IsGap(o, j, k) ==> lo <= k - j - 1 < hi)
  {
    GenerateDigitsWalk(DigitSpec(length, Range(lo, hi)), initial, rng);
  }

  /** The point following a point at `j` is `1 + c` after it, `c` an offset. */
  lemma {:induction false} NextPointGap(o: string, j: int, pc: seq<int>)
    requires 0 <= j < |o| && o[j] == '.'
    requires GapsFrom(o, pc)
    ensures var g := Find(o[j + 1..], '.'); g >= 0 ==> g in pc
  {
    var t := o[j + 1..];
    var g := Find(t, '.');
    if g >= 0 {
      var k := j + 1 + g;
      assert o[k] == t[g];
      assert o[j + 1..k] == t[..g];
      assert IsGap(o, j, k);
    }
  }

  lemma {:induction false} MulAtLeast(d: int, m: int)
    requires d >= 1 && m > 0
    ensures d * m >= m
  {
    assert d * m == (d - 1) * m + m;
    assert (d - 1) * m >= 0;
  }

  /** The remainder of `q * m + r` is `r` when `0 <= r < m`. */
  lemma {:induction false} ModUnique(a: int, m: int, q: int, r: int)
    requires 0 < m && 0 <= r < m && a == q * m + r
    ensures a % m == r
  {
    var q', r' := a / m, a % m;
    assert a == q' * m + r';
    assert q * m - q' * m == r' - r;
    assert (q - q') * m == q * m - q' * m;
    if q > q' {
      MulAtLeast(q - q', m);
    } else if q < q' {
      MulAtLeast(q' - q, m);
    }
  }

  /** `x` above zero is a multiple of `m` exactly when `x - m` is a multiple
      of `m` that is not negative. */
  lemma {:induction false} MultipleStep(x: int, m: int)
    requires 0 < x && 0 < m
    ensures (m <= x && (x - m) % m == 0) <==> x % m == 0
  {
    var q := x / m;
    assert x == q * m + x % m;
    assert x - m == (q - 1) * m + x % m;
    ModUnique(x - m, m, q - 1, x % m);
  }

  /** A walk whose only offset is `c` places its points exactly at `next`,
      `next + (c + 1)`, `next + 2 (c + 1)`, and so on. */
  lemma {:induction false} WalkFixedGap(i: int, length: int, next: int, c: int, rng: Rng)
    requires i <= next && 0 <= c
    ensures forall j :: 0 <= j < |Walk(i, length, next, [c], rng).0| ==>
      (Walk(i, length, next, [c], rng).0[j] == '.' <==> next <= i + j && (i + j - next) % (c + 1) == 0)
    decreases length - i
  {
    var o := Walk(i, length, next, [c], rng).0;
    if i < length {
      if i == next {
        var k, r1 := Choose(rng, 1).0, Choose(rng, 1).1;
        WalkPoint(i, length, [c], rng, k, r1);
        WalkFixedGap(i + 1, length, i + 1 + c, c, r1);
        var rest := Walk(i + 1, length, i + 1 + c, [c], r1).0;
        forall j | 0 <= j < |o|
          ensures o[j] == '.' <==> next <= i + j && (i + j - next) % (c + 1) == 0
        {
          if j > 0 {
            assert o[j] == rest[j - 1];
            MultipleStep(j, c + 1);
          }
        }
      } else {
        var d, r1 := Choose(rng, 10).0, Choose(rng, 10).1;
        WalkDigit(i, length, next, [c], rng, d, r1);
        WalkFixedGap(i + 1, length, next, c, r1);
        var rest := Walk(i + 1, length, next, [c], r1).0;
        forall j | 0 <= j < |o|
          ensures o[j] == '.' <==> next <= i + j && (i + j - next) % (c + 1) == 0
        {
          if j > 0 {
            assert o[j] == rest[j - 1];
          }
        }
      }
    }
  }

  /** Points exactly at `f`, `2f + 1`, `3f + 2`, ...: the first is at `f`,
      and a second one exists just when `2f + 1` is inside. */
  lemma {:induction false} FixedGapPoints(o: string, f: int)
    requires 0 <= f < |o|
    requires forall j :: 0 <= j < |o| ==> (o[j] == '.' <==> f <= j && (j - f) % (f + 1) == 0)
    ensures o[f] == '.' && '.' !in o[..f]
    ensures 2 * f + 1 >= |o| ==> '.' !in o[f + 1..]
    ensures 2 * f + 1 < |o| ==> o[2 * f + 1] == '.'
  {
    ModUnique(0, f + 1, 0, 0);
    var g := Find(o[..f], '.');
    if 2 * f + 1 >= |o| {
      var h := Find(o[f + 1..], '.');
      if h >= 0 {
        assert o[f + 1 + h] == o[f + 1..][h];
        ModUnique(h + 1, f + 1, 0, h + 1);
      }
    } else {
      ModUnique(f + 1, f + 1, 1, 0);
    }
  }

  /** With `pointfrequency (f, f + 1)` and `0 <= f < length` the offset `f`
      serves both the first point and every gap: the points sit exactly at
      `f`, `2f + 1`, `3f + 2`, and so on.  So the point at `f` is the only one
      just when `2f + 1 >= length`. */
  lemma {:induction false} DigitsFixedGap(length: int, f: int, initial: string, rng: Rng)
    requires initial != "" && 0 <= f < length
    ensures FixedLengthDigits(length, [IntArg(f), IntArg(f + 1)]) == Ok(DigitSpec(length, [f]))
    ensures var o := GenerateDigits(DigitSpec(length, [f]), initial, rng).value.0;
      && |o| == length
      && (forall j :: 0 <= j < length ==> (o[j] == '.' <==> f <= j && (j - f) % (f + 1) == 0))
      && o[f] == '.' && '.' !in o[..f]
      && (2 * f + 1 >= length ==> '.' !in o[f + 1..])
      && (2 * f + 1 < length ==> o[2 * f + 1] == '.')
  {
    assert Range(f, f + 1) == [f];
    var k, r1 := Choose(rng, 1).0, Choose(rng, 1).1;
    WalkFixedGap(0, length, f, f, r1);
    var o := GenerateDigits(DigitSpec(length, [f]), initial, rng).value.0;
    assert o == Walk(0, length, f, [f], r1).0;
    FixedGapPoints(o, f);
  }

  /** The generator a float evidently calls for: `length` characters with one
      point, at `point` when that lies inside, drawn as `fixed_len` draws its
      first point, and digits everywhere else. */
  function SinglePointDigits(length: nat, point: int, initial: string, rng: Rng): (r: (string, Rng))
    requires initial != ""
    ensures |r.0| == length
    ensures forall j :: 0 <= j < length ==> (r.0[j] == '.' <==> j == point)
    ensures forall j :: 0 <= j < length && j != point ==> IsDigit(r.0[j])
  {
    var r1 := Choose(rng, 1).1;
    SinglePointWalk(length, point, r1);
    Walk(0, length, point, [length], r1)
  }

  /** A walk from the start whose pending position is `point` and whose only
      offset is the full length places one point, at `point`. */
  lemma {:induction false} SinglePointWalk(length: nat, point: int, rng: Rng)
    ensures forall j :: 0 <= j < length ==> (Walk(0, length, point, [length], rng).0[j] == '.' <==> j == point)
  {
    var o := Walk(0, length, point, [length], rng).0;
    if point < 0 {
      WalkFirstPoint(0, length, point, [length], rng);
      var f := Find(o, '.');
      if f >= 0 {
        assert IsFirstPoint(o, f);
      }
      forall j | 0 <= j < length ensures o[j] != '.' {
        assert o[j] in o;
      }
    } else {
      WalkFixedGap(0, length, point, length, rng);
      forall j | 0 <= j < length ensures (o[j] == '.' <==> j == point) {
        if point <= j {
          ModUnique(j - point, length + 1, 0, j - point);
        }
      }
    }
  }

  /** Walks whose pending positions both lie past the end are the same walk,
      whatever their offsets. */
  lemma {:induction false} WalkUnreached(i: int, length: int, n1: int, n2: int, pc1: seq<int>, pc2: seq<int>, rng: Rng)
    requires |pc1| > 0 && |pc2| > 0
    requires length <= n1 && length <= n2
    ensures Walk(i, length, n1, pc1, rng) == Walk(i, length, n2, pc2, rng)
    decreases length - i
  {
    if i < length {
      var (d, r1) := Choose(rng, 10);
      WalkUnreached(i + 1, length, n1, n2, pc1, pc2, r1);
    }
  }

  /** Walks with one offset each, `a` and `b`, agree when the point after the
      pending one would lie past the end under either offset. */
  lemma {:induction false} WalkAgree(i: int, length: int, next: int, a: int, b: int, rng: Rng)
    requires i <= next < length ==> length <= next + 1 + a && length <= next + 1 + b
    ensures Walk(i, length, next, [a], rng) == Walk(i, length, next, [b], rng)
    decreases length - i
  {
    if i < length {
      if i == next {
        var (k, r1) := Choose(rng, 1);
        WalkUnreached(i + 1, length, i + 1 + a, i + 1 + b, [a], [b], r1);
      } else {
        var (d, r1) := Choose(rng, 10);
        WalkAgree(i + 1, length, next, a, b, r1);
      }
    }
  }

  /** The generator as written and the single-point one produce the same
      text and stream when the point is before the start or `2 * point + 1` is
      past the end. */
  lemma {:induction false} SinglePointAgrees(length: nat, point: int, initial: string, rng: Rng)
    requires initial != ""
    requires point < 0 || length <= 2 * point + 1
    ensures FixedLengthDigits(length, [IntArg(point), IntArg(point + 1)]) == Ok(DigitSpec(length, [point]))
    ensures GenerateDigits(DigitSpec(length, [point]), initial, rng) == Ok(SinglePointDigits(length, point, initial, rng))
  {
    assert Range(point, point + 1) == [point];
    var (k, r1) := Choose(rng, 1);
    WalkAgree(0, length, point, point, length, r1);
  }

  /** There is a point among the `w` characters of `s` from `p` on. */
  predicate PointWithin(s: string, p: int, w: int)
    requires 0 <= p && 0 <= w && p + w <= |s|
  {
    '.' in s[p..p + w]
  }

  /** `s` has a point in every window of `w` consecutive characters. */
  predicate PointEvery(s: string, w: int) {
    forall p :: 0 <= p && 0 <= w && p + w <= |s| ==> PointWithin(s, p, w)
  }

  /** One window of a scheduled walk whose offsets lie in `[0, hi)` holds a
      point: the last point before the window's end is inside it, since the
      gap after it, or the out-of-reach tail, is shorter than `hi`. */
  lemma {:induction false} ScheduledWindow(o: string, length: int, c0: int, pc: seq<int>, hi: int, p: int)
    requires |o| == (if length < 0 then 0 else length)
    requires PendingPlaced(o, 0, c0) && GapsFrom(o, pc) && TailOutOfReach(o, 0, length, pc)
    requires forall x :: x in pc ==> 0 <= x < hi
    requires 0 <= c0 < hi
    requires 0 <= p && p + hi <= |o|
    ensures PointWithin(o, p, hi)
  {
    assert 0 <= c0 < |o|;
    assert o[c0 - 0] == '.';
    var l := LastPointBefore(o, c0, p + hi);
    assert |o| == length;
    LastPointInWindow(o, length, pc, hi, p, l);
    PointInside(o, p, hi, l);
  }

  lemma {:induction false} PointInside(o: string, p: int, w: int, l: int)
    requires 0 <= p <= l < p + w <= |o| && o[l] == '.'
    ensures PointWithin(o, p, w)
  {
    assert o[p..p + w][l - p] == '.';
  }

  /** The last point before position `e`, given that there is one at `c0`. */
  lemma {:induction false} LastPointBefore(o: string, c0: int, e: int) returns (l: int)
    requires 0 <= c0 < e <= |o| && o[c0] == '.'
    ensures 0 <= l < e && o[l] == '.'
    ensures forall x :: l < x < e ==> o[x] != '.'
  {
    var pre := o[..e];
    assert pre[c0] == '.';
    l := LastIndex(pre, '.');
    forall x | l < x < e
      ensures o[x] != '.'
    {
      assert pre[l + 1..][x - l - 1] == o[x];
    }
  }

  /** The last point before a window's end lies in the window. */
  lemma {:induction false} LastPointInWindow(o: string, length: int, pc: seq<int>, hi: int, p: int, l: int)
    requires |o| == length
    requires GapsFrom(o, pc) && TailOutOfReach(o, 0, length, pc)
    requires forall x :: x in pc ==> 0 <= x < hi
    requires 0 <= l < p + hi <= |o| && 0 <= p && o[l] == '.'
    requires forall x :: l < x < p + hi ==> o[x] != '.'
    ensures p <= l
  {
    NextPointGap(o, l, pc);
    var tail := o[l + 1..];
    var g := Find(tail, '.');
    if g >= 0 {
      assert o[l + 1 + g] == tail[g];
    }
  }

  /** With a non-negative `pointfrequency (lo, hi)` points are never more than
      `hi` positions apart: no `hi` consecutive characters are all digits. */
  lemma {:induction false} DigitsPointEveryHi(length: int, lo: int, hi: int, initial: string, rng: Rng)
    requires initial != ""
    requires 0 <= lo < hi
    ensures FixedLengthDigits(length, [IntArg(lo), IntArg(hi)]).Ok?
    ensures PointEvery(GenerateDigits(FixedLengthDigits(length, [IntArg(lo), IntArg(hi)]).value, initial, rng).value.0, hi)
  {
    var spec := DigitSpec(length, Range(lo, hi));
    GenerateDigitsWalk(spec, initial, rng);
    var (k, r1) := Choose(rng, |spec.pointchoice|);
    var o := GenerateDigits(spec, initial, rng).value.0;
    forall p | 0 <= p && 0 <= hi && p + hi <= |o|
      ensures PointWithin(o, p, hi)
    {
      ScheduledWindow(o, length, spec.pointchoice[k], spec.pointchoice, hi, p);
    }
  }

  /** The last index of `c` in `s`. */
  function LastIndex(s: string, c: char): (r: nat)
    requires c in s
    ensures r < |s| && s[r] == c && c !in s[r + 1..]
  {
    if s[|s| - 1] == c then |s| - 1
    else
      assert c in s[..|s| - 1] by {
        var x :| 0 <= x < |s| && s[x] == c;
        assert s[..|s| - 1][x] == c;
      }
      var r := LastIndex(s[..|s| - 1], c);
      assert s[r + 1..] == s[..|s| - 1][r + 1..] + [s[|s| - 1]];
      r
  }

  /** The number of occurrences of `c` in `s` (`str.count`). */
  function Count(s: string, c: char): nat {
    if s == [] then 0 else (if s[0] == c then 1 else 0) + Count(s[1..], c)
  }

  lemma {:induction false} CountAppend(a: string, b: string, c: char)
    ensures Count(a + b, c) == Count(a, c) + Count(b, c)
  {
    if a != [] {
      assert (a + b)[1..] == a[1..] + b;
      CountAppend(a[1..], b, c);
    } else {
      assert a + b == b;
    }
  }

  lemma {:induction false} CountPositive(s: string, c: char)
    requires c in s
    ensures Count(s, c) >= 1
  {
    if s[0] != c {
      assert c in s[1..] by {
        var x :| 0 <= x < |s| && s[x] == c;
        assert s[1..][x - 1] == c;
      }
      CountPositive(s[1..], c);
    }
  }

  lemma {:induction false} PointEverySuffix(s: string, d: nat, w: int)
    requires d <= |s| && PointEvery(s, w)
    ensures PointEvery(s[d..], w)
  {
    var tail := s[d..];
    forall p | 0 <= p && 0 <= w && p + w <= |tail|
      ensures PointWithin(tail, p, w)
    {
      assert PointWithin(s, d + p, w);
      assert tail[p..p + w] == s[d + p..d + p + w];
    }
  }

  /** Cutting `s` after a point at `q` loses at least that point. */
  lemma {:induction false} CountPastPoint(s: string, q: nat)
    requires q < |s| && s[q] == '.'
    ensures Count(s, '.') >= 1 + Count(s[q + 1..], '.')
  {
    var head, tail := s[..q + 1], s[q + 1..];
    assert s == head + tail;
    CountAppend(head, tail, '.');
    assert head[q] == '.';
    CountPositive(head, '.');
  }

  lemma {:induction false} MulMonotone(a: int, b: int, w: int)
    requires a >= b && w > 0
    ensures a * w >= b * w
  {
    assert a * w - b * w == (a - b) * w;
  }

  /** A point in every window of `w` characters forces at least
      `(|s| - w + 1) / w` points: with `pointfrequency (1, 16)` a 1024-character
      result holds at least 64 points. */
  lemma {:induction false} PointCountBound(s: string, w: int)
    requires w > 0
    requires PointEvery(s, w)
    ensures Count(s, '.') * w >= |s| - w + 1
    decreases |s|
  {
    if |s| >= w {
      assert PointWithin(s, 0, w);
      var q := Find(s[0..w], '.');
      assert s[q] == '.';
      var tail := s[q + 1..];
      CountPastPoint(s, q);
      PointEverySuffix(s, q + 1, w);
      PointCountBound(tail, w);
      CountBoundStep(Count(s, '.'), Count(tail, '.'), w, |s|, |tail|);
    }
  }

  /** The arithmetic of one step of `PointCountBound`: the point found in the
      first window adds one, and the rest has at most `w` fewer characters. */
  lemma {:induction false} CountBoundStep(a: int, b: int, w: int, n: int, m: int)
    requires w > 0 && a >= b + 1 && b * w >= m - w + 1 && m >= n - w
    ensures a * w >= n - w + 1
  {
    MulMonotone(a, b + 1, w);
    assert (b + 1) * w == b * w + w;
  }

  // ---------------------------------------------------------------------------
  // random_date_delta

  /** Five years of 365 days, in seconds: the smallest ballpark accepted. */
  const FiveYears: int := 5 * 365 * 86400

  /** The parameters of a `random_date_delta` generator: the delta found in or
      stored into the cache, and the optional format ("" for None). */
  datatype DateSpec = DateSpec(delta: Value, format: string)

  /** `strptime` and `strftime`, with instants as whole seconds.  `render` is
      None where `strftime` raises ValueError, as Python 2's does for years
      before 1900. */
  datatype Calendar = Calendar(parse: (string, string) -> Option<int>, render: (int, string) -> Option<string>)

  /** Instants count whole seconds from 0001-01-01 00:00:00, the earliest moment
      a `datetime` holds; the last whole second it holds ends day 3652059,
      9999-12-31. */
  const LastMoment: int := 3652059 * 86400 - 1

  /** An instant a `datetime` can hold; adding a timedelta that leaves this
      range raises OverflowError. */
  predicate InRange(t: int) {
    0 <= t <= LastMoment
  }

  const FullStamp: string := "%Y%m%d%H%M%S"
  const DateOnly: string := "%Y%m%d"

  function Abs(x: int): nat { if x < 0 then -x else x }

  function TwoDigits(n: nat): string
    requires n < 100
  {
    [DigitChar(n / 10), DigitChar(n % 10)]
  }

  /** `str(timedelta(seconds=s))`: `[D day[s], ]H:MM:SS`, with the days floored so
      that the clock part is never negative. */
  function TimedeltaText(seconds: int): string {
    var days := seconds / 86400;
    var rem := seconds % 86400;
    var clock := NatToDecimal(rem / 3600) + ":" + TwoDigits(rem % 3600 / 60) + ":" + TwoDigits(rem % 60);
    if days == 0 then clock
    else IntToDecimal(days) + " day" + (if Abs(days) != 1 then "s" else "") + ", " + clock
  }

  /** `"date_delta-%s" % delta_ballpark`, the cache key of a ballpark's delta. */
  function DeltaKey(ballpark: int): string {
    "date_delta-" + TimedeltaText(ballpark)
  }

  lemma {:induction false} Decimal3650()
    ensures NatToDecimal(3650) == "3650"
  {
    assert NatToDecimal(3) == "3";
    assert 36 / 10 == 3 && 36 % 10 == 6;
    assert NatToDecimal(36) == "36";
    assert 365 / 10 == 36 && 365 % 10 == 5;
    assert NatToDecimal(365) == "365";
    assert 3650 / 10 == 365 && 3650 % 10 == 0;
  }

  lemma {:induction false} ZeroClock()
    ensures NatToDecimal(0 / 3600) + ":" + TwoDigits(0 % 3600 / 60) + ":" + TwoDigits(0 % 60) == "0:00:00"
  {
    assert NatToDecimal(0) == "0";
    assert TwoDigits(0) == "00";
  }

  /** The key the source's tests delete to force a fresh ten-year delta. */
  lemma {:induction false} TenYearDeltaKey()
    ensures DeltaKey(3650 * 86400) == "date_delta-3650 days, 0:00:00"
  {
    var secs := 3650 * 86400;
    assert secs / 86400 == 3650 && secs % 86400 == 0;
    Decimal3650();
    assert IntToDecimal(3650) == "3650";
    ZeroClock();
    assert TimedeltaText(secs) == "3650" + " day" + "s" + ", " + "0:00:00";
  }

  /** `random_date_delta(ballpark, format)` construction: a delta cached under the
      ballpark's key is reused without any check; otherwise a ballpark under five
      years is a ValueError, and a delta within 10% of the ballpark is drawn and
      stored under the key. */
  function RandomDateDelta(ballpark: int, format: string, c: Cache, rng: Rng): (r: Result<(DateSpec, Cache, Rng)>)
    ensures var cached := Get(c, Str(DeltaKey(ballpark)));
      cached != Null ==> r == Ok((DateSpec(cached, format), c, rng))
    ensures var cached := Get(c, Str(DeltaKey(ballpark)));
      cached == Null ==> (r.Err? <==> Abs(ballpark) < FiveYears)
    ensures r.Err? ==> r.error == ValueError
    ensures var cached := Get(c, Str(DeltaKey(ballpark)));
      cached == Null && r.Ok? ==>
        && r.value.0.delta.Number?
        && 10 * Abs(r.value.0.delta.n - ballpark) <= Abs(ballpark)
        && r.value.0.format == format
        && r.value.1 == Set(c, Str(DeltaKey(ballpark)), r.value.0.delta)
  {
    var key := Str(DeltaKey(ballpark));
    var cached := Get(c, key);
    if cached != Null then Ok((DateSpec(cached, format), c, rng))
    else if Abs(ballpark) < FiveYears then Err(ValueError)
    else
      var fudge := Abs(ballpark) / 10;
      var (k, r1) := Choose(rng, 2 * fudge + 1);
      var delta := Number(ballpark - fudge + k);
      Ok((DateSpec(delta, format), Set(c, key, delta), r1))
  }

  /** The generated `datetime_shift` on a datetime (no format): `t + delta`;
      TypeError when the cached delta is not a number, OverflowError when the
      sum leaves the range of `datetime`. */
  function ShiftMoment(spec: DateSpec, t: int): (r: Result<int>)
    ensures r.Ok? <==> spec.delta.Number? && InRange(t + spec.delta.n)
    ensures !spec.delta.Number? ==> r == Err(TypeError)
    ensures spec.delta.Number? && !InRange(t + spec.delta.n) ==> r == Err(OverflowError)
    ensures r.Ok? ==> r.value - t == spec.delta.n
  {
    if !spec.delta.Number? then Err(TypeError)
    else if InRange(t + spec.delta.n) then Ok(t + spec.delta.n)
    else Err(OverflowError)
  }

  /** Shifting by the one cached delta keeps the spacing and the order of any
      two instants. */
  lemma {:induction false} ShiftPreservesSpacing(spec: DateSpec, t1: int, t2: int)
    requires ShiftMoment(spec, t1).Ok? && ShiftMoment(spec, t2).Ok?
    ensures ShiftMoment(spec, t2).value - ShiftMoment(spec, t1).value == t2 - t1
    ensures t1 < t2 <==> ShiftMoment(spec, t1).value < ShiftMoment(spec, t2).value
  {
  }

  /** `strptime(initial, format)` with the source's leniency: under the full
      stamp format an 8-character input that does not parse is read as a date
      at midnight; any other failure is a ValueError. */
  function ParseLenient(initial: string, format: string, cal: Calendar): (r: Result<int>)
    ensures r.Err? ==> r.error == ValueError
    ensures cal.parse(initial, format).Some? ==> r == Ok(cal.parse(initial, format).value)
    ensures cal.parse(initial, format).None? && (format != FullStamp || |initial| != 8) ==> r.Err?
    ensures cal.parse(initial, format).None? && format == FullStamp && |initial| == 8 ==>
      (r.Ok? <==> cal.parse(initial, DateOnly).Some?) &&
      (r.Ok? ==> r.value == cal.parse(initial, DateOnly).value)
  {
    match cal.parse(initial, format)
    case Some(t) => Ok(t)
    case None =>
      if format == FullStamp && |initial| == 8 then
        match cal.parse(initial, DateOnly)
        case Some(t) => Ok(t)
        case None => Err(ValueError)
      else Err(ValueError)
  }

  /** The generated `datetime_shift` on formatted text: parse, shift by the delta,
      render in the same format.  Without a format the input would have to be a
      datetime, so text is a TypeError.  Otherwise each step fails as in the
      source: an unparseable input is a ValueError, a delta that is not a
      number a TypeError, a shift out of range an OverflowError, and a moment
      `strftime` refuses a ValueError. */
  function ShiftText(spec: DateSpec, initial: string, cal: Calendar): (r: Result<string>)
    requires initial != ""
    ensures spec.format == "" ==> r == Err(TypeError)
    ensures spec.format != "" && ParseLenient(initial, spec.format, cal).Err? ==> r == Err(ValueError)
    ensures spec.format != "" && ParseLenient(initial, spec.format, cal).Ok? ==>
      var t := ParseLenient(initial, spec.format, cal).value;
      && (!spec.delta.Number? ==> r == Err(TypeError))
      && (spec.delta.Number? && !InRange(t + spec.delta.n) ==> r == Err(OverflowError))
      && (spec.delta.Number? && InRange(t + spec.delta.n) ==>
            (r.Ok? <==> cal.render(t + spec.delta.n, spec.format).Some?) &&
            (r.Err? ==> r.error == ValueError))
    ensures r.Ok? ==>
      && spec.format != "" && ParseLenient(initial, spec.format, cal).Ok? && spec.delta.Number?
      && var u := ParseLenient(initial, spec.format, cal).value + spec.delta.n;
      && InRange(u) && cal.render(u, spec.format) == Some(r.value)
  {
    if spec.format == "" then Err(TypeError)
    else
      match ParseLenient(initial, spec.format, cal)
      case Err(e) => Err(e)
      case Ok(t) =>
        match ShiftMoment(spec, t)
        case Err(e) => Err(e)
        case Ok(u) =>
          match cal.render(u, spec.format)
          case Some(text) => Ok(text)
          case None => Err(ValueError)
  }

  /** Under a calendar whose parse reads back what it renders, two shifted
      texts are exactly as far apart as the originals. */
  lemma {:induction false} ShiftTextPreservesSpacing(spec: DateSpec, a: string, b: string, cal: Calendar)
    requires a != "" && b != ""
    requires forall t :: cal.render(t, spec.format).Some? ==> cal.parse(cal.render(t, spec.format).value, spec.format) == Some(t)
    requires ShiftText(spec, a, cal).Ok? && ShiftText(spec, b, cal).Ok?
    ensures var ta, tb := ParseLenient(a, spec.format, cal).value, ParseLenient(b, spec.format, cal).value;
      cal.parse(ShiftText(spec, b, cal).value, spec.format).value
        - cal.parse(ShiftText(spec, a, cal).value, spec.format).value == tb - ta
  {
  }
}

=== FILE: anonmap.dfy ===
/** The anonymize map: which generator rewrites which segment component.

  The source fills one `FieldMap` at import time, key by key.  Here the table
  is constant data grouped by segment; each row is set through the field map
  with the key the source writes, so the key parsing and the element offset of
  MSH, FHS and BHS apply exactly as they do there.  The two date generators
  depend on the configured day shift and on the cache, so they are built first
  by `Configure`.
 */
module AnonMap {
  import opened Results
  import opened PyText
  import TermCache
  import opened Alter
  import opened Resolver
  import opened FieldMap

  /** One `anon_map['SEG-element.component'] = gen` line, as written. */
  datatype Row = Row(element: nat, component: nat, gen: Gen)

  /** The lines for one segment. */
  datatype Group = Group(segment: string, rows: seq<Row>)

  /** The two generators that `random_date_delta` builds from the day shift. */
  datatype DateGens = DateGens(yyyymm: DateSpec, ymdhms: DateSpec)

  /** The key the source writes for a row. */
  function RowKey(segment: string, row: Row): string {
    segment + "-" + NatToDecimal(row.element) + "." + NatToDecimal(row.component)
  }

  /** Where a row's generator is stored. */
  function RowCoord(segment: string, row: Row): Coord {
    Coord(segment, if Shifted(segment) then row.element - 1 else row.element, row.component)
  }

  /** The generator a group assigns to `c`: the last row naming it wins. */
  function GroupEntry(g: Group, c: Coord): (r: Option<Gen>)
    decreases |g.rows|
  {
    if g.rows == [] then None
    else
      var last := g.rows[|g.rows| - 1];
      if RowCoord(g.segment, last) == c then Some(last.gen)
      else GroupEntry(Group(g.segment, g.rows[..|g.rows| - 1]), c)
  }

  /** The generator a table assigns to `c`: the last group naming it wins. */
  function TableEntry(groups: seq<Group>, c: Coord): (r: Option<Gen>)
  {
    if groups == [] then None
    else
      var e := GroupEntry(groups[|groups| - 1], c);
      if e.Some? then e else TableEntry(groups[..|groups| - 1], c)
  }

  /** Setting a group's rows one after another, as the source's lines do. */
  function SetRows(m: FieldMap<Gen>, segment: string, rows: seq<Row>): (r: Result<FieldMap<Gen>>)
    decreases |rows|
  {
    if rows == [] then Ok(m)
    else
      match Set(m, RowKey(segment, rows[0]), rows[0].gen)
      case Err(e) => Err(e)
      case Ok(m1) => SetRows(m1, segment, rows[1..])
  }

  /** Setting every group in order. */
  function Build(m: FieldMap<Gen>, groups: seq<Group>): (r: Result<FieldMap<Gen>>)
    decreases |groups|
  {
    if groups == [] then Ok(m)
    else
      match SetRows(m, groups[0].segment, groups[0].rows)
      case Err(e) => Err(e)
      case Ok(m1) => Build(m1, groups[1..])
  }

  /** Every group names a segment tag. */
  predicate WellFormed(groups: seq<Group>) {
    forall i :: 0 <= i < |groups| ==> SegmentTag(groups[i].segment)
  }

  /** A row's key parses to the row's coordinate. */
  lemma {:induction false} RowKeyParses(segment: string, row: Row)
    requires SegmentTag(segment)
    ensures ParseTripleKey(RowKey(segment, row)) == Ok(RowCoord(segment, row))
  {
    var c := RowCoord(segment, row);
    assert FormatKey(c) == RowKey(segment, row);
    FormatParseRoundTrip(c);
  }

  /** Setting one row: its coordinate now holds its generator, nothing else moves. */
  lemma {:induction false} SetRow(m: FieldMap<Gen>, segment: string, row: Row)
    requires SegmentTag(segment)
    ensures Set(m, RowKey(segment, row), row.gen).Ok?
    ensures forall c ::
      LeafAt(Set(m, RowKey(segment, row), row.gen).value, c) == (if c == RowCoord(segment, row) then Some(row.gen) else LeafAt(m, c))
  {
    RowKeyParses(segment, row);
    forall c ensures LeafAt(Set(m, RowKey(segment, row), row.gen).value, c) ==
      if c == RowCoord(segment, row) then Some(row.gen) else LeafAt(m, c)
    {
      SetKeepsOtherLeaves(m, RowKey(segment, row), row.gen, c);
    }
  }

  /** After a group's rows are set, each coordinate holds what the group last
      assigned to it, or what it held before. */
  lemma {:induction false} SetRowsSpec(m: FieldMap<Gen>, g: Group)
    requires SegmentTag(g.segment)
    ensures SetRows(m, g.segment, g.rows).Ok?
    ensures forall c ::
      LeafAt(SetRows(m, g.segment, g.rows).value, c) == (if GroupEntry(g, c).Some? then GroupEntry(g, c) else LeafAt(m, c))
    decreases |g.rows|
  {
    if g.rows != [] {
      var row := g.rows[0];
      SetRow(m, g.segment, row);
      var m1 := Set(m, RowKey(g.segment, row), row.gen).value;
      var tail := Group(g.segment, g.rows[1..]);
      SetRowsSpec(m1, tail);
      forall c ensures LeafAt(SetRows(m, g.segment, g.rows).value, c) ==
        if GroupEntry(g, c).Some? then GroupEntry(g, c) else LeafAt(m, c)
      {
        GroupEntryCons(g, c);
      }
    }
  }

  /** The entry of a group is its tail's entry, else its first row's. */
  lemma {:induction false} GroupEntryCons(g: Group, c: Coord)
    requires g.rows != []
    ensures GroupEntry(g, c) ==
      var tail := GroupEntry(Group(g.segment, g.rows[1..]), c);
      if tail.Some? then tail
      else if RowCoord(g.segment, g.rows[0]) == c then Some(g.rows[0].gen)
      else None
    decreases |g.rows|
  {
    if |g.rows| > 1 {
      var init := Group(g.segment, g.rows[..|g.rows| - 1]);
      GroupEntryCons(init, c);
      assert init.rows[1..] == g.rows[1..][..|g.rows[1..]| - 1];
      assert init.rows[0] == g.rows[0];
    }
  }

  /** The entry of a table is its tail's entry, else its first group's. */
  lemma {:induction false} TableEntryCons(groups: seq<Group>, c: Coord)
    requires groups != []
    ensures TableEntry(groups, c) ==
      var tail := TableEntry(groups[1..], c);
      if tail.Some? then tail else GroupEntry(groups[0], c)
    decreases |groups|
  {
    if |groups| > 1 {
      var init := groups[..|groups| - 1];
      TableEntryCons(init, c);
      assert init[1..] == groups[1..][..|groups[1..]| - 1];
    }
  }

  /** Building from well-formed groups succeeds, and each coordinate holds what
      the table last assigned to it, or what it held before. */
  lemma {:induction false} BuildSpec(m: FieldMap<Gen>, groups: seq<Group>)
    requires WellFormed(groups)
    ensures Build(m, groups).Ok?
    ensures forall c ::
      LeafAt(Build(m, groups).value, c) == (if TableEntry(groups, c).Some? then TableEntry(groups, c) else LeafAt(m, c))
    decreases |groups|
  {
    if groups != [] {
      assert SegmentTag(groups[0].segment);
      SetRowsSpec(m, groups[0]);
      var m1 := SetRows(m, groups[0].segment, groups[0].rows).value;
      assert WellFormed(groups[1..]) by {
        forall i | 0 <= i < |groups[1..]| ensures SegmentTag(groups[1..][i].segment) {
          assert groups[1..][i] == groups[i + 1];
        }
      }
      BuildSpec(m1, groups[1..]);
      forall c ensures LeafAt(Build(m, groups).value, c) ==
        if TableEntry(groups, c).Some? then TableEntry(groups, c) else LeafAt(m, c)
      {
        TableEntryCons(groups, c);
      }
    }
  }

  /** A group assigns only coordinates of its own segment, and only the ones
      of its rows. */
  lemma {:induction false} GroupEntryFrom(g: Group, c: Coord)
    requires GroupEntry(g, c).Some?
    ensures exists i :: 0 <= i < |g.rows| && RowCoord(g.segment, g.rows[i]) == c
    decreases |g.rows|
  {
    var last := g.rows[|g.rows| - 1];
    if RowCoord(g.segment, last) != c {
      var init := Group(g.segment, g.rows[..|g.rows| - 1]);
      GroupEntryFrom(init, c);
      var i :| 0 <= i < |init.rows| && RowCoord(g.segment, init.rows[i]) == c;
      assert g.rows[i] == init.rows[i];
    }
  }

  /** The yyyymm and ymdhms generators: both ask for a delta near the day
      shift under the same cache key, so the second reuses the first's. */
  function Configure(days: int, c: TermCache.Cache, rng: Rng): (r: Result<(DateGens, TermCache.Cache, Rng)>)
    ensures r.Err? <==> TermCache.Get(c, TermCache.Str(DeltaKey(days * 86400))) == TermCache.Null && Abs(days * 86400) < FiveYears
    ensures r.Err? ==> r.error == ValueError
    ensures r.Ok? ==> r.value.0.yyyymm.delta == r.value.0.ymdhms.delta
    ensures r.Ok? ==> r.value.0.yyyymm.format == "%Y%m" && r.value.0.ymdhms.format == FullStamp
    ensures r.Ok? ==> TermCache.Get(r.value.1, TermCache.Str(DeltaKey(days * 86400))) == r.value.0.ymdhms.delta != TermCache.Null
  {
    match RandomDateDelta(days * 86400, "%Y%m", c, rng)
    case Err(e) => Err(e)
    case Ok((yyyymm, c1, r1)) =>
      match RandomDateDelta(days * 86400, FullStamp, c1, r1)
      case Err(e) => Err(e)
      case Ok((ymdhms, c2, r2)) => Ok((DateGens(yyyymm, ymdhms), c2, r2))
  }

  // The generator instances, as the table names them.
  const Short: Gen := Letters(ShortString)
  const Site: Gen := Letters(SiteString)
  const Dotted: Gen := Digits(DottedSequence)
  const Two: Gen := Digits(TwoDigitSpec)
  const Six: Gen := Digits(SixDigitSpec)
  const Ten: Gen := Digits(TenDigitSpec)

  /** The table of `field_map.py`, one group per segment, in the source's order. */
  function Table(d: DateGens): (t: seq<Group>)
    ensures |t| == 12
  {
    [BhsGroup(d), FhsGroup(d), MshGroup(d), EvnGroup(d), PidGroup(d), Pv1Group(d),
     Dg1Group(d), ObrGroup(d), ObxGroup(d), OrcGroup(d), SpmGroup(d), NteGroup]
  }

  function BhsGroup(d: DateGens): Group {
    Group("BHS", [Row(3, 1, Short), Row(3, 2, Dotted), Row(4, 1, Short), Row(4, 2, Dotted),
                  Row(5, 1, Short), Row(5, 2, Dotted), Row(6, 1, Short), Row(6, 2, Dotted),
                  Row(7, 1, DateShift(d.ymdhms)), Row(11, 1, Dotted)])
  }

  function FhsGroup(d: DateGens): Group {
    Group("FHS", [Row(3, 1, Short), Row(3, 2, Dotted), Row(4, 1, Short), Row(4, 2, Dotted),
                  Row(5, 1, Short), Row(5, 2, Dotted), Row(6, 1, Short), Row(6, 2, Dotted),
                  Row(7, 1, DateShift(d.ymdhms)), Row(11, 1, Dotted)])
  }

  function MshGroup(d: DateGens): Group {
    Group("MSH", [Row(3, 1, Ten), Row(3, 2, Dotted), Row(4, 1, Site), Row(4, 2, Ten),
                  Row(5, 1, Short), Row(5, 2, Dotted), Row(6, 1, Short), Row(6, 2, Dotted),
                  Row(7, 1, DateShift(d.ymdhms)), Row(10, 1, Dotted)])
  }

  function EvnGroup(d: DateGens): Group {
    Group("EVN", [Row(2, 1, DateShift(d.ymdhms)), Row(3, 1, DateShift(d.ymdhms)), Row(7, 1, Site), Row(7, 2, Ten)])
  }

  function PidGroup(d: DateGens): Group {
    Group("PID", [Row(3, 1, Six), Row(3, 4, FacilitySubcomponents), Row(3, 6, FacilitySubcomponents),
                  Row(7, 1, DateShift(d.yyyymm)), Row(11, 5, Zipcode), Row(18, 1, Six),
                  Row(18, 4, FacilitySubcomponents)])
  }

  function Pv1Group(d: DateGens): Group {
    Group("PV1", [Row(3, 2, Six), Row(3, 4, Short), Row(3, 7, Short), Row(3, 8, Two),
                  Row(19, 1, Six), Row(19, 4, FacilitySubcomponents), Row(19, 6, FacilitySubcomponents),
                  Row(44, 1, DateShift(d.ymdhms)), Row(45, 1, DateShift(d.ymdhms))])
  }

  function Dg1Group(d: DateGens): Group {
    Group("DG1", [Row(5, 1, DateShift(d.ymdhms))])
  }

  function ObrGroup(d: DateGens): Group {
    Group("OBR", [Row(2, 1, Ten), Row(2, 2, Dotted), Row(2, 3, Dotted), Row(3, 1, Ten),
                  Row(3, 2, Dotted), Row(3, 3, Dotted), Row(6, 1, DateShift(d.ymdhms)),
                  Row(7, 1, DateShift(d.ymdhms)), Row(8, 1, DateShift(d.ymdhms)),
                  Row(14, 1, DateShift(d.ymdhms)), Row(22, 1, DateShift(d.ymdhms))])
  }

  function ObxGroup(d: DateGens): Group {
    Group("OBX", [Row(5, 1, TypeAndMagnitude), Row(14, 1, DateShift(d.ymdhms)), Row(15, 4, Short)])
  }

  function OrcGroup(d: DateGens): Group {
    Group("ORC", [Row(3, 1, Dotted), Row(9, 1, DateShift(d.ymdhms))])
  }

  function SpmGroup(d: DateGens): Group {
    Group("SPM", [Row(2, 2, Dotted), Row(18, 1, DateShift(d.ymdhms))])
  }

  const NteGroup: Group := Group("NTE", [Row(3, 1, Short)])

  /** A group assigns nothing in another segment. */
  lemma {:induction false} GroupEntryOther(g: Group, k: Coord)
    requires g.segment != k.segment
    ensures GroupEntry(g, k) == None
    decreases |g.rows|
  {
    if g.rows != [] {
      GroupEntryOther(Group(g.segment, g.rows[..|g.rows| - 1]), k);
    }
  }

  /** When only one group names a segment, the table's entry for a coordinate
      of that segment is that group's. */
  lemma {:induction false} TableEntryUnique(groups: seq<Group>, i: nat, k: Coord)
    requires i < |groups| && groups[i].segment == k.segment
    requires forall j :: 0 <= j < |groups| && j != i ==> groups[j].segment != k.segment
    ensures TableEntry(groups, k) == GroupEntry(groups[i], k)
    decreases |groups|
  {
    var n := |groups| - 1;
    if n != i {
      GroupEntryOther(groups[n], k);
      TableEntryUnique(groups[..n], i, k);
    } else {
      TableEntryAbsent(groups[..n], k);
    }
  }

  /** A table none of whose groups names a segment assigns nothing in it. */
  lemma {:induction false} TableEntryAbsent(groups: seq<Group>, k: Coord)
    requires forall j :: 0 <= j < |groups| ==> groups[j].segment != k.segment
    ensures TableEntry(groups, k) == None
    decreases |groups|
  {
    if groups != [] {
      var n := |groups| - 1;
      GroupEntryOther(groups[n], k);
      TableEntryAbsent(groups[..n], k);
    }
  }

  /** The last row naming a coordinate decides the group's entry. */
  lemma {:induction false} GroupEntryAt(g: Group, i: nat, k: Coord)
    requires i < |g.rows| && RowCoord(g.segment, g.rows[i]) == k
    requires forall j :: i < j < |g.rows| ==> RowCoord(g.segment, g.rows[j]) != k
    ensures GroupEntry(g, k) == Some(g.rows[i].gen)
    decreases |g.rows|
  {
    var n := |g.rows| - 1;
    if n != i {
      GroupEntryAt(Group(g.segment, g.rows[..n]), i, k);
    }
  }

  /** The anonymize map for a day shift: the date generators are configured,
      then every line of the table is set in order. */
  function AnonMapOf(days: int, c: TermCache.Cache, rng: Rng): (r: Result<(FieldMap<Gen>, TermCache.Cache, Rng)>)
    ensures r.Err? <==> Configure(days, c, rng).Err?
    ensures r.Ok? ==> var cfg := Configure(days, c, rng).value;
      r.value.1 == cfg.1 && r.value.2 == cfg.2 &&
      forall k :: LeafAt(r.value.0, k) == TableEntry(Table(cfg.0), k)
  {
    match Configure(days, c, rng)
    case Err(e) => Err(e)
    case Ok((d, c1, r1)) =>
      TableWellFormed(d);
      BuildSpec(map[], Table(d));
      Ok((Build(map[], Table(d)).value, c1, r1))
  }

  /** Every group of the table names a segment tag. */
  lemma {:induction false} TableWellFormed(d: DateGens)
    ensures WellFormed(Table(d))
  {
    assert SegmentTag("BHS") && SegmentTag("FHS") && SegmentTag("MSH") && SegmentTag("EVN");
    assert SegmentTag("PID") && SegmentTag("PV1") && SegmentTag("DG1") && SegmentTag("OBR");
    assert SegmentTag("OBX") && SegmentTag("ORC") && SegmentTag("SPM") && SegmentTag("NTE");
  }

  /** Every leaf sits at a real element and at component 1 or above. */
  ghost predicate PositiveCoords(m: FieldMap<Gen>) {
    forall k :: LeafAt(m, k).Some? ==> k.element >= 0 && k.component >= 1
  }

  /** Every row of a group names element 2 or above and component 1 or above. */
  predicate RowsPositive(g: Group) {
    forall i :: 0 <= i < |g.rows| ==> g.rows[i].element >= 2 && g.rows[i].component >= 1
  }

  /** A table assigns only coordinates its groups' rows name. */
  lemma {:induction false} TableEntryFrom(groups: seq<Group>, k: Coord)
    requires TableEntry(groups, k).Some?
    ensures exists i :: 0 <= i < |groups| && GroupEntry(groups[i], k).Some?
    decreases |groups|
  {
    var e := GroupEntry(groups[|groups| - 1], k);
    if e.None? {
      var init := groups[..|groups| - 1];
      TableEntryFrom(init, k);
      var i :| 0 <= i < |init| && GroupEntry(init[i], k).Some?;
      assert groups[i] == init[i];
    }
  }

  /** The batch and file header groups name element 2 or above and component
      1 or above. */
  lemma {:induction false} BatchRowsPositive(d: DateGens)
    ensures RowsPositive(BhsGroup(d)) && RowsPositive(FhsGroup(d))
  {
  }

  /** So does the message header group. */
  lemma {:induction false} HeaderRowsPositive(d: DateGens)
    ensures RowsPositive(MshGroup(d))
  {
  }

  /** So do the event and patient groups. */
  lemma {:induction false} PatientRowsPositive(d: DateGens)
    ensures RowsPositive(EvnGroup(d)) && RowsPositive(PidGroup(d))
  {
  }

  /** So does the visit group. */
  lemma {:induction false} VisitRowsPositive(d: DateGens)
    ensures RowsPositive(Pv1Group(d))
  {
  }

  /** So do the diagnosis and order groups. */
  lemma {:induction false} OrderRowsPositive(d: DateGens)
    ensures RowsPositive(Dg1Group(d)) && RowsPositive(ObrGroup(d))
  {
  }

  /** And the observation, common order, specimen and note groups. */
  lemma {:induction false} NoteRowsPositive(d: DateGens)
    ensures RowsPositive(ObxGroup(d)) && RowsPositive(OrcGroup(d)) && RowsPositive(SpmGroup(d)) && RowsPositive(NteGroup)
  {
  }

  /** Every row of the table names element 2 or above and component 1 or above. */
  lemma {:induction false} TableRowsPositive(d: DateGens)
    ensures forall i :: 0 <= i < |Table(d)| ==> RowsPositive(Table(d)[i])
  {
    BatchRowsPositive(d);
    HeaderRowsPositive(d);
    PatientRowsPositive(d);
    VisitRowsPositive(d);
    OrderRowsPositive(d);
    NoteRowsPositive(d);
  }

  /** The built map never addresses element 0 of a shifted segment or a
      component below 1, so no two of its leaves reach the same position
      through Python's negative indexing. */
  lemma {:induction false} AnonMapPositive(days: int, c: TermCache.Cache, rng: Rng)
    requires AnonMapOf(days, c, rng).Ok?
    ensures PositiveCoords(AnonMapOf(days, c, rng).value.0)
  {
    var d := Configure(days, c, rng).value.0;
    var m := AnonMapOf(days, c, rng).value.0;
    TableRowsPositive(d);
    forall k | LeafAt(m, k).Some? ensures k.element >= 0 && k.component >= 1 {
      TableEntryPositive(Table(d), k);
    }
  }

  /** A table whose rows are all positive assigns only positive coordinates. */
  lemma {:induction false} TableEntryPositive(groups: seq<Group>, k: Coord)
    requires forall i :: 0 <= i < |groups| ==> RowsPositive(groups[i])
    requires TableEntry(groups, k).Some?
    ensures k.element >= 0 && k.component >= 1
  {
    TableEntryFrom(groups, k);
    var i :| 0 <= i < |groups| && GroupEntry(groups[i], k).Some?;
    var g := groups[i];
    GroupEntryFrom(g, k);
    var j :| 0 <= j < |g.rows| && RowCoord(g.segment, g.rows[j]) == k;
  }

  /** "MSH-3.2" is a dotted sequence stored at element 2. */
  lemma {:induction false} MshSendingIdEntry(d: DateGens)
    ensures TableEntry(Table(d), Coord("MSH", 2, 2)) == Some(Dotted)
  {
    var k := Coord("MSH", 2, 2);
    TableEntryUnique(Table(d), 2, k);
    GroupEntryAt(MshGroup(d), 1, k);
  }

  /** "MSH-7.1", the message time, is the full-stamp shift at element 6. */
  lemma {:induction false} MshTimeEntry(d: DateGens)
    ensures TableEntry(Table(d), Coord("MSH", 6, 1)) == Some(DateShift(d.ymdhms))
  {
    var k := Coord("MSH", 6, 1);
    TableEntryUnique(Table(d), 2, k);
    GroupEntryAt(MshGroup(d), 8, k);
  }

  /** "PID-7.1", the birth date, keeps only year and month. */
  lemma {:induction false} BirthDateEntry(d: DateGens)
    ensures TableEntry(Table(d), Coord("PID", 7, 1)) == Some(DateShift(d.yyyymm))
  {
    var k := Coord("PID", 7, 1);
    TableEntryUnique(Table(d), 4, k);
    GroupEntryAt(PidGroup(d), 3, k);
  }

  /** "OBX-5.1", the observation value, keeps its type and magnitude. */
  lemma {:induction false} ObservationEntry(d: DateGens)
    ensures TableEntry(Table(d), Coord("OBX", 5, 1)) == Some(TypeAndMagnitude)
  {
    var k := Coord("OBX", 5, 1);
    TableEntryUnique(Table(d), 8, k);
    GroupEntryAt(ObxGroup(d), 0, k);
  }
}

=== FILE: fieldmap.dfy ===
/** The field map: a three-level dictionary from HL7 segment, element and
  component to a value, addressed either by the segment tag alone ("PID") or by
  a triple key of the form "PID-3.1".

  For the segments MSH, FHS and BHS the element number is stored one lower than
  written, because the message library counts the field separator of those
  segments as a field of its own.
 */
module FieldMap {
  import opened Results
  import opened PyText

  /** Where a triple key points: segment tag, element and component. */
  datatype Coord = Coord(segment: string, element: int, component: int)

  type FieldMap<V> = map<string, map<int, map<int, V>>>

  /** What a lookup finds: a whole segment, or the value at one leaf. */
  datatype Entry<V> = SegmentEntry(elements: map<int, map<int, V>>) | LeafEntry(leaf: V)

  /** A tag matching `[A-Z]{2}[A-Z0-9]`. */
  predicate SegmentTag(s: string) {
    |s| == 3 && IsUpper(s[0]) && IsUpper(s[1]) && (IsUpper(s[2]) || IsDigit(s[2]))
  }

  /** The segments whose element numbers are shifted down by one. */
  predicate Shifted(segment: string) {
    segment == "MSH" || segment == "FHS" || segment == "BHS"
  }

  /** Python's `$` also matches just before one final newline. */
  function Anchored(key: string): (body: string)
    ensures |body| <= |key| && body == key[..|body|]
  {
    if |key| > 0 && key[|key| - 1] == '\n' then key[..|key| - 1] else key
  }

  /** `segment_key`: the key itself when it is a bare segment tag, else None. */
  function SegmentKey(key: string): (r: Option<string>)
    ensures r.Some? ==> r.value == key && SegmentTag(Anchored(key))
    ensures r.None? ==> !SegmentTag(Anchored(key))
  {
    if SegmentTag(Anchored(key)) then Some(key) else None
  }

  /** The element and component digits after "XXX-", split at the first '.'. */
  predicate NumberPair(rest: string) {
    var d := Find(rest, '.');
    d >= 1 && AllDigits(rest[..d]) && d + 1 < |rest| && AllDigits(rest[d + 1..])
  }

  /** The shape `^([A-Z]{2}[A-Z0-9])-(\d+)\.(\d+)$`. */
  predicate TripleKeyShape(body: string) {
    |body| >= 4 && SegmentTag(body[..3]) && body[3] == '-' && NumberPair(body[4..])
  }

  /** The coordinate a well-shaped key body names. */
  function CoordOf(body: string): (c: Coord)
    requires TripleKeyShape(body)
    ensures c.segment == body[..3] && c.component >= 0
    ensures c.element >= (if Shifted(c.segment) then -1 else 0)
  {
    var segment := body[..3];
    var rest := body[4..];
    var d := Find(rest, '.');
    var element := DigitsValue(rest[..d]);
    Coord(segment, if Shifted(segment) then element - 1 else element, DigitsValue(rest[d + 1..]))
  }

  /** `assert_triplekey`: the coordinate a triple key names, with the element
      shifted down for MSH, FHS and BHS; ValueError for any other shape. */
  function ParseTripleKey(key: string): (r: Result<Coord>)
    ensures r.Ok? <==> TripleKeyShape(Anchored(key))
    ensures r.Err? ==> r.error == ValueError
    ensures r.Ok? ==> r.value.segment == key[..3] && SegmentTag(r.value.segment)
    ensures r.Ok? ==> r.value.component >= 0
    ensures r.Ok? ==> r.value.element >= (if Shifted(r.value.segment) then -1 else 0)
  {
    var body := Anchored(key);
    if TripleKeyShape(body) then Ok(CoordOf(body)) else Err(ValueError)
  }

  /** The canonical triple key of a coordinate (no leading zeros). */
  function FormatKey(c: Coord): string
    requires c.component >= 0 && c.element + (if Shifted(c.segment) then 1 else 0) >= 0
  {
    var written: nat := c.element + (if Shifted(c.segment) then 1 else 0);
    c.segment + "-" + NatToDecimal(written) + "." + NatToDecimal(c.component)
  }

  /** The value at one leaf, if there is one. */
  function LeafAt<V>(m: FieldMap<V>, c: Coord): (r: Option<V>)
    ensures r.Some? <==> c.segment in m && c.element in m[c.segment] && c.component in m[c.segment][c.element]
  {
    if c.segment in m && c.element in m[c.segment] && c.component in m[c.segment][c.element]
    then Some(m[c.segment][c.element][c.component])
    else None
  }

  /** `__setitem__`: only triple keys are accepted; the leaf is created or
      replaced and the rest of the map is kept. */
  function Set<V>(m: FieldMap<V>, key: string, v: V): (r: Result<FieldMap<V>>)
    ensures r.Err? <==> ParseTripleKey(key).Err?
    ensures r.Err? ==> r.error == ValueError
  {
    match ParseTripleKey(key)
    case Err(e) => Err(e)
    case Ok(c) => Ok(PutLeaf(m, c, v))
  }

  /** The store `__setitem__` performs once the key is parsed. */
  function PutLeaf<V>(m: FieldMap<V>, c: Coord, v: V): FieldMap<V> {
    if c.segment in m then
      var d := m[c.segment];
      if c.element in d then m[c.segment := d[c.element := d[c.element][c.component := v]]]
      else m[c.segment := d[c.element := map[c.component := v]]]
    else m[c.segment := map[c.element := map[c.component := v]]]
  }

  /** `__getitem__`: a bare tag yields the whole segment, a triple key the
      leaf; a missing entry is a KeyError, a malformed key a ValueError. */
  function Get<V>(m: FieldMap<V>, key: string): (r: Result<Entry<V>>)
    ensures SegmentKey(key).Some? ==>
      (r.Ok? <==> key in m) && (r.Ok? ==> r.value == SegmentEntry(m[key])) && (r.Err? ==> r.error == KeyError)
    ensures SegmentKey(key).None? ==>
      var c := ParseTripleKey(key);
      (c.Err? ==> r == Err(ValueError)) &&
      (c.Ok? ==> match LeafAt(m, c.value)
                 case Some(v) => r == Ok(LeafEntry(v))
                 case None => r == Err(KeyError))
  {
    if SegmentKey(key).Some? then
      if key in m then Ok(SegmentEntry(m[key])) else Err(KeyError)
    else
      match ParseTripleKey(key)
      case Err(e) => Err(e)
      case Ok(c) =>
        if c.segment in m && c.element in m[c.segment] && c.component in m[c.segment][c.element]
        then Ok(LeafEntry(m[c.segment][c.element][c.component]))
        else Err(KeyError)
  }

  /** `__contains__`: membership of a segment or of a leaf; a key of neither
      shape is a ValueError rather than False. */
  function Contains<V>(m: FieldMap<V>, key: string): (r: Result<bool>)
    ensures SegmentKey(key).Some? ==> r == Ok(key in m)
    ensures SegmentKey(key).None? ==>
      (r.Err? <==> ParseTripleKey(key).Err?) && (r.Err? ==> r.error == ValueError) &&
      (r.Ok? ==> (r.value <==> LeafAt(m, ParseTripleKey(key).value).Some?))
  {
    if SegmentKey(key).Some? then Ok(key in m)
    else
      match ParseTripleKey(key)
      case Err(e) => Err(e)
      case Ok(c) =>
        if c.segment in m then
          var d := m[c.segment];
          Ok(c.element in d && c.component in d[c.element])
        else Ok(false)
  }

  /** A '.' between two digit strings is the first '.'. */
  lemma {:induction false} NumberPairOf(e: string, k: string)
    requires |e| >= 1 && AllDigits(e) && |k| >= 1 && AllDigits(k)
    ensures var rest := e + ['.'] + k;
      Find(rest, '.') == |e| && rest[..|e|] == e && rest[|e| + 1..] == k && NumberPair(rest)
  {
    assert '.' !in e by {
      forall i | 0 <= i < |e| ensures e[i] != '.' { assert IsDigit(e[i]); }
    }
    FindAfterPiece(e, '.', k);
    var rest := e + ['.'] + k;
    assert rest[..|e|] == e;
    assert rest[|e| + 1..] == k;
  }

  /** A key built from a tag and two digit strings parses to their values. */
  lemma {:induction false} ParseParts(segment: string, e: string, k: string)
    requires SegmentTag(segment)
    requires |e| >= 1 && AllDigits(e) && |k| >= 1 && AllDigits(k)
    ensures var element := DigitsValue(e);
      ParseTripleKey(segment + "-" + e + "." + k) ==
        Ok(Coord(segment, if Shifted(segment) then element - 1 else element, DigitsValue(k)))
  {
    var key := segment + "-" + e + "." + k;
    assert key[|key| - 1] == k[|k| - 1] && IsDigit(k[|k| - 1]);
    assert Anchored(key) == key;
    assert key[..3] == segment && key[3] == '-';
    var rest := key[4..];
    assert rest == e + ['.'] + k;
    NumberPairOf(e, k);
    assert TripleKeyShape(key);
  }

  /** Formatting a coordinate and parsing it back gives the coordinate. */
  lemma {:induction false} FormatParseRoundTrip(c: Coord)
    requires SegmentTag(c.segment)
    requires c.component >= 0 && c.element + (if Shifted(c.segment) then 1 else 0) >= 0
    ensures ParseTripleKey(FormatKey(c)) == Ok(c)
  {
    var written: nat := c.element + (if Shifted(c.segment) then 1 else 0);
    var e, k := NatToDecimal(written), NatToDecimal(c.component);
    DecimalRoundTrip(written);
    DecimalRoundTrip(c.component);
    assert FormatKey(c) == c.segment + "-" + e + "." + k;
    ParseParts(c.segment, e, k);
  }

  /** After a successful set the key is present and reads back the value. */
  lemma {:induction false} SetThenGet<V>(m: FieldMap<V>, key: string, v: V)
    requires Set(m, key, v).Ok?
    ensures SegmentKey(key).None?
    ensures Contains(Set(m, key, v).value, key) == Ok(true)
    ensures Get(Set(m, key, v).value, key) == Ok(LeafEntry(v))
  {
    assert Anchored(key)[3] == '-';
  }

  /** A set changes the leaf its key names and no other leaf. */
  lemma {:induction false} SetKeepsOtherLeaves<V>(m: FieldMap<V>, key: string, v: V, other: Coord)
    requires Set(m, key, v).Ok?
    ensures var c := ParseTripleKey(key).value;
      LeafAt(Set(m, key, v).value, other) == if other == c then Some(v) else LeafAt(m, other)
  {
  }

  /** Setting a key twice keeps only the second value. */
  lemma {:induction false} SetOverwrites<V>(m: FieldMap<V>, key: string, v: V, w: V)
    requires Set(m, key, v).Ok?
    ensures Set(Set(m, key, v).value, key, w) == Set(m, key, w)
  {
    PutLeafTwice(m, ParseTripleKey(key).value, v, w);
  }

  lemma {:induction false} PutLeafTwice<V>(m: FieldMap<V>, c: Coord, v: V, w: V)
    ensures PutLeaf(PutLeaf(m, c, v), c, w) == PutLeaf(m, c, w)
  {
    var m1 := PutLeaf(m, c, v);
    var leaf1 := m1[c.segment][c.element];
    assert PutLeaf(m1, c, w) == m1[c.segment := m1[c.segment][c.element := leaf1[c.component := w]]];
    var leaf := if c.segment in m && c.element in m[c.segment] then m[c.segment][c.element] else map[];
    var d := if c.segment in m then m[c.segment] else map[];
    assert leaf1 == leaf[c.component := v];
    assert leaf1[c.component := w] == leaf[c.component := w];
    assert m1 == m[c.segment := d[c.element := leaf[c.component := v]]];
    assert m1[c.segment][c.element := leaf1[c.component := w]] == d[c.element := leaf[c.component := w]];
    assert PutLeaf(m, c, w) == m[c.segment := d[c.element := leaf[c.component := w]]];
  }

  /** A bare segment tag names no leaf: setting it is a ValueError. */
  lemma {:induction false} SegmentKeyCannotBeSet<V>(m: FieldMap<V>, v: V)
    ensures Set(m, "MSH", v) == Err(ValueError)
  {
    assert !TripleKeyShape("MSH");
  }

  /** The element offset of MSH, FHS and BHS: "MSH-3.2" is stored at element 2. */
  lemma {:induction false} ShiftedKeyExample()
    ensures ParseTripleKey("MSH-3.2") == Ok(Coord("MSH", 2, 2))
  {
    assert FormatKey(Coord("MSH", 2, 2)) == "MSH-3.2";
    FormatParseRoundTrip(Coord("MSH", 2, 2));
  }

  /** Other segments keep the written element: "EVN-3.1" is element 3. */
  lemma {:induction false} UnshiftedKeyExample()
    ensures ParseTripleKey("EVN-3.1") == Ok(Coord("EVN", 3, 1))
  {
    assert FormatKey(Coord("EVN", 3, 1)) == "EVN-3.1";
    FormatParseRoundTrip(Coord("EVN", 3, 1));
  }

  /** A leading zero does not change a digit string's value. */
  lemma {:induction false} LeadingZeroValue(e: string)
    requires AllDigits(e)
    ensures AllDigits("0" + e) && DigitsValue("0" + e) == DigitsValue(e)
  {
    if e != [] {
      var z := "0" + e;
      assert z[..|z| - 1] == "0" + e[..|e| - 1];
      LeadingZeroValue(e[..|e| - 1]);
    } else {
      assert "0"[..0] == "";
    }
  }

  /** Leading zeros name the same leaf: "PID-07.1" is "PID-7.1". */
  lemma {:induction false} LeadingZeroSameLeaf(segment: string, e: string, k: string)
    requires SegmentTag(segment)
    requires |e| >= 1 && AllDigits(e) && |k| >= 1 && AllDigits(k)
    ensures ParseTripleKey(segment + "-" + ("0" + e) + "." + k) == ParseTripleKey(segment + "-" + e + "." + k)
  {
    LeadingZeroValue(e);
    ParseParts(segment, "0" + e, k);
    ParseParts(segment, e, k);
  }

  /** A key without a component number is rejected. */
  lemma {:induction false} MissingComponentExample()
    ensures ParseTripleKey("PID-3") == Err(ValueError)
  {
    assert "PID-3"[4..] == "3";
    assert Find("3", '.') == -1;
  }

  /** Leaves set under one segment are all found in that segment's entry. */
  lemma {:induction false} SegmentEntryHoldsLeaves<V>(m: FieldMap<V>, tag: string, c: Coord)
    requires SegmentTag(tag) && c.segment == tag
    requires Get(m, tag).Ok?
    ensures Get(m, tag).value.SegmentEntry?
    ensures var e := Get(m, tag).value.elements;
      LeafAt(m, c).Some? <==> c.element in e && c.component in e[c.element]
  {
    assert Anchored(tag) == tag;
  }
}

=== FILE: linesplit.dfy ===
/** `line_at_a_time`: cutting a stream of text into the carriage-return
    terminated lines that each hold one HL7 message.

  The file object's `readlines()` is replaced by the sequence of chunks it
  hands over; the lemmas show that how the text is chunked does not matter.
 */
module LineSplit {
  import opened PyText

  const CR: char := '\r'

  /** Lines cut off the front of a buffer, and what is left of it. */
  datatype Drained = Drained(lines: seq<string>, rest: string)

  /** Every line followed by its carriage return, run together. */
  function Terminated(lines: seq<string>): string {
    if lines == [] then "" else lines[0] + [CR] + Terminated(lines[1..])
  }

  /** The chunks run together, in order. */
  function Concat(chunks: seq<string>): string {
    if chunks == [] then "" else Concat(chunks[..|chunks| - 1]) + chunks[|chunks| - 1]
  }

  /** `s.find('\r')`, by its own recursion so that the proofs below unfold it
      one character at a time; `FirstCRIsFind` shows it is `Find(s, '\r')`. */
  function FirstCR(s: string): (r: int)
    ensures -1 <= r < |s|
  {
    if s == [] then -1
    else if s[0] == CR then 0
    else
      var k := FirstCR(s[1..]);
      if k < 0 then -1 else k + 1
  }

  lemma {:induction false} FirstCRIsFind(s: string)
    ensures FirstCR(s) == Find(s, CR)
  {
    if s != [] && s[0] != CR {
      FirstCRIsFind(s[1..]);
    }
  }

  /** What the search finds: no carriage return before the index it returns,
      and one at it; none at all when it returns -1. */
  lemma {:induction false} FirstCRFacts(s: string)
    ensures FirstCR(s) < 0 ==> CR !in s
    ensures FirstCR(s) >= 0 ==> s[FirstCR(s)] == CR && CR !in s[..FirstCR(s)]
  {
    if s != [] && s[0] != CR {
      FirstCRFacts(s[1..]);
      var k := FirstCR(s[1..]);
      if k >= 0 {
        assert s[..k + 1] == [s[0]] + s[1..][..k];
      } else {
        assert s == [s[0]] + s[1..];
      }
    }
  }

  /** A carriage return found in the front of a text is the first one of the
      longer text too. */
  lemma {:induction false} FirstCRPrefix(a: string, b: string)
    requires FirstCR(a) >= 0
    ensures FirstCR(a + b) == FirstCR(a)
  {
    if a[0] != CR {
      assert (a + b)[1..] == a[1..] + b;
      FirstCRPrefix(a[1..], b);
    }
  }

  /** The inner `while` loop as written: a line is cut off while the buffer's
      first carriage return stands after position 0.  A buffer that starts with
      a carriage return is never cut again. */
  function Drain(buf: string): (r: Drained)
    ensures FirstCR(r.rest) <= 0
    decreases |buf|
  {
    var i := FirstCR(buf);
    if i > 0 then
      var d := Drain(buf[i + 1..]);
      Drained([buf[..i]] + d.lines, d.rest)
    else Drained([], buf)
  }

  /** The text a drain started from: each line with its carriage return, then
      the remainder. */
  function Rejoined(d: Drained): string {
    Terminated(d.lines) + d.rest
  }

  /** Lines that are not empty and hold no carriage return. */
  predicate Clean(lines: seq<string>) {
    forall j :: 0 <= j < |lines| ==> lines[j] != "" && CR !in lines[j]
  }

  /** Lines that hold no carriage return. */
  predicate Unbroken(lines: seq<string>) {
    forall j :: 0 <= j < |lines| ==> CR !in lines[j]
  }

  /** The text before the first carriage return holds none, and the text is
      that piece, the carriage return and the rest. */
  lemma {:induction false} CutAt(s: string)
    requires FirstCR(s) >= 0
    ensures var i := FirstCR(s);
      CR !in s[..i] && s == s[..i] + [CR] + s[i + 1..]
  {
    FirstCRFacts(s);
  }

  lemma {:induction false} TerminatedCons(x: string, lines: seq<string>)
    ensures Terminated([x] + lines) == x + [CR] + Terminated(lines)
  {
    assert ([x] + lines)[1..] == lines;
  }

  /** One line cut off the front, put back. */
  lemma {:induction false} RejoinStep(buf: string, x: string, t: string, d: Drained)
    requires buf == x + [CR] + t && Rejoined(d) == t
    ensures Rejoined(Drained([x] + d.lines, d.rest)) == buf
  {
    TerminatedCons(x, d.lines);
  }

  /** A line with no carriage return put in front of clean lines. */
  lemma {:induction false} CleanCons(x: string, lines: seq<string>)
    requires x != "" && CR !in x && Clean(lines)
    ensures Clean([x] + lines)
  {
    forall j | 0 <= j < |[x] + lines| ensures ([x] + lines)[j] != "" && CR !in ([x] + lines)[j] {
      if j > 0 {
        assert ([x] + lines)[j] == lines[j - 1];
      }
    }
  }

  /** A line with no carriage return put in front of unbroken lines. */
  lemma {:induction false} UnbrokenCons(x: string, lines: seq<string>)
    requires CR !in x && Unbroken(lines)
    ensures Unbroken([x] + lines)
  {
    forall j | 0 <= j < |[x] + lines| ensures CR !in ([x] + lines)[j] {
      if j > 0 {
        assert ([x] + lines)[j] == lines[j - 1];
      }
    }
  }

  /** The lines the loop cuts off are not empty and hold no carriage return. */
  lemma {:induction false} DrainClean(buf: string)
    ensures Clean(Drain(buf).lines)
    decreases |buf|
  {
    var i := FirstCR(buf);
    if i > 0 {
      DrainClean(buf[i + 1..]);
      CutAt(buf);
      CleanCons(buf[..i], Drain(buf[i + 1..]).lines);
    }
  }

  /** Nothing is lost or reordered: the lines and the remainder make up the
      buffer. */
  lemma {:induction false} DrainRejoins(buf: string)
    ensures Rejoined(Drain(buf)) == buf
    decreases |buf|
  {
    var i := FirstCR(buf);
    if i > 0 {
      var t := buf[i + 1..];
      DrainRejoins(t);
      CutAt(buf);
      RejoinStep(buf, buf[..i], t, Drain(t));
    }
  }

  /** What the generator yields for the whole text: the drained lines, then
      the remainder when it is not empty. */
  function Lines(s: string): seq<string> {
    Yielded(Drain(s))
  }

  /** The drained lines, then the remainder when it is not empty. */
  function Yielded(d: Drained): seq<string> {
    if |d.rest| > 0 then d.lines + [d.rest] else d.lines
  }

  /** Draining a longer buffer is draining its front, then draining what was
      left of it together with the back. */
  lemma {:induction false} DrainAppend(a: string, b: string)
    ensures var da := Drain(a);
      var db := Drain(da.rest + b);
      Drain(a + b) == Drained(da.lines + db.lines, db.rest)
    decreases |a|
  {
    var i := FirstCR(a);
    if i > 0 {
      DrainAppend(a[i + 1..], b);
      DrainAppendCut(a, b);
    } else if i == 0 {
      FirstCRPrefix(a, b);
    }
  }

  /** The step of `DrainAppend` where the loop cuts a line off the front. */
  lemma {:induction false} DrainAppendCut(a: string, b: string)
    requires FirstCR(a) > 0
    requires var t := a[FirstCR(a) + 1..];
      var dt := Drain(t);
      Drain(t + b) == Drained(dt.lines + Drain(dt.rest + b).lines, Drain(dt.rest + b).rest)
    ensures var da := Drain(a);
      var db := Drain(da.rest + b);
      Drain(a + b) == Drained(da.lines + db.lines, db.rest)
  {
    var i := FirstCR(a);
    FirstCRPrefix(a, b);
    SliceAppend(a, b, i);
    var t := a[i + 1..];
    var dt := Drain(t);
    DrainCut(a, i);
    DrainCut(a + b, i);
    Assemble(a[..i], dt, Drain(dt.rest + b), Drain(t + b), Drain(a), Drain(a + b));
  }

  /** The bookkeeping of `DrainAppendCut`: one line in front of the lines of
      both parts. */
  lemma {:induction false} Assemble(x: string, dt: Drained, db: Drained, dtb: Drained, da: Drained, dab: Drained)
    requires da == Drained([x] + dt.lines, dt.rest)
    requires dtb == Drained(dt.lines + db.lines, db.rest)
    requires dab == Drained([x] + dtb.lines, dtb.rest)
    ensures dab == Drained(da.lines + db.lines, db.rest)
  {
    assert [x] + (dt.lines + db.lines) == [x] + dt.lines + db.lines;
  }

  /** Cutting inside the front of a text. */
  lemma {:induction false} SliceAppend(a: string, b: string, i: int)
    requires 0 <= i < |a|
    ensures (a + b)[..i] == a[..i] && (a + b)[i + 1..] == a[i + 1..] + b
  {
  }

  /** The first step of the loop, when it takes one. */
  lemma {:induction false} DrainCut(buf: string, i: int)
    requires i == FirstCR(buf) && i > 0
    ensures Drain(buf) == Drained([buf[..i]] + Drain(buf[i + 1..]).lines, Drain(buf[i + 1..]).rest)
  {
  }

  /** `line_at_a_time`: append each chunk to the buffer, yield the lines the
      inner loop cuts off, and finally yield a non-empty remainder.  However
      the text is cut into chunks, the lines are those of the whole text. */
  method LineAtATime(chunks: seq<string>) returns (lines: seq<string>)
    ensures lines == Lines(Concat(chunks))
  {
    var buffered := "";
    lines := [];
    for n := 0 to |chunks|
      invariant Drain(Concat(chunks[..n])) == Drained(lines, buffered)
    {
      ChunkStep(chunks, n, lines, buffered);
      ghost var whole := Drain(Concat(chunks[..n + 1]));
      buffered := buffered + chunks[n];
      FirstCRIsFind(buffered);
      while Find(buffered, CR) > 0
        invariant whole == Drained(lines + Drain(buffered).lines, Drain(buffered).rest)
        invariant FirstCR(buffered) == Find(buffered, CR)
        decreases |buffered|
      {
        var i := Find(buffered, CR);
        LineStep(whole, lines, buffered);
        lines := lines + [buffered[..i]];
        buffered := buffered[i + 1..];
        FirstCRIsFind(buffered);
      }
    }
    assert chunks[..|chunks|] == chunks;
    if |buffered| > 0 {
      lines := lines + [buffered];
    }
  }

  /** The outer loop's step: the next chunk joins what is left in the buffer. */
  lemma {:induction false} ChunkStep(chunks: seq<string>, n: int, lines: seq<string>, buffered: string)
    requires 0 <= n < |chunks|
    requires Drain(Concat(chunks[..n])) == Drained(lines, buffered)
    ensures var d := Drain(buffered + chunks[n]);
      Drain(Concat(chunks[..n + 1])) == Drained(lines + d.lines, d.rest)
  {
    DrainAppend(Concat(chunks[..n]), chunks[n]);
    assert chunks[..n + 1][..n] == chunks[..n];
  }

  /** The inner loop's step: one line moves from the buffer to the output. */
  lemma {:induction false} LineStep(whole: Drained, lines: seq<string>, buffered: string)
    requires FirstCR(buffered) > 0
    requires whole == Drained(lines + Drain(buffered).lines, Drain(buffered).rest)
    ensures var i := FirstCR(buffered);
      var d := Drain(buffered[i + 1..]);
      whole == Drained(lines + [buffered[..i]] + d.lines, d.rest)
  {
    var i := FirstCR(buffered);
    DrainCut(buffered, i);
    var d := Drain(buffered[i + 1..]);
    assert lines + ([buffered[..i]] + d.lines) == lines + [buffered[..i]] + d.lines;
  }


  /** `'\r'.join(lines)` is the terminated text without its last carriage return. */
  lemma {:induction false} JoinTerminated(lines: seq<string>, last: string)
    ensures Join(lines + [last], CR) == Terminated(lines) + last
    ensures lines != [] ==> Join(lines, CR) + [CR] == Terminated(lines)
  {
    if lines != [] {
      assert (lines + [last])[1..] == lines[1..] + [last];
      JoinTerminated(lines[1..], last);
    }
  }

  /** No line comes out empty, and only the last can hold a carriage return. */
  lemma {:induction false} LinesShape(s: string)
    ensures forall i :: 0 <= i < |Lines(s)| ==> Lines(s)[i] != ""
    ensures forall i :: 0 <= i < |Lines(s)| - 1 ==> CR !in Lines(s)[i]
  {
    var d := Drain(s);
    DrainClean(s);
    if |d.rest| > 0 {
      assert forall i :: 0 <= i < |d.lines| ==> Lines(s)[i] == d.lines[i];
    }
  }

  /** Joining the lines with carriage returns gives the text back, short of a
      final carriage return at most: nothing is lost or reordered. */
  lemma {:induction false} LinesRejoin(s: string)
    ensures Join(Lines(s), CR) == s || Join(Lines(s), CR) + [CR] == s
  {
    DrainRejoins(s);
    YieldedRejoin(Drain(s));
  }

  /** What is yielded, joined with carriage returns, is the drained text, short
      of a final carriage return at most. */
  lemma {:induction false} YieldedRejoin(d: Drained)
    ensures Join(Yielded(d), CR) == Rejoined(d) || Join(Yielded(d), CR) + [CR] == Rejoined(d)
  {
    JoinTerminated(d.lines, d.rest);
    if d.rest == "" {
      assert Rejoined(d) == Terminated(d.lines);
    }
  }

  /** The remainder is yielded after the lines. */
  lemma {:induction false} YieldedUnbroken(d: Drained)
    requires Unbroken(d.lines) && CR !in d.rest
    ensures Unbroken(Yielded(d))
  {
    if d.rest != "" {
      assert forall i :: 0 <= i < |d.lines| ==> Yielded(d)[i] == d.lines[i];
    }
  }

  /** The text "A", an empty line, "B": the empty line is where cutting stops,
      so its carriage return ends up inside the next line. */
  lemma {:induction false} EmptyLineStalls()
    ensures Lines("A\r\rB") == ["A", "\rB"]
  {
    var s := "A\r\rB";
    assert s[1..] == "\r\rB";
    assert FirstCR("\r\rB") == 0;
    assert FirstCR(s) == 1;
    assert s[2..] == "\rB";
    assert FirstCR("\rB") == 0;
    assert Drain("\rB") == Drained([], "\rB");
    assert s[..1] == "A";
    assert Drain(s) == Drained(["A"], "\rB");
  }

  /** Any text whose first empty line follows the clean lines `ls`: those lines
      are cut, and cutting stops at the empty line's carriage return. */
  lemma {:induction false} DrainStallsAtEmptyLine(ls: seq<string>, b: string)
    requires Clean(ls)
    ensures Drain(Terminated(ls) + [CR] + b) == Drained(ls, [CR] + b)
    decreases |ls|
  {
    if ls == [] {
      assert Terminated(ls) + [CR] + b == [CR] + b;
      assert FirstCR([CR] + b) == 0;
    } else {
      var x, tail := ls[0], ls[1..];
      assert ls == [x] + tail;
      TerminatedCons(x, tail);
      var t := Terminated(tail) + [CR] + b;
      var s := Terminated(ls) + [CR] + b;
      assert s == x + [CR] + t;
      FirstCRIsFind(s);
      FindAfterPiece(x, CR, t);
      assert s[..|x|] == x && s[|x| + 1..] == t;
      assert Clean(tail) by {
        forall j | 0 <= j < |tail| ensures tail[j] != "" && CR !in tail[j] {
          assert tail[j] == ls[j + 1];
        }
      }
      DrainStallsAtEmptyLine(tail, b);
    }
  }

  /** As written, for every text: the lines before the first empty line are
      yielded, and everything from the empty line's carriage return on comes
      out as one last line. */
  lemma {:induction false} LinesStallAtEmptyLine(ls: seq<string>, b: string)
    requires Clean(ls)
    ensures Lines(Terminated(ls) + [CR] + b) == ls + [[CR] + b]
  {
    DrainStallsAtEmptyLine(ls, b);
  }

  // ---------------------------------------------------------------------------
  // Cutting at every carriage return

  /** The inner loop with `find('\r') >= 0`: a line is cut at every carriage
      return, an empty one included. */
  function DrainAll(buf: string): (r: Drained)
    ensures FirstCR(r.rest) < 0
    decreases |buf|
  {
    var i := FirstCR(buf);
    if i >= 0 then
      var d := DrainAll(buf[i + 1..]);
      Drained([buf[..i]] + d.lines, d.rest)
    else Drained([], buf)
  }

  /** No line cut at every carriage return holds one. */
  lemma {:induction false} DrainAllUnbroken(buf: string)
    ensures Unbroken(DrainAll(buf).lines)
    decreases |buf|
  {
    var i := FirstCR(buf);
    if i >= 0 {
      DrainAllUnbroken(buf[i + 1..]);
      CutAt(buf);
      UnbrokenCons(buf[..i], DrainAll(buf[i + 1..]).lines);
    }
  }

  /** The lines cut at every carriage return, and the remainder, make up the
      buffer. */
  lemma {:induction false} DrainAllRejoins(buf: string)
    ensures Rejoined(DrainAll(buf)) == buf
    decreases |buf|
  {
    var i := FirstCR(buf);
    if i >= 0 {
      var t := buf[i + 1..];
      DrainAllRejoins(t);
      CutAt(buf);
      RejoinStep(buf, buf[..i], t, DrainAll(t));
    }
  }

  /** The lines with every carriage return a terminator. */
  function SplitLines(s: string): seq<string> {
    Yielded(DrainAll(s))
  }

  /** The pieces of a split without a final empty one. */
  function DropTrailingEmpty(p: seq<string>): seq<string>
    requires |p| >= 1
  {
    if p[|p| - 1] == "" then p[..|p| - 1] else p
  }

  lemma {:induction false} YieldedCons(x: string, d: Drained)
    ensures Yielded(Drained([x] + d.lines, d.rest)) == [x] + Yielded(d)
  {
  }

  lemma {:induction false} DropTrailingEmptyCons(x: string, q: seq<string>)
    requires |q| >= 1
    ensures DropTrailingEmpty([x] + q) == [x] + DropTrailingEmpty(q)
  {
    if q[|q| - 1] == "" {
      assert ([x] + q)[..|q|] == [x] + q[..|q| - 1];
    }
  }

  /** One step of `Split`. */
  lemma {:induction false} SplitCut(s: string)
    requires Find(s, CR) >= 0
    ensures Split(s, CR) == [s[..Find(s, CR)]] + Split(s[Find(s, CR) + 1..], CR)
  {
  }

  /** The cut at every carriage return is `s.split('\r')` without the empty
      piece after a final carriage return. */
  lemma {:induction false} SplitLinesIsSplit(s: string)
    ensures SplitLines(s) == DropTrailingEmpty(Split(s, CR))
    decreases |s|
  {
    FirstCRIsFind(s);
    var i := FirstCR(s);
    if i >= 0 {
      var t := s[i + 1..];
      SplitLinesIsSplit(t);
      SplitCut(s);
      DropTrailingEmptyCons(s[..i], Split(t, CR));
      YieldedCons(s[..i], DrainAll(t));
    }
  }

  /** With every carriage return a terminator, no line holds one, and the
      lines joined back give the text, short of a final carriage return. */
  lemma {:induction false} SplitLinesShape(s: string)
    ensures forall i :: 0 <= i < |SplitLines(s)| ==> CR !in SplitLines(s)[i]
    ensures Join(SplitLines(s), CR) == s || Join(SplitLines(s), CR) + [CR] == s
  {
    var d := DrainAll(s);
    DrainAllUnbroken(s);
    DrainAllRejoins(s);
    FirstCRFacts(d.rest);
    YieldedUnbroken(d);
    YieldedRejoin(d);
  }

  /** The text has no empty line: it does not start with a carriage return
      and no two carriage returns are adjacent. */
  predicate NoEmptyLine(s: string) {
    && (|s| > 0 ==> s[0] != CR)
    && forall i :: 0 <= i < |s| - 1 ==> !(s[i] == CR && s[i + 1] == CR)
  }

  /** Where no line is empty, the loop as written cuts exactly where every
      carriage return is a terminator. */
  lemma {:induction false} DrainAgrees(s: string)
    requires NoEmptyLine(s)
    ensures Drain(s) == DrainAll(s)
    decreases |s|
  {
    var i := FirstCR(s);
    if i >= 0 {
      FirstCRFacts(s);
      assert i > 0;
      var t := s[i + 1..];
      assert NoEmptyLine(t) by {
        if |t| > 0 {
          assert t[0] == s[i + 1];
        }
        forall j | 0 <= j < |t| - 1 ensures !(t[j] == CR && t[j + 1] == CR) {
          assert t[j] == s[i + 1 + j] && t[j + 1] == s[i + 2 + j];
        }
      }
      DrainAgrees(t);
    }
  }

  /** Where no line is empty, the two cuts give the same lines. */
  lemma {:induction false} LinesAgree(s: string)
    requires NoEmptyLine(s)
    ensures Lines(s) == SplitLines(s)
  {
    DrainAgrees(s);
  }
}

=== FILE: mbds.dfy ===
/** The MBDS anonymizer: one pass over a parsed HL7 message that rewrites every
  component the anonymize map names with `anon_term`.

  A message is its segments; a segment is its fields; a field is its
  components (`msg[i][f][k]`).  Field 0 holds the segment tag.  Positions are
  taken as Python takes them: negative indices count from the end, and a
  position past the end is skipped.  Rewritten components hold the rendered
  substitute.
 */
module Mbds {
  import opened Results
  import opened PyText
  import TermCache
  import opened Alter
  import opened Resolver
  import opened FieldMap
  import opened AnonMap

  type Field = seq<string>
  type Segment = seq<Field>
  type Message = seq<Segment>

  /** A segment with the cache and the stream after rewriting it. */
  datatype Sweep = Sweep(seg: Segment, cache: TermCache.Cache, rng: Rng)

  /** A message with the cache and the stream after rewriting it. */
  datatype Pass = Pass(msg: Message, cache: TermCache.Cache, rng: Rng)

  /** An `MBDS_anon` instance: the parsed message and whether it has been
      anonymized (`_anonymized`). */
  datatype Instance = Instance(msg: Message, anonymized: bool)

  /** How `segment in anon_map` is decided: through `FieldMap.__contains__`, as
      the source does, or by plain membership of the tag. */
  datatype Membership = ThroughFieldMap | Plain

  /** Python's `xs[i]` on a sequence of length `n`: the index reached, or None
      where Python raises IndexError. */
  function PyIndex(n: nat, i: int): (r: Option<nat>)
    ensures r.Some? <==> -(n as int) <= i < n
    ensures r.Some? ==> r.value < n && r.value as int == (if i >= 0 then i else n + i)
  {
    if 0 <= i < n then Some(i) else if -(n as int) <= i < 0 then Some((n + i) as nat) else None
  }

  /** The component `hl7segment[element][component - 1]` reaches, if any. */
  function Target(seg: Segment, element: int, component: int): (r: Option<(nat, nat)>)
    ensures r.Some? ==> r.value.0 < |seg| && r.value.1 < |seg[r.value.0]|
    ensures element >= 0 && component >= 1 ==>
      (r.Some? <==> element < |seg| && component - 1 < |seg[element]|) &&
      (r.Some? ==> r.value == (element, component - 1))
  {
    match PyIndex(|seg|, element)
    case None => None
    case Some(f) =>
      match PyIndex(|seg[f]|, component - 1)
      case None => None
      case Some(k) => Some((f, k))
  }

  /** Two segments with the same fields and the same number of components in each. */
  predicate SameShape(a: Segment, b: Segment) {
    |a| == |b| && forall f :: 0 <= f < |a| ==> |a[f]| == |b[f]|
  }

  /** Component `out` is what the resolver made of `orig` under cache `c`: the
      empty string stays empty; anything else is the rendering of its cached
      substitute. */
  predicate Substituted(orig: string, out: string, c: TermCache.Cache) {
    if orig == "" then out == ""
    else TermCache.Get(c, TermCache.Str(orig)) != TermCache.Null &&
         out == TermCache.Render(TermCache.Get(c, TermCache.Str(orig)))
  }

  /** A substitution stays valid as the cache grows. */
  lemma {:induction false} SubstitutedExtends(orig: string, out: string, c: TermCache.Cache, c': TermCache.Cache)
    requires Substituted(orig, out, c) && Extends(c, c')
    ensures Substituted(orig, out, c')
  {
  }

  /** Rewriting one mapped component: `anon_term(term=cur_val, func=gen)` when
      the position exists; nothing at all when Python's indexing raises
      IndexError. */
  function RewriteAt(seg: Segment, element: int, component: int, g: Gen, c: TermCache.Cache, rng: Rng, cal: Calendar): (r: Result<Sweep>)
    ensures Target(seg, element, component).None? ==> r == Ok(Sweep(seg, c, rng))
    ensures r.Err? ==> Target(seg, element, component).Some?
    ensures r.Ok? ==> SameShape(seg, r.value.seg) && Extends(c, r.value.cache)
    ensures r.Ok? && Target(seg, element, component).Some? ==>
      var (f, k) := Target(seg, element, component).value;
      && Substituted(seg[f][k], r.value.seg[f][k], r.value.cache)
      && (forall f' :: 0 <= f' < |seg| && f' != f ==> r.value.seg[f'] == seg[f'])
      && (forall k' :: 0 <= k' < |seg[f]| && k' != k ==> r.value.seg[f][k'] == seg[f][k'])
  {
    match Target(seg, element, component)
    case None => Ok(Sweep(seg, c, rng))
    case Some((f, k)) =>
      match AnonTerm(seg[f][k], g, c, rng, cal)
      case Err(e) => Err(e)
      case Ok(s) => Ok(Sweep(seg[f := seg[f][k := TermCache.Render(s.value)]], s.cache, s.rng))
  }

  /** The inner loop: every listed component of one element, in order. */
  function Components(seg: Segment, element: int, cos: seq<int>, cmap: map<int, Gen>,
                      c: TermCache.Cache, rng: Rng, cal: Calendar): (r: Result<Sweep>)
    requires forall i :: 0 <= i < |cos| ==> cos[i] in cmap
    ensures r.Ok? ==> SameShape(seg, r.value.seg) && Extends(c, r.value.cache)
    decreases |cos|
  {
    if cos == [] then Ok(Sweep(seg, c, rng))
    else
      match RewriteAt(seg, element, cos[0], cmap[cos[0]], c, rng, cal)
      case Err(e) => Err(e)
      case Ok(s) => Components(s.seg, element, cos[1..], cmap, s.cache, s.rng, cal)
  }

  /** The outer loop: every listed element of the segment's map entry, in order. */
  function Elements(seg: Segment, es: seq<int>, emap: map<int, map<int, Gen>>,
                    c: TermCache.Cache, rng: Rng, cal: Calendar): (r: Result<Sweep>)
    requires forall i :: 0 <= i < |es| ==> es[i] in emap
    ensures r.Ok? ==> SameShape(seg, r.value.seg) && Extends(c, r.value.cache)
    decreases |es|
  {
    if es == [] then Ok(Sweep(seg, c, rng))
    else
      var cmap := emap[es[0]];
      match Components(seg, es[0], Ascending(cmap.Keys), cmap, c, rng, cal)
      case Err(e) => Err(e)
      case Ok(s) => Elements(s.seg, es[1..], emap, s.cache, s.rng, cal)
  }

  /** Rewriting a segment by its map entry.  The source walks the keys in
      dictionary order; the model fixes that order as ascending. */
  function RewriteSegment(seg: Segment, emap: map<int, map<int, Gen>>,
                          c: TermCache.Cache, rng: Rng, cal: Calendar): (r: Result<Sweep>)
    ensures r.Ok? ==> SameShape(seg, r.value.seg) && Extends(c, r.value.cache)
  {
    Elements(seg, Ascending(emap.Keys), emap, c, rng, cal)
  }

  /** `str(hl7segment[0][0])`: the tag, or IndexError for a segment without one. */
  function Tag(seg: Segment): (r: Result<string>)
    ensures r.Ok? <==> |seg| > 0 && |seg[0]| > 0
    ensures r.Err? ==> r.error == IndexError
  {
    if |seg| > 0 && |seg[0]| > 0 then Ok(seg[0][0]) else Err(IndexError)
  }

  /** One segment of the loop: segments the map does not name pass unchanged. */
  function ProcessSegment(seg: Segment, m: FieldMap<Gen>, mode: Membership,
                          c: TermCache.Cache, rng: Rng, cal: Calendar): (r: Result<Sweep>)
    ensures Tag(seg).Err? ==> r == Err(IndexError)
    ensures Tag(seg).Ok? && mode == Plain && Tag(seg).value !in m ==> r == Ok(Sweep(seg, c, rng))
    ensures Tag(seg).Ok? && mode == Plain && Tag(seg).value in m ==> r == RewriteSegment(seg, m[Tag(seg).value], c, rng, cal)
    ensures Tag(seg).Ok? && mode == ThroughFieldMap && SegmentKey(Tag(seg).value).Some? ==>
      r == if Tag(seg).value in m then RewriteSegment(seg, m[Tag(seg).value], c, rng, cal) else Ok(Sweep(seg, c, rng))
    ensures Tag(seg).Ok? && mode == ThroughFieldMap && SegmentKey(Tag(seg).value).None? ==>
      var k := ParseTripleKey(Tag(seg).value);
      && (k.Err? ==> r == Err(ValueError))
      && (k.Ok? && LeafAt(m, k.value).Some? ==> r == Err(AttributeError))
      && (k.Ok? && LeafAt(m, k.value).None? ==> r == Ok(Sweep(seg, c, rng)))
    ensures r.Ok? ==> SameShape(seg, r.value.seg) && Extends(c, r.value.cache)
  {
    match Tag(seg)
    case Err(e) => Err(e)
    case Ok(tag) =>
      match mode
      case Plain =>
        if tag in m then RewriteSegment(seg, m[tag], c, rng, cal) else Ok(Sweep(seg, c, rng))
      case ThroughFieldMap =>
        match Contains(m, tag)
        case Err(e) => Err(e)
        case Ok(false) => Ok(Sweep(seg, c, rng))
        case Ok(true) =>
          match Get(m, tag)
          case Err(e) => Err(e)
          case Ok(SegmentEntry(emap)) => RewriteSegment(seg, emap, c, rng, cal)
          // a leaf holds a generator, which has no `keys()`
          case Ok(LeafEntry(_)) => Err(AttributeError)
  }

  /** Two messages with the same segments, fields and components per field. */
  predicate SameMessageShape(a: Message, b: Message) {
    |a| == |b| && forall i :: 0 <= i < |a| ==> SameShape(a[i], b[i])
  }

  /** The loop over the message's segments, in order. */
  function ProcessMessage(msg: Message, m: FieldMap<Gen>, mode: Membership,
                          c: TermCache.Cache, rng: Rng, cal: Calendar): (r: Result<Pass>)
    ensures r.Ok? ==> SameMessageShape(msg, r.value.msg) && Extends(c, r.value.cache)
    decreases |msg|
  {
    if msg == [] then Ok(Pass(msg, c, rng))
    else
      match ProcessSegment(msg[0], m, mode, c, rng, cal)
      case Err(e) => Err(e)
      case Ok(s) =>
        match ProcessMessage(msg[1..], m, mode, s.cache, s.rng, cal)
        case Err(e) => Err(e)
        case Ok(p) => Ok(Pass([s.seg] + p.msg, p.cache, p.rng))
  }

  /** `MBDS_anon.anonymize`: the first call rewrites the message and marks the
      instance; later calls return the message as it is. */
  function Anonymize(inst: Instance, m: FieldMap<Gen>, mode: Membership,
                     c: TermCache.Cache, rng: Rng, cal: Calendar): (r: Result<(Instance, TermCache.Cache, Rng)>)
    ensures inst.anonymized ==> r == Ok((inst, c, rng))
    ensures r.Ok? ==> r.value.0.anonymized && SameMessageShape(inst.msg, r.value.0.msg) && Extends(c, r.value.1)
  {
    if inst.anonymized then Ok((inst, c, rng))
    else
      match ProcessMessage(inst.msg, m, mode, c, rng, cal)
      case Err(e) => Err(e)
      case Ok(p) => Ok((Instance(p.msg, true), p.cache, p.rng))
  }

  // ---------------------------------------------------------------------------
  // What one pass does

  /** No value occurs twice in `s`. */
  predicate Distinct(s: seq<int>) {
    forall i, j :: 0 <= i < j < |s| ==> s[i] != s[j]
  }

  /** A segment entry addresses real elements and components 1 and above, so
      no two of its leaves reach the same position. */
  predicate PositiveEntry(emap: map<int, map<int, Gen>>) {
    forall e, co :: e in emap && co in emap[e] ==> e >= 0 && co >= 1
  }

  /** `b` is `a` with the components numbered in `cos` of field `element`
      replaced by the substitutes `cache` holds for them; nothing else differs. */
  predicate RewroteComponents(a: Segment, b: Segment, cache: TermCache.Cache, element: int, cos: seq<int>) {
    && SameShape(a, b)
    && (forall f :: 0 <= f < |a| && f != element ==> b[f] == a[f])
    && (0 <= element < |a| ==>
          forall k :: 0 <= k < |a[element]| ==>
            (if k + 1 in cos then Substituted(a[element][k], b[element][k], cache)
             else b[element][k] == a[element][k]))
  }

  /** `b` is `a` with every component that `emap` names under an element of
      `es` replaced by its substitute in `cache`; nothing else differs. */
  predicate RewroteElements(a: Segment, b: Segment, cache: TermCache.Cache, es: seq<int>, emap: map<int, map<int, Gen>>) {
    && SameShape(a, b)
    && forall f, k :: 0 <= f < |a| && 0 <= k < |a[f]| ==>
         (if f in es && f in emap && k + 1 in emap[f] then Substituted(a[f][k], b[f][k], cache)
          else b[f][k] == a[f][k])
  }

  /** One rewrite at a real position is a one-component rewrite. */
  lemma {:induction false} RewriteAtStep(seg: Segment, element: int, component: int, g: Gen, c: TermCache.Cache, rng: Rng, cal: Calendar)
    requires element >= 0 && component >= 1
    requires RewriteAt(seg, element, component, g, c, rng, cal).Ok?
    ensures var s := RewriteAt(seg, element, component, g, c, rng, cal).value;
      RewroteComponents(seg, s.seg, s.cache, element, [component])
  {
  }

  /** A one-component rewrite followed by a rewrite of other components of the
      same field is a rewrite of all of them. */
  lemma {:induction false} ComposeComponents(a: Segment, b: Segment, d: Segment, cb: TermCache.Cache, cd: TermCache.Cache,
                          element: int, x: int, rest: seq<int>)
    requires RewroteComponents(a, b, cb, element, [x]) && RewroteComponents(b, d, cd, element, rest)
    requires x !in rest && Extends(cb, cd)
    ensures RewroteComponents(a, d, cd, element, [x] + rest)
  {
    if 0 <= element < |a| {
      forall k | 0 <= k < |a[element]|
        ensures if k + 1 in [x] + rest then Substituted(a[element][k], d[element][k], cd)
                else d[element][k] == a[element][k]
      {
        if k + 1 == x {
          SubstitutedExtends(a[element][k], b[element][k], cb, cd);
        }
      }
    }
  }

  /** The inner loop rewrites exactly the listed components of its element,
      each into the substitute cached for its original value. */
  lemma {:induction false} ComponentsSpec(seg: Segment, element: int, cos: seq<int>, cmap: map<int, Gen>,
                                          c: TermCache.Cache, rng: Rng, cal: Calendar)
    requires forall i :: 0 <= i < |cos| ==> cos[i] in cmap
    requires forall i :: 0 <= i < |cos| ==> element >= 0 && cos[i] >= 1
    requires Distinct(cos)
    requires Components(seg, element, cos, cmap, c, rng, cal).Ok?
    ensures var s := Components(seg, element, cos, cmap, c, rng, cal).value;
      RewroteComponents(seg, s.seg, s.cache, element, cos)
    decreases |cos|
  {
    if cos != [] {
      RewriteAtStep(seg, element, cos[0], cmap[cos[0]], c, rng, cal);
      var s1 := RewriteAt(seg, element, cos[0], cmap[cos[0]], c, rng, cal).value;
      var rest := cos[1..];
      assert Distinct(rest);
      ComponentsSpec(s1.seg, element, rest, cmap, s1.cache, s1.rng, cal);
      var s := Components(s1.seg, element, rest, cmap, s1.cache, s1.rng, cal).value;
      assert s == Components(seg, element, cos, cmap, c, rng, cal).value;
      assert cos[0] !in rest by {
        forall i | 0 <= i < |rest| ensures rest[i] != cos[0] { assert rest[i] == cos[i + 1]; }
      }
      ComposeComponents(seg, s1.seg, s.seg, s1.cache, s.cache, element, cos[0], rest);
      assert cos == [cos[0]] + rest;
    }
  }

  /** Rewriting all of one element's components and then the other elements
      rewrites all of them. */
  lemma {:induction false} ComposeElements(a: Segment, b: Segment, d: Segment, cb: TermCache.Cache, cd: TermCache.Cache,
                        e: int, cos: seq<int>, rest: seq<int>, emap: map<int, map<int, Gen>>)
    requires e in emap && forall co :: co in cos <==> co in emap[e]
    requires RewroteComponents(a, b, cb, e, cos) && RewroteElements(b, d, cd, rest, emap)
    requires e !in rest && Extends(cb, cd)
    ensures RewroteElements(a, d, cd, [e] + rest, emap)
  {
    forall f, k | 0 <= f < |a| && 0 <= k < |a[f]|
      ensures if f in [e] + rest && f in emap && k + 1 in emap[f] then Substituted(a[f][k], d[f][k], cd)
              else d[f][k] == a[f][k]
    {
      if f == e && k + 1 in cos {
        SubstitutedExtends(a[f][k], b[f][k], cb, cd);
      }
    }
  }

  /** The outer loop rewrites exactly the mapped components of its elements. */
  lemma {:induction false} ElementsSpec(seg: Segment, es: seq<int>, emap: map<int, map<int, Gen>>,
                                        c: TermCache.Cache, rng: Rng, cal: Calendar)
    requires forall i :: 0 <= i < |es| ==> es[i] in emap
    requires PositiveEntry(emap) && Distinct(es)
    requires Elements(seg, es, emap, c, rng, cal).Ok?
    ensures var s := Elements(seg, es, emap, c, rng, cal).value;
      RewroteElements(seg, s.seg, s.cache, es, emap)
    decreases |es|
  {
    if es != [] {
      var e, rest := es[0], es[1..];
      var cos := Ascending(emap[e].Keys);
      ElementsHeadFacts(es, emap);
      ElementsUnfold(seg, es, emap, c, rng, cal);
      ComponentsSpec(seg, e, cos, emap[e], c, rng, cal);
      var s1 := Components(seg, e, cos, emap[e], c, rng, cal).value;
      ElementsSpec(s1.seg, rest, emap, s1.cache, s1.rng, cal);
      var s := Elements(s1.seg, rest, emap, s1.cache, s1.rng, cal).value;
      ComposeElements(seg, s1.seg, s.seg, s1.cache, s.cache, e, cos, rest, emap);
    }
  }

  /** What the outer loop needs to know about its first element and the rest. */
  lemma {:induction false} ElementsHeadFacts(es: seq<int>, emap: map<int, map<int, Gen>>)
    requires es != [] && es[0] in emap
    requires PositiveEntry(emap) && Distinct(es)
    ensures es == [es[0]] + es[1..]
    ensures Distinct(es[1..]) && es[0] !in es[1..]
    ensures var cos := Ascending(emap[es[0]].Keys);
      && Distinct(cos)
      && (forall co :: co in cos <==> co in emap[es[0]])
      && (forall i :: 0 <= i < |cos| ==> cos[i] in emap[es[0]])
      && (forall i :: 0 <= i < |cos| ==> es[0] >= 0 && cos[i] >= 1)
  {
    var rest := es[1..];
    assert es[0] !in rest by {
      forall i | 0 <= i < |rest| ensures rest[i] != es[0] { assert rest[i] == es[i + 1]; }
    }
    var cos := Ascending(emap[es[0]].Keys);
    forall i | 0 <= i < |cos| ensures es[0] >= 0 && cos[i] >= 1 {
      assert cos[i] in emap[es[0]];
    }
  }

  /** One turn of the outer loop, when the whole loop succeeds. */
  lemma {:induction false} ElementsUnfold(seg: Segment, es: seq<int>, emap: map<int, map<int, Gen>>,
                                          c: TermCache.Cache, rng: Rng, cal: Calendar)
    requires forall i :: 0 <= i < |es| ==> es[i] in emap
    requires es != [] && Elements(seg, es, emap, c, rng, cal).Ok?
    ensures var cmap := emap[es[0]];
      var r1 := Components(seg, es[0], Ascending(cmap.Keys), cmap, c, rng, cal);
      && r1.Ok?
      && Elements(seg, es, emap, c, rng, cal)
         == Elements(r1.value.seg, es[1..], emap, r1.value.cache, r1.value.rng, cal)
  {
  }

  /** Rewriting a segment whose entry has positive coordinates: a component is
      replaced by its original's cached substitute exactly when the entry names
      it, and every other component is kept. */
  lemma {:induction false} RewriteSegmentSpec(seg: Segment, emap: map<int, map<int, Gen>>, c: TermCache.Cache, rng: Rng, cal: Calendar)
    requires PositiveEntry(emap)
    requires RewriteSegment(seg, emap, c, rng, cal).Ok?
    ensures var s := RewriteSegment(seg, emap, c, rng, cal).value;
      forall f, k :: 0 <= f < |seg| && 0 <= k < |seg[f]| ==>
        if f in emap && k + 1 in emap[f] then Substituted(seg[f][k], s.seg[f][k], s.cache)
        else s.seg[f][k] == seg[f][k]
  {
    var es := Ascending(emap.Keys);
    ElementsSpec(seg, es, emap, c, rng, cal);
    var s := RewriteSegment(seg, emap, c, rng, cal).value;
    assert s == Elements(seg, es, emap, c, rng, cal).value;
    forall f, k | 0 <= f < |seg| && 0 <= k < |seg[f]|
      ensures if f in emap && k + 1 in emap[f] then Substituted(seg[f][k], s.seg[f][k], s.cache)
              else s.seg[f][k] == seg[f][k]
    {
      assert f in emap.Keys <==> f in es;
    }
  }

  /** Position `k` of field `f` of `seg` is named by the map entry of its tag. */
  predicate Mapped(m: FieldMap<Gen>, seg: Segment, f: int, k: int) {
    Tag(seg).Ok? && Tag(seg).value in m && f in m[Tag(seg).value] && k + 1 in m[Tag(seg).value][f]
  }

  /** A map with positive coordinates gives every segment a positive entry. */
  lemma {:induction false} EntriesPositive(m: FieldMap<Gen>, tag: string)
    requires PositiveCoords(m) && tag in m
    ensures PositiveEntry(m[tag])
  {
    forall e, co | e in m[tag] && co in m[tag][e] ensures e >= 0 && co >= 1 {
      assert LeafAt(m, Coord(tag, e, co)).Some?;
    }
  }

  /** `b` is segment `a` with every component the map names replaced by its
      substitute in `cache` (the empty string stays empty); every other
      component is kept. */
  predicate RewroteSegment(a: Segment, b: Segment, cache: TermCache.Cache, m: FieldMap<Gen>) {
    && SameShape(a, b)
    && forall f, k :: 0 <= f < |a| && 0 <= k < |a[f]| ==>
         if Mapped(m, a, f, k) then Substituted(a[f][k], b[f][k], cache)
         else b[f][k] == a[f][k]
  }

  /** `b` is message `a` with each segment rewritten as `RewroteSegment` says;
      a segment the map does not name is kept whole. */
  predicate RewroteMessage(a: Message, b: Message, cache: TermCache.Cache, m: FieldMap<Gen>) {
    |a| == |b| && forall i :: 0 <= i < |a| ==> RewroteSegment(a[i], b[i], cache, m)
  }

  /** One segment of the pass under a plain membership test. */
  lemma {:induction false} ProcessSegmentSpec(seg: Segment, m: FieldMap<Gen>, c: TermCache.Cache, rng: Rng, cal: Calendar)
    requires PositiveCoords(m)
    requires ProcessSegment(seg, m, Plain, c, rng, cal).Ok?
    ensures var s := ProcessSegment(seg, m, Plain, c, rng, cal).value;
      RewroteSegment(seg, s.seg, s.cache, m)
  {
    var tag := Tag(seg).value;
    if tag in m {
      EntriesPositive(m, tag);
      RewriteSegmentSpec(seg, m[tag], c, rng, cal);
    }
  }

  /** One turn of the segment loop, when the whole loop succeeds. */
  lemma {:induction false} ProcessMessageUnfold(msg: Message, m: FieldMap<Gen>, c: TermCache.Cache, rng: Rng, cal: Calendar)
    requires msg != [] && ProcessMessage(msg, m, Plain, c, rng, cal).Ok?
    ensures var s := ProcessSegment(msg[0], m, Plain, c, rng, cal);
      && s.Ok?
      && ProcessMessage(msg[1..], m, Plain, s.value.cache, s.value.rng, cal).Ok?
      && var p1 := ProcessMessage(msg[1..], m, Plain, s.value.cache, s.value.rng, cal).value;
         ProcessMessage(msg, m, Plain, c, rng, cal) == Ok(Pass([s.value.seg] + p1.msg, p1.cache, p1.rng))
  {
  }

  /** A rewritten first segment followed by a rewritten rest, under a cache that
      only grew, is a rewritten message. */
  lemma {:induction false} ComposeMessage(msg: Message, b0: Segment, rest: Message, cb: TermCache.Cache, cd: TermCache.Cache, m: FieldMap<Gen>)
    requires msg != []
    requires RewroteSegment(msg[0], b0, cb, m) && RewroteMessage(msg[1..], rest, cd, m)
    requires Extends(cb, cd)
    ensures RewroteMessage(msg, [b0] + rest, cd, m)
  {
    var b := [b0] + rest;
    forall i | 0 <= i < |msg| ensures RewroteSegment(msg[i], b[i], cd, m) {
      if i == 0 {
        forall f, k | 0 <= f < |b0| && 0 <= k < |b0[f]| && Mapped(m, msg[0], f, k)
          ensures Substituted(msg[0][f][k], b0[f][k], cd)
        {
          SubstitutedExtends(msg[0][f][k], b0[f][k], cb, cd);
        }
      } else {
        assert msg[i] == msg[1..][i - 1] && b[i] == rest[i - 1];
      }
    }
  }

  /** One pass over a message: every component the map names is replaced by the
      substitute the final cache holds for its original value (the empty string
      stays empty); every other component, and every segment the map does not
      name, is kept. */
  lemma {:induction false} ProcessMessageSpec(msg: Message, m: FieldMap<Gen>, c: TermCache.Cache, rng: Rng, cal: Calendar)
    requires PositiveCoords(m)
    requires ProcessMessage(msg, m, Plain, c, rng, cal).Ok?
    ensures var p := ProcessMessage(msg, m, Plain, c, rng, cal).value;
      RewroteMessage(msg, p.msg, p.cache, m)
    decreases |msg|
  {
    if msg != [] {
      ProcessMessageUnfold(msg, m, c, rng, cal);
      var s := ProcessSegment(msg[0], m, Plain, c, rng, cal).value;
      ProcessSegmentSpec(msg[0], m, c, rng, cal);
      ProcessMessageSpec(msg[1..], m, s.cache, s.rng, cal);
      var p1 := ProcessMessage(msg[1..], m, Plain, s.cache, s.rng, cal).value;
      ComposeMessage(msg, s.seg, p1.msg, s.cache, p1.cache, m);
    }
  }

  /** Equal originals at mapped positions get equal substitutes wherever they
      stand in the message: the pass is consistent. */
  lemma {:induction false} ConsistentSubstitution(msg: Message, m: FieldMap<Gen>, c: TermCache.Cache, rng: Rng, cal: Calendar,
                               i: int, f: int, k: int, j: int, g: int, l: int)
    requires PositiveCoords(m)
    requires ProcessMessage(msg, m, Plain, c, rng, cal).Ok?
    requires 0 <= i < |msg| && 0 <= f < |msg[i]| && 0 <= k < |msg[i][f]| && Mapped(m, msg[i], f, k)
    requires 0 <= j < |msg| && 0 <= g < |msg[j]| && 0 <= l < |msg[j][g]| && Mapped(m, msg[j], g, l)
    requires msg[i][f][k] == msg[j][g][l]
    ensures var p := ProcessMessage(msg, m, Plain, c, rng, cal).value;
      p.msg[i][f][k] == p.msg[j][g][l]
  {
    ProcessMessageSpec(msg, m, c, rng, cal);
  }

  /** A term the cache already holds keeps the substitute it was given before
      this message: earlier messages and this one agree. */
  lemma {:induction false} CachedTermsReused(msg: Message, m: FieldMap<Gen>, c: TermCache.Cache, rng: Rng, cal: Calendar,
                          i: int, f: int, k: int)
    requires PositiveCoords(m)
    requires ProcessMessage(msg, m, Plain, c, rng, cal).Ok?
    requires 0 <= i < |msg| && 0 <= f < |msg[i]| && 0 <= k < |msg[i][f]| && Mapped(m, msg[i], f, k)
    requires msg[i][f][k] != "" && TermCache.Get(c, TermCache.Str(msg[i][f][k])) != TermCache.Null
    ensures var p := ProcessMessage(msg, m, Plain, c, rng, cal).value;
      p.msg[i][f][k] == TermCache.Render(TermCache.Get(c, TermCache.Str(msg[i][f][k])))
  {
    ProcessMessageSpec(msg, m, c, rng, cal);
  }

  /** A segment whose tag has the shape of a segment key is treated alike by
      the field map's `in` and by a plain membership test. */
  lemma {:induction false} SegmentModesAgree(seg: Segment, m: FieldMap<Gen>, c: TermCache.Cache, rng: Rng, cal: Calendar)
    requires Tag(seg).Ok? ==> SegmentTag(Anchored(Tag(seg).value))
    ensures ProcessSegment(seg, m, ThroughFieldMap, c, rng, cal) == ProcessSegment(seg, m, Plain, c, rng, cal)
  {
    if Tag(seg).Ok? {
      var tag := Tag(seg).value;
      assert SegmentKey(tag) == Some(tag);
    }
  }

  /** On messages whose segment tags all have the shape of segment keys, the
      two membership tests give the same pass. */
  lemma {:induction false} ModesAgree(msg: Message, m: FieldMap<Gen>, c: TermCache.Cache, rng: Rng, cal: Calendar)
    requires forall i :: 0 <= i < |msg| && Tag(msg[i]).Ok? ==> SegmentTag(Anchored(Tag(msg[i]).value))
    ensures ProcessMessage(msg, m, ThroughFieldMap, c, rng, cal) == ProcessMessage(msg, m, Plain, c, rng, cal)
    decreases |msg|
  {
    if msg != [] {
      SegmentModesAgree(msg[0], m, c, rng, cal);
      var s := ProcessSegment(msg[0], m, Plain, c, rng, cal);
      if s.Ok? {
        forall i | 0 <= i < |msg[1..]| && Tag(msg[1..][i]).Ok?
          ensures SegmentTag(Anchored(Tag(msg[1..][i]).value))
        {
          assert msg[1..][i] == msg[i + 1];
        }
        ModesAgree(msg[1..], m, s.value.cache, s.value.rng, cal);
      }
    }
  }

  /** The segment loop as written: a site-specific segment such as "Z01", whose
      tag is not a field-map key, makes the `in` test raise ValueError, so the
      whole message fails although the map does not name the segment. */
  lemma {:induction false} UnkeyedSegmentAborts(m: FieldMap<Gen>, c: TermCache.Cache, rng: Rng, cal: Calendar)
    ensures ProcessMessage([[["Z01"]]], m, ThroughFieldMap, c, rng, cal) == Err(ValueError)
  {
    var seg: Segment := [["Z01"]];
    assert Tag(seg) == Ok("Z01");
    assert !SegmentTag(Anchored("Z01")) by { assert !IsUpper("Z01"[1]); }
  }

  /** The segment loop as written, for every message: once a segment's tag is
      neither a segment tag nor a triple key, the message fails with
      ValueError, whatever follows it. */
  lemma {:induction false} MalformedTagAborts(seg: Segment, rest: Message, m: FieldMap<Gen>,
                                              c: TermCache.Cache, rng: Rng, cal: Calendar)
    requires Tag(seg).Ok? && SegmentKey(Tag(seg).value).None? && ParseTripleKey(Tag(seg).value).Err?
    ensures ProcessMessage([seg] + rest, m, ThroughFieldMap, c, rng, cal) == Err(ValueError)
  {
    assert ([seg] + rest)[0] == seg;
  }

  /** The same message under a plain membership test: an unnamed segment
      passes through unchanged. */
  lemma {:induction false} UnkeyedSegmentKept(m: FieldMap<Gen>, c: TermCache.Cache, rng: Rng, cal: Calendar)
    requires "Z01" !in m
    ensures ProcessMessage([[["Z01"]]], m, Plain, c, rng, cal) == Ok(Pass([[["Z01"]]], c, rng))
  {
    var seg: Segment := [["Z01"]];
    assert Tag(seg) == Ok("Z01");
    assert ProcessMessage([], m, Plain, c, rng, cal) == Ok(Pass([], c, rng));
    assert [seg] + [] == [seg];
  }

  /** A second call on the same instance changes nothing: not the message, not
      the cache and not the random source. */
  lemma {:induction false} AnonymizeIdempotent(inst: Instance, m: FieldMap<Gen>, mode: Membership,
                            c: TermCache.Cache, rng: Rng, cal: Calendar)
    requires Anonymize(inst, m, mode, c, rng, cal).Ok?
    ensures var (once, c1, rng1) := Anonymize(inst, m, mode, c, rng, cal).value;
      Anonymize(once, m, mode, c1, rng1, cal) == Ok((once, c1, rng1))
  {
  }

  // ---------------------------------------------------------------------------
  // Key order

  predicate IsLeast(m: int, s: set<int>) {
    m in s && forall x :: x in s ==> m <= x
  }

  /** The smallest member of a non-empty set of integers. */
  function Least(s: set<int>): (m: int)
    requires s != {}
    ensures IsLeast(m, s)
  {
    LeastExists(s);
    var m :| IsLeast(m, s); m
  }

  lemma {:induction false} LeastExists(s: set<int>)
    requires s != {}
    ensures exists m :: IsLeast(m, s)
  {
    var m := LeastOf(s);
  }

  lemma {:induction false} Member(s: set<int>) returns (y: int)
    requires s != {}
    ensures y in s
  {
    if forall x :: x !in s {
      assert false;
    }
    y :| y in s;
  }

  lemma {:induction false} LeastOf(s: set<int>) returns (m: int)
    requires s != {}
    ensures IsLeast(m, s)
    decreases |s|
  {
    var y := Member(s);
    if s == {y} {
      m := y;
    } else {
      var rest := LeastOf(s - {y});
      m := if y < rest then y else rest;
      forall x | x in s ensures m <= x {
        if x != y {
          assert x in s - {y};
        }
      }
    }
  }

  /** The members of a set in ascending order. */
  function Ascending(s: set<int>): (r: seq<int>)
    ensures |r| == |s|
    ensures forall x :: x in r <==> x in s
    ensures forall i, j :: 0 <= i < j < |r| ==> r[i] < r[j]
    decreases |s|
  {
    if s == {} then []
    else
      var m := Least(s);
      [m] + Ascending(s - {m})
  }
}

=== FILE: pytext.dfy ===
/** The Python 2 string operations the anonymizer relies on, over `string`.

  Only ASCII behaviour is modelled: `upper`, `lower` and `capitalize` act on
  the letters a-z and A-Z, and `\d` and `int()` accept the digits 0-9.
 */
module PyText {

  predicate IsLower(c: char) { 'a' <= c <= 'z' }

  predicate IsUpper(c: char) { 'A' <= c <= 'Z' }

  predicate IsDigit(c: char) { '0' <= c <= '9' }

  predicate IsSpace(c: char) {
    c == ' ' || c == '\t' || c == '\n' || c == '\r' || c == '\U{B}' || c == '\U{C}'
  }

  predicate AllLower(s: string) { forall i :: 0 <= i < |s| ==> IsLower(s[i]) }

  predicate AllDigits(s: string) { forall i :: 0 <= i < |s| ==> IsDigit(s[i]) }

  function Upper(c: char): char {
    if IsLower(c) then (c as int - 32) as char else c
  }

  function Lower(c: char): char {
    if IsUpper(c) then (c as int + 32) as char else c
  }

  /** `str.lower` */
  function LowerText(s: string): (r: string)
    ensures |r| == |s|
  {
    seq(|s|, i requires 0 <= i < |s| => Lower(s[i]))
  }

  /** `str.capitalize`: the first character upper-cased, the rest lower-cased. */
  function Capitalize(s: string): (r: string)
    ensures |r| == |s|
    ensures |s| > 0 ==> r[0] == Upper(s[0])
    ensures forall i :: 0 < i < |s| ==> r[i] == Lower(s[i])
  {
    if s == [] then [] else [Upper(s[0])] + seq(|s| - 1, i requires 0 <= i < |s| - 1 => Lower(s[i + 1]))
  }

  /** `str.find` for one character: the first index holding `c`, or -1. */
  function Find(s: string, c: char): (r: int)
    ensures -1 <= r < |s|
    ensures r == -1 <==> c !in s
    ensures r >= 0 ==> s[r] == c && c !in s[..r]
  {
    if s == [] then -1
    else if s[0] == c then 0
    else
      var k := Find(s[1..], c);
      assert s[1..][..if k < 0 then 0 else k] == s[1..1 + (if k < 0 then 0 else k)];
      if k < 0 then -1 else k + 1
  }

  /** The index a Python slice bound `i` denotes in a sequence of length `n`. */
  function SliceBound(n: nat, i: int): (r: nat)
    ensures r <= n
  {
    if i < 0 then (if n + i < 0 then 0 else n + i) else (if i < n then i else n)
  }

  /** `s[a:b]` with Python's treatment of negative and out-of-range bounds. */
  function Slice(s: string, a: int, b: int): string {
    var lo := SliceBound(|s|, a);
    var hi := SliceBound(|s|, b);
    if lo < hi then s[lo..hi] else ""
  }

  /** `s[a:]` */
  function SliceFrom(s: string, a: int): string {
    s[SliceBound(|s|, a)..]
  }

  /** `s[:b]` */
  function SliceTo(s: string, b: int): string {
    s[..SliceBound(|s|, b)]
  }

  /** `sep.join(parts)` for a one-character separator. */
  function Join(parts: seq<string>, sep: char): string
  {
    if |parts| == 0 then ""
    else if |parts| == 1 then parts[0]
    else parts[0] + [sep] + Join(parts[1..], sep)
  }

  /** `s.split(sep)`: the pieces between occurrences of `sep`; always at least one. */
  function Split(s: string, sep: char): (parts: seq<string>)
    ensures |parts| >= 1
    ensures forall i :: 0 <= i < |parts| ==> sep !in parts[i]
    ensures Join(parts, sep) == s
    decreases |s|
  {
    var i := Find(s, sep);
    if i < 0 then [s]
    else
      var rest := Split(s[i + 1..], sep);
      assert s == s[..i] + [sep] + s[i + 1..];
      [s[..i]] + rest
  }

  /** The first separator after a separator-free piece is right after it. */
  lemma {:induction false} FindAfterPiece(a: string, sep: char, b: string)
    requires sep !in a
    ensures Find(a + [sep] + b, sep) == |a|
  {
    if a != [] {
      var s := a + [sep] + b;
      assert s[0] == a[0] && s[0] != sep;
      assert s[1..] == a[1..] + [sep] + b;
      FindAfterPiece(a[1..], sep, b);
    }
  }

  /** Splitting a join of separator-free pieces gives the pieces back. */
  lemma {:induction false} SplitJoin(parts: seq<string>, sep: char)
    requires |parts| >= 1
    requires forall i :: 0 <= i < |parts| ==> sep !in parts[i]
    ensures Split(Join(parts, sep), sep) == parts
  {
    if |parts| > 1 {
      var s := Join(parts, sep);
      var rest := Join(parts[1..], sep);
      assert s == parts[0] + [sep] + rest;
      FindAfterPiece(parts[0], sep, rest);
      assert s[..|parts[0]|] == parts[0];
      assert s[|parts[0]| + 1..] == rest;
      SplitJoin(parts[1..], sep);
      assert parts == [parts[0]] + parts[1..];
    } else {
      assert Find(parts[0], sep) == -1;
    }
  }

  /** `str.strip()` with no argument: surrounding whitespace removed. */
  function Strip(s: string): string
    decreases |s|
  {
    if |s| > 0 && IsSpace(s[0]) then Strip(s[1..])
    else if |s| > 0 && IsSpace(s[|s| - 1]) then Strip(s[..|s| - 1])
    else s
  }

  function DigitChar(d: nat): (c: char)
    requires d < 10
    ensures IsDigit(c)
  {
    ('0' as int + d) as char
  }

  /** `str(n)` for a non-negative integer. */
  function NatToDecimal(n: nat): (s: string)
    ensures |s| >= 1 && AllDigits(s)
  {
    if n < 10 then [DigitChar(n)] else NatToDecimal(n / 10) + [DigitChar(n % 10)]
  }

  /** `str(i)` for any integer. */
  function IntToDecimal(i: int): (s: string)
    ensures |s| >= 1 && (s[0] == '-' <==> i < 0)
  {
    if i < 0 then "-" + NatToDecimal(-i) else NatToDecimal(i)
  }

  /** `int(s)` for a string of decimal digits (leading zeros allowed). */
  function DigitsValue(s: string): nat
    requires AllDigits(s)
  {
    if s == [] then 0 else 10 * DigitsValue(s[..|s| - 1]) + (s[|s| - 1] as int - '0' as int)
  }

  /** Reading back a rendered number gives the number: `int(str(n)) == n`. */
  lemma {:induction false} DecimalRoundTrip(n: nat)
    ensures DigitsValue(NatToDecimal(n)) == n
  {
    if n >= 10 {
      var s := NatToDecimal(n);
      assert s[..|s| - 1] == NatToDecimal(n / 10);
      DecimalRoundTrip(n / 10);
    }
  }

  /** Distinct naturals render differently. */
  lemma {:induction false} NatToDecimalInjective(a: nat, b: nat)
    requires NatToDecimal(a) == NatToDecimal(b)
    ensures a == b
  {
    DecimalRoundTrip(a);
    DecimalRoundTrip(b);
  }

  /** Distinct integers render differently, so `str` keys never collide. */
  lemma {:induction false} IntToDecimalInjective(i: int, j: int)
    requires IntToDecimal(i) == IntToDecimal(j)
    ensures i == j
  {
    if i < 0 && j < 0 {
      assert NatToDecimal(-i) == IntToDecimal(i)[1..];
      assert NatToDecimal(-j) == IntToDecimal(j)[1..];
      NatToDecimalInjective(-i, -j);
    } else if i >= 0 && j >= 0 {
      NatToDecimalInjective(i, j);
    }
  }
}

=== FILE: resolver.dfy ===
/** The resolver `anon_term` and the generators built on it.

  A generator is a `Gen` value: one of the three parameterised generators of
  `alter.py`, or one of the compound generators of `field_map.py`, which
  split a value and resolve its parts through the cache again.  Every call
  takes the cache and the random stream and returns their successors; an
  exception of the source is an `Err` result.
 */
module Resolver {
  import opened Results
  import opened PyText
  import opened TermCache
  import opened Alter

  datatype Gen =
    | Letters(letters: LetterSpec)
    | Digits(digits: DigitSpec)
    | DateShift(date: DateSpec)
    | FacilitySubcomponents
    | Zipcode
    | TypeAndMagnitude
    | OnePoint(length: nat, point: int)   // digits with a single point; not in the source

  /** A substitute with the cache and the stream left after producing it. */
  datatype Step = Step(value: Value, cache: Cache, rng: Rng)

  /** The compound generators, which pass an empty input through themselves. */
  predicate Compound(g: Gen) {
    g.FacilitySubcomponents? || g.Zipcode? || g.TypeAndMagnitude?
  }

  function Rank(g: Gen): nat {
    if Compound(g) then 1 else 0
  }

  /** No entry with a value is lost or changed from `c` to `c'`. */
  predicate Extends(c: Cache, c': Cache) {
    && c.Keys <= c'.Keys
    && forall k :: k in c && c[k] != Null ==> c'[k] == c[k]
  }

  // The generator instances of `field_map.py`.
  const DottedSequence: DigitSpec := DigitSpec(30, Range(1, 7))
  const ShortString: LetterSpec := LetterSpec(10, "")
  const SiteString: LetterSpec := LetterSpec(12, "Site ")
  const TwoDigitSpec: DigitSpec := DigitSpec(2, [2])
  const FiveDigitSpec: DigitSpec := DigitSpec(5, [5])
  const SixDigitSpec: DigitSpec := DigitSpec(6, [6])
  const TenDigitSpec: DigitSpec := DigitSpec(10, [10])

  /** The instances are what the constructors build from the source's arguments. */
  lemma {:induction false} InstancesConstructed()
    ensures FixedLengthDigits(30, [IntArg(1), IntArg(7)]) == Ok(DottedSequence)
    ensures FixedLengthString(10, "") == Ok(ShortString)
    ensures FixedLengthString(12, "Site ") == Ok(SiteString)
    ensures FixedLengthDigits(2, []) == Ok(TwoDigitSpec)
    ensures FixedLengthDigits(5, []) == Ok(FiveDigitSpec)
    ensures FixedLengthDigits(6, []) == Ok(SixDigitSpec)
    ensures FixedLengthDigits(10, []) == Ok(TenDigitSpec)
  {
  }

  /** `anon_term(term, func)`: an empty term is returned as it is and the cache
      is not touched; a cached substitute is returned whatever the generator;
      otherwise the generator runs once and its result is stored and returned. */
  function AnonTerm(term: string, g: Gen, c: Cache, rng: Rng, cal: Calendar): (r: Result<Step>)
    ensures term == "" ==> r == Ok(Step(Text(""), c, rng))
    ensures term != "" && Get(c, Str(term)) != Null ==> r == Ok(Step(Get(c, Str(term)), c, rng))
    ensures term != "" && Get(c, Str(term)) == Null ==>
      var gen := Generate(g, term, c, rng, cal);
      && (r.Ok? <==> gen.Ok?)
      && (r.Err? ==> r.error == gen.error)
      && (r.Ok? ==> r.value == Step(gen.value.value, Set(gen.value.cache, Str(term), gen.value.value), gen.value.rng))
    ensures r.Ok? ==> r.value.value != Null && Extends(c, r.value.cache)
    ensures r.Ok? && term != "" ==> Get(r.value.cache, Str(term)) == r.value.value
    decreases Rank(g), 2
  {
    if term == "" then Ok(Step(Text(term), c, rng))
    else
      var cached := Get(c, Str(term));
      if cached != Null then Ok(Step(cached, c, rng))
      else
        match Generate(g, term, c, rng, cal)
        case Err(e) => Err(e)
        case Ok(s) => Ok(Step(s.value, Set(s.cache, Str(term), s.value), s.rng))
  }

  /** Calling a generator on `initial`.  The parameterised generators demand a
      non-empty input and leave the cache alone; the compound ones resolve
      their parts through `anon_term`. */
  function Generate(g: Gen, initial: string, c: Cache, rng: Rng, cal: Calendar): (r: Result<Step>)
    requires initial != "" || Compound(g)
    ensures r.Ok? ==> r.value.value != Null && Extends(c, r.value.cache)
    ensures !Compound(g) && r.Ok? ==> r.value.cache == c && r.value.value.Text?
    decreases Rank(g), 1
  {
    match g
    case Letters(spec) =>
      var (s, r1) := GenerateLetters(spec, initial, rng);
      Ok(Step(Text(s), c, r1))
    case Digits(spec) =>
      (match GenerateDigits(spec, initial, rng)
       case Err(e) => Err(e)
       case Ok(out) => Ok(Step(Text(out.0), c, out.1)))
    case DateShift(spec) =>
      (match ShiftText(spec, initial, cal)
       case Err(e) => Err(e)
       case Ok(s) => Ok(Step(Text(s), c, rng)))
    case FacilitySubcomponents => Facility(initial, c, rng, cal)
    case Zipcode => Zip(initial, c, rng, cal)
    case TypeAndMagnitude => TypeMagnitude(initial, c, rng, cal)
    case OnePoint(n, p) =>
      var (s, r1) := SinglePointDigits(n, p, initial, rng);
      Ok(Step(Text(s), c, r1))
  }

  /** `facility_subcomponents`: fewer than three `&`-separated parts resolve as
      one dotted sequence; otherwise the first part resolves as a site name,
      the second as a dotted sequence, the third is kept and any further parts
      are dropped.  A cached substitute that is not text cannot be joined. */
  function Facility(initial: string, c: Cache, rng: Rng, cal: Calendar): (r: Result<Step>)
    ensures initial == "" ==> r == Ok(Step(Text(""), c, rng))
    ensures r.Ok? ==> r.value.value != Null && Extends(c, r.value.cache)
    decreases 1, 0
  {
    if initial == "" then Ok(Step(Text(initial), c, rng))
    else
      var parts := Split(initial, '&');
      if |parts| < 3 then AnonTerm(initial, Digits(DottedSequence), c, rng, cal)
      else
        match AnonTerm(parts[0], Letters(SiteString), c, rng, cal)
        case Err(e) => Err(e)
        case Ok(a) =>
          match AnonTerm(parts[1], Digits(DottedSequence), a.cache, a.rng, cal)
          case Err(e) => Err(e)
          case Ok(b) =>
            if a.value.Text? && b.value.Text? then
              Ok(Step(Text(Join([a.value.text, b.value.text, parts[2]], '&')), b.cache, b.rng))
            else Err(TypeError)
  }

  /** `zipcode`: the first three characters kept and two random digits
      appended, or five random digits for a shorter input.  Neither draw goes
      through the cache. */
  function Zip(initial: string, c: Cache, rng: Rng, cal: Calendar): (r: Result<Step>)
    ensures initial == "" ==> r == Ok(Step(Text(""), c, rng))
    ensures r.Ok? ==> r.value.cache == c && r.value.value.Text?
    decreases 1, 0
  {
    if initial == "" then Ok(Step(Text(initial), c, rng))
    else if |initial| >= 3 then
      match GenerateDigits(TwoDigitSpec, initial, rng)
      case Err(e) => Err(e)
      case Ok(out) => Ok(Step(Text(initial[..3] + out.0), c, out.1))
    else
      match GenerateDigits(FiveDigitSpec, initial, rng)
      case Err(e) => Err(e)
      case Ok(out) => Ok(Step(Text(out.0), c, out.1))
  }

  /** `int(s)` succeeds: optional surrounding whitespace, an optional sign,
      optional whitespace after the sign (Python 2's `int` skips it), and at
      least one decimal digit. */
  predicate IntLike(s: string) {
    var t := Strip(s);
    var d := if |t| > 0 && (t[0] == '+' || t[0] == '-') then Strip(t[1..]) else t;
    |d| > 0 && AllDigits(d)
  }

  /** A decimal mantissa: digits with at most one point, at least one digit. */
  predicate Mantissa(m: string) {
    var p := Find(m, '.');
    if p < 0 then |m| > 0 && AllDigits(m)
    else |m| > 1 && AllDigits(m[..p]) && AllDigits(m[p + 1..])
  }

  /** An optional sign followed by at least one decimal digit. */
  predicate SignedDigits(s: string) {
    var d := if |s| > 0 && (s[0] == '+' || s[0] == '-') then s[1..] else s;
    |d| > 0 && AllDigits(d)
  }

  /** `float(s)` succeeds: optional whitespace and sign around either a
      mantissa with an optional exponent, or one of the special values. */
  predicate FloatLike(s: string) {
    var t := Strip(s);
    var u := if |t| > 0 && (t[0] == '+' || t[0] == '-') then t[1..] else t;
    var l := LowerText(u);
    var e := Find(l, 'e');
    || l == "inf" || l == "infinity" || l == "nan"
    || (e < 0 && Mantissa(u))
    || (e >= 0 && Mantissa(u[..e]) && SignedDigits(u[e + 1..]))
  }

  /** What `int()` accepts: a space after the sign, surrounding whitespace;
      not a bare sign, nor a space between digits. */
  lemma {:induction false} IntLikeExamples()
    ensures IntLike("- 5") && IntLike(" 42\n")
    ensures !IntLike("+") && !IntLike("4 2")
  {
    assert Strip("- 5") == "- 5";
    assert " 5"[1..] == "5";
    assert Strip(" 5") == "5";
    assert " 42\n"[1..] == "42\n";
    assert "42\n"[..2] == "42";
    assert Strip(" 42\n") == "42";
    assert Strip("+") == "+";
    assert Strip("+"[1..]) == "";
    assert Strip("4 2") == "4 2";
    assert !IsDigit("4 2"[1]);
  }

  /** The generator `fixed_length_digits(length)` returns: digits only. */
  function IntegerDigits(length: int): (g: Gen)
    ensures g.Digits? && Rank(g) == 0
  {
    Digits(FixedLengthDigits(length, []).value)
  }

  /** The generator `fixed_length_digits(length, (point, point + 1))` returns:
      digits with a point at position `point`. */
  function FloatDigits(length: int, point: int): (g: Gen)
    ensures g.Digits? && Rank(g) == 0
  {
    Digits(FixedLengthDigits(length, [IntArg(point), IntArg(point + 1)]).value)
  }

  /** `type_and_magnitude`: an integer is resolved as digits of the same
      length; a float as digits of the same length with a point where the
      input's first point is; anything else becomes a fresh short string that
      does not go through the cache here. */
  function TypeMagnitude(initial: string, c: Cache, rng: Rng, cal: Calendar): (r: Result<Step>)
    ensures initial == "" ==> r == Ok(Step(Text(""), c, rng))
    ensures r.Ok? ==> r.value.value != Null && Extends(c, r.value.cache)
    decreases 1, 0
  {
    if initial == "" then Ok(Step(Text(initial), c, rng))
    else if IntLike(initial) then
      AnonTerm(initial, IntegerDigits(|initial|), c, rng, cal)
    else if FloatLike(initial) then
      AnonTerm(initial, FloatDigits(|initial|, Find(initial, '.')), c, rng, cal)
    else
      var (s, r1) := GenerateLetters(ShortString, initial, rng);
      Ok(Step(Text(s), c, r1))
  }

  /** `type_and_magnitude` with the float case corrected: a float-like value
      becomes digits of the same length with one point, where the input's
      first point is, rather than the repeating points of `FloatDigits`. */
  function TypeMagnitudeCorrected(initial: string, c: Cache, rng: Rng, cal: Calendar): (r: Result<Step>)
    ensures r.Ok? ==> r.value.value != Null && Extends(c, r.value.cache)
  {
    if initial != "" && !IntLike(initial) && FloatLike(initial) then
      AnonTerm(initial, OnePoint(|initial|, Find(initial, '.')), c, rng, cal)
    else TypeMagnitude(initial, c, rng, cal)
  }

  /** `msg_control_id`: the source identifier (all but the last 18 characters)
      resolved as ten digits, the 14-character timestamp resolved through the
      date shift, and the 4-character counter kept. */
  function MsgControlId(initial: string, ymdhms: DateSpec, c: Cache, rng: Rng, cal: Calendar): (r: Result<Step>)
    ensures r.Ok? ==> Extends(c, r.value.cache)
    ensures r.Ok? ==> r.value.value.Text?
  {
    var counter := SliceFrom(initial, -4);
    var timestamp := Slice(initial, -18, -4);
    var sourceId := SliceTo(initial, -18);
    match AnonTerm(sourceId, Digits(TenDigitSpec), c, rng, cal)
    case Err(e) => Err(e)
    case Ok(a) =>
      match AnonTerm(timestamp, DateShift(ymdhms), a.cache, a.rng, cal)
      case Err(e) => Err(e)
      case Ok(b) =>
        if a.value.Text? && b.value.Text? then
          Ok(Step(Text(a.value.text + b.value.text + counter), b.cache, b.rng))
        else Err(TypeError)
  }

  // ---------------------------------------------------------------------------
  // Properties

  /** Resolving a term again, with any generator and any stream, returns the
      substitute of the first call and changes nothing. */
  lemma {:induction false} AnonTermRepeat(term: string, g: Gen, g2: Gen, c: Cache, rng: Rng, rng2: Rng, cal: Calendar)
    requires AnonTerm(term, g, c, rng, cal).Ok?
    ensures var s := AnonTerm(term, g, c, rng, cal).value;
      AnonTerm(term, g2, s.cache, rng2, cal) == Ok(Step(s.value, s.cache, rng2))
  {
  }

  /** A non-empty zip code becomes exactly five characters: its first three
      kept and two digits appended, or five digits when it is shorter. */
  lemma {:induction false} ZipShape(initial: string, c: Cache, rng: Rng, cal: Calendar)
    requires initial != ""
    ensures var r := Zip(initial, c, rng, cal);
      && r.Ok? && r.value.cache == c
      && |r.value.value.text| == 5
      && (|initial| >= 3 ==> r.value.value.text[..3] == initial[..3] && AllDigits(r.value.value.text[3..]))
      && (|initial| < 3 ==> AllDigits(r.value.value.text))
  {
    if |initial| >= 3 {
      DigitsWithoutFrequencyHaveNoPoint(2, initial, rng);
      var z := Zip(initial, c, rng, cal).value.value.text;
      var d := GenerateDigits(TwoDigitSpec, initial, rng).value.0;
      assert z == initial[..3] + d;
      assert z[3..] == d;
    } else {
      DigitsWithoutFrequencyHaveNoPoint(5, initial, rng);
    }
  }

  /** With fewer than three `&`-parts and nothing cached for the whole value,
      a facility becomes a 30-character dotted sequence. */
  lemma {:induction false} FacilityFewParts(initial: string, c: Cache, rng: Rng, cal: Calendar)
    requires initial != "" && |Split(initial, '&')| < 3
    requires Get(c, Str(initial)) == Null
    ensures var r := Facility(initial, c, rng, cal);
      && r.Ok? && r.value.value.Text?
      && |r.value.value.text| == 30 && DigitOrPoint(r.value.value.text)
      && Get(r.value.cache, Str(initial)) == r.value.value
  {
  }

  /** With three or more `&`-parts whose first two have nothing cached, the
      result has exactly three parts: the substitute of the first part, that
      of the second, and the input's third part unchanged; further parts are
      dropped.  `SiteNamePart` and `DottedPart` say what the substitutes are. */
  lemma {:induction false} FacilityThreeParts(initial: string, c: Cache, rng: Rng, cal: Calendar)
    requires |Split(initial, '&')| >= 3
    requires Get(c, Str(Split(initial, '&')[0])) == Null && Get(c, Str(Split(initial, '&')[1])) == Null
    ensures var parts := Split(initial, '&');
      var a := AnonTerm(parts[0], Letters(SiteString), c, rng, cal);
      var r := Facility(initial, c, rng, cal);
      && a.Ok? && r.Ok? && r.value.value.Text?
      && var b := AnonTerm(parts[1], Digits(DottedSequence), a.value.cache, a.value.rng, cal);
      && b.Ok?
      && Split(r.value.value.text, '&') == [a.value.value.text, b.value.value.text, parts[2]]
  {
    var parts := Split(initial, '&');
    FacilityPartsText(initial, c, rng, cal);
    FacilityJoins(initial, c, rng, cal);
    var a := AnonTerm(parts[0], Letters(SiteString), c, rng, cal).value;
    var b := AnonTerm(parts[1], Digits(DottedSequence), a.cache, a.rng, cal).value;
    JoinThree(a.value.text, b.value.text, parts[2]);
  }

  /** Three `&`-free parts joined with `&` split back into themselves. */
  lemma {:induction false} JoinThree(x: string, y: string, z: string)
    requires '&' !in x && '&' !in y && '&' !in z
    ensures Split(Join([x, y, z], '&'), '&') == [x, y, z]
  {
    SplitJoin([x, y, z], '&');
  }

  /** Both substitutes of a facility with fresh first parts are text without `&`. */
  lemma {:induction false} FacilityPartsText(initial: string, c: Cache, rng: Rng, cal: Calendar)
    requires |Split(initial, '&')| >= 3
    requires Get(c, Str(Split(initial, '&')[0])) == Null && Get(c, Str(Split(initial, '&')[1])) == Null
    ensures var parts := Split(initial, '&');
      var a := AnonTerm(parts[0], Letters(SiteString), c, rng, cal);
      && a.Ok? && a.value.value.Text? && '&' !in a.value.value.text
      && var b := AnonTerm(parts[1], Digits(DottedSequence), a.value.cache, a.value.rng, cal);
      && b.Ok? && b.value.value.Text? && '&' !in b.value.value.text
      && '&' !in parts[2]
  {
    var parts := Split(initial, '&');
    SiteNamePart(parts[0], c, rng, cal);
    var a := AnonTerm(parts[0], Letters(SiteString), c, rng, cal).value;
    DottedPart(parts[1], a.cache, a.rng, cal);
  }

  /** With three or more parts whose substitutes are text, the result joins
      the two substitutes and the third part. */
  lemma {:induction false} FacilityJoins(initial: string, c: Cache, rng: Rng, cal: Calendar)
    requires |Split(initial, '&')| >= 3
    requires var parts := Split(initial, '&');
      var a := AnonTerm(parts[0], Letters(SiteString), c, rng, cal);
      && a.Ok? && a.value.value.Text?
      && var b := AnonTerm(parts[1], Digits(DottedSequence), a.value.cache, a.value.rng, cal);
      && b.Ok? && b.value.value.Text?
    ensures var parts := Split(initial, '&');
      var a := AnonTerm(parts[0], Letters(SiteString), c, rng, cal).value;
      var b := AnonTerm(parts[1], Digits(DottedSequence), a.cache, a.rng, cal).value;
      Facility(initial, c, rng, cal) == Ok(Step(Text(Join([a.value.text, b.value.text, parts[2]], '&')), b.cache, b.rng))
  {
    assert initial != "";
  }

  /** The first two parts reuse what is already cached for them, as stand-alone
      components such as MSH-4.1 and MSH-4.2 store it: the facility joins those
      substitutes with part three, and the cache and the stream stay as they were. */
  lemma {:induction false} FacilityReusesCached(initial: string, s0: string, s1: string, c: Cache, rng: Rng, cal: Calendar)
    requires var parts := Split(initial, '&');
      && |parts| >= 3 && parts[0] != "" && parts[1] != ""
      && Get(c, Str(parts[0])) == Text(s0) && Get(c, Str(parts[1])) == Text(s1)
    ensures Facility(initial, c, rng, cal) == Ok(Step(Text(Join([s0, s1, Split(initial, '&')[2]], '&')), c, rng))
  {
    assert initial != "";
  }

  /** The first facility part: a site name stored for it, or nothing. */
  lemma {:induction false} SiteNamePart(p0: string, c: Cache, rng: Rng, cal: Calendar)
    requires Get(c, Str(p0)) == Null
    ensures var r := AnonTerm(p0, Letters(SiteString), c, rng, cal);
      && r.Ok? && r.value.value.Text? && '&' !in r.value.value.text
      && (p0 != "" ==> |r.value.value.text| == 12 && r.value.value.text[..5] == "Site ")
      && (p0 == "" ==> r.value.value.text == "")
      && r.value.cache == (if p0 == "" then c else c[p0 := r.value.value])
  {
    if p0 != "" {
      LettersAvoid(SiteString, p0, rng, '&');
      SiteNamePrefix(p0, rng);
    }
  }

  /** The second facility part: a dotted sequence, nothing, or the site name
      already stored for an equal first part. */
  lemma {:induction false} DottedPart(p1: string, c: Cache, rng: Rng, cal: Calendar)
    requires Get(c, Str(p1)) == Null || (Get(c, Str(p1)).Text? && '&' !in Get(c, Str(p1)).text)
    ensures var r := AnonTerm(p1, Digits(DottedSequence), c, rng, cal);
      && r.Ok? && r.value.value.Text? && '&' !in r.value.value.text
      && (p1 != "" && Get(c, Str(p1)) == Null ==> |r.value.value.text| == 30 && DigitOrPoint(r.value.value.text))
  {
    if p1 != "" && Get(c, Str(p1)) == Null {
      var d := GenerateDigits(DottedSequence, p1, rng).value.0;
      assert forall i :: 0 <= i < |d| ==> d[i] != '&';
    }
  }

  /** A generated site name starts with the prefix "Site ". */
  lemma {:induction false} SiteNamePrefix(initial: string, rng: Rng)
    requires initial != ""
    ensures var r := GenerateLetters(SiteString, initial, rng).0;
      |r| == 12 && r[..5] == "Site "
  {
    var r := GenerateLetters(SiteString, initial, rng).0;
    var fill :| |fill| == 7 && AllLower(fill) && r == Capitalize("Site " + fill);
    assert ("Site " + fill)[..5] == "Site ";
  }

  /** An integer-like value with nothing cached becomes a string of digits of
      the same length, stored for the value. */
  lemma {:induction false} TypeMagnitudeInteger(initial: string, c: Cache, rng: Rng, cal: Calendar)
    requires initial != "" && IntLike(initial)
    requires Get(c, Str(initial)) == Null
    ensures var r := TypeMagnitude(initial, c, rng, cal);
      && r.Ok? && r.value.value.Text?
      && |r.value.value.text| == |initial| && AllDigits(r.value.value.text)
      && Get(r.value.cache, Str(initial)) == r.value.value
  {
    DigitsWithoutFrequencyHaveNoPoint(|initial|, initial, rng);
  }

  /** A float-like value with a point at `f` and nothing cached becomes a
      string of the same length with points exactly at `f`, `2f + 1`, `3f + 2`,
      and so on: the offset `f` is used for the first point and for every gap
      after it. */
  lemma {:induction false} TypeMagnitudeFloat(initial: string, c: Cache, rng: Rng, cal: Calendar)
    requires !IntLike(initial) && FloatLike(initial) && '.' in initial
    requires Get(c, Str(initial)) == Null
    ensures var r := TypeMagnitude(initial, c, rng, cal);
      var f := Find(initial, '.');
      && r.Ok? && r.value.value.Text?
      && var o := r.value.value.text;
      && |o| == |initial|
      && (forall j :: 0 <= j < |o| ==> (o[j] == '.' <==> f <= j && (j - f) % (f + 1) == 0))
      && o[f] == '.' && '.' !in o[..f]
      && (2 * f + 1 >= |initial| ==> '.' !in o[f + 1..])
      && (2 * f + 1 < |initial| ==> o[2 * f + 1] == '.')
      && Get(r.value.cache, Str(initial)) == r.value.value
  {
    var f := Find(initial, '.');
    var spec := DigitSpec(|initial|, [f]);
    DigitsFixedGap(|initial|, f, initial, rng);
    assert FloatDigits(|initial|, f) == Digits(spec);
    var (o, r1) := GenerateDigits(spec, initial, rng).value;
    assert TypeMagnitude(initial, c, rng, cal) == Ok(Step(Text(o), Set(c, Str(initial), Text(o)), r1));
  }

  /** A float-like value without a point ("1e5", "nan") and nothing cached
      becomes digits only: the first point would sit at index -1. */
  lemma {:induction false} TypeMagnitudeFloatNoPoint(initial: string, c: Cache, rng: Rng, cal: Calendar)
    requires initial != "" && !IntLike(initial) && FloatLike(initial) && '.' !in initial
    requires Get(c, Str(initial)) == Null
    ensures var r := TypeMagnitude(initial, c, rng, cal);
      && r.Ok? && r.value.value.Text?
      && |r.value.value.text| == |initial| && AllDigits(r.value.value.text)
      && Get(r.value.cache, Str(initial)) == r.value.value
  {
    DigitsPointSpacing(|initial|, -1, 0, initial, rng);
    var o := TypeMagnitude(initial, c, rng, cal).value.value.text;
    var g := Find(o, '.');
    if g >= 0 {
      assert IsFirstPoint(o, g);
    }
    forall x | 0 <= x < |o| ensures IsDigit(o[x]) {
      assert o[x] in o;
    }
  }

  /** "0.75" is turned into a string with a second point at index 3, so the
      substitute is not float-like. */
  lemma {:induction false} FloatSecondPoint(c: Cache, rng: Rng, cal: Calendar)
    requires Get(c, Str("0.75")) == Null
    ensures var r := TypeMagnitude("0.75", c, rng, cal);
      && r.Ok? && r.value.value.Text?
      && |r.value.value.text| == 4 && r.value.value.text[1] == '.' && r.value.value.text[3] == '.'
  {
    var s := "0.75";
    assert Strip(s) == s by {
      assert !IsSpace(s[0]) && !IsSpace(s[3]);
    }
    assert !IsDigit(s[1]);
    assert !IntLike(s);
    assert Find(s, '.') == 1 by {
      assert s[1..] == ".75";
    }
    assert LowerText(s) == s;
    assert Find(s, 'e') == -1;
    assert s[..1] == "0" && s[2..] == "75";
    assert Mantissa(s);
    assert FloatLike(s);
    TypeMagnitudeFloat(s, c, rng, cal);
  }

  /** The corrected float case: a float-like value with nothing cached becomes
      digits of the same length with a point exactly where the input's first
      point is, and nowhere else. */
  lemma {:induction false} TypeMagnitudeCorrectedFloat(initial: string, c: Cache, rng: Rng, cal: Calendar)
    requires initial != "" && !IntLike(initial) && FloatLike(initial)
    requires Get(c, Str(initial)) == Null
    ensures var r := TypeMagnitudeCorrected(initial, c, rng, cal);
      && r.Ok? && r.value.value.Text?
      && var o := r.value.value.text;
      && |o| == |initial|
      && (forall j :: 0 <= j < |o| ==> (o[j] == '.' <==> initial[j] == '.' && '.' !in initial[..j]))
      && (forall j :: 0 <= j < |o| && o[j] != '.' ==> IsDigit(o[j]))
      && Get(r.value.cache, Str(initial)) == r.value.value
  {
    var f := Find(initial, '.');
    var o := TypeMagnitudeCorrected(initial, c, rng, cal).value.value.text;
    forall j | 0 <= j < |o| ensures (o[j] == '.' <==> initial[j] == '.' && '.' !in initial[..j]) {
      if initial[j] == '.' && '.' !in initial[..j] {
        assert IsFirstPointOf(initial, j);
      }
      if f >= 0 {
        assert IsFirstPointOf(initial, f);
      }
    }
  }

  /** The first `.` of `s` is at `j`. */
  predicate IsFirstPointOf(s: string, j: int) {
    0 <= j < |s| && s[j] == '.' && '.' !in s[..j]
  }

  /** The code as written and the corrected one give the same result for
      every input whose float point count already comes out right: no point,
      or a point at `f` with `2f + 1` past the end. */
  lemma {:induction false} TypeMagnitudeAgree(initial: string, c: Cache, rng: Rng, cal: Calendar)
    requires var f := Find(initial, '.'); f < 0 || |initial| <= 2 * f + 1
    ensures TypeMagnitudeCorrected(initial, c, rng, cal) == TypeMagnitude(initial, c, rng, cal)
  {
    if initial != "" && !IntLike(initial) && FloatLike(initial) {
      var f := Find(initial, '.');
      SinglePointAgrees(|initial|, f, initial, rng);
      assert FloatDigits(|initial|, f) == Digits(DigitSpec(|initial|, [f]));
      assert Generate(FloatDigits(|initial|, f), initial, c, rng, cal) == Generate(OnePoint(|initial|, f), initial, c, rng, cal);
    }
  }

  /** Anything else becomes a fresh ten-letter capitalized string; the cache
      is left to the caller's `anon_term`. */
  lemma {:induction false} TypeMagnitudeOther(initial: string, c: Cache, rng: Rng, cal: Calendar)
    requires initial != "" && !IntLike(initial) && !FloatLike(initial)
    ensures var r := TypeMagnitude(initial, c, rng, cal);
      && r.Ok? && r.value.cache == c && r.value.value.Text?
      && var s := r.value.value.text;
      && |s| == 10 && IsUpper(s[0]) && forall i :: 0 < i < 10 ==> IsLower(s[i])
  {
    LettersWithoutPrefix(ShortString, initial, rng);
  }

  /** The counter, the last four characters, is carried over verbatim. */
  lemma {:induction false} MsgControlIdKeepsCounter(initial: string, ymdhms: DateSpec, c: Cache, rng: Rng, cal: Calendar)
    requires MsgControlId(initial, ymdhms, c, rng, cal).Ok?
    ensures var out := MsgControlId(initial, ymdhms, c, rng, cal).value.value.text;
      var counter := SliceFrom(initial, -4);
      |out| >= |counter| && out[|out| - |counter|..] == counter
      && (|initial| >= 4 ==> out[|out| - 4..] == initial[|initial| - 4..])
  {
  }

  /** On a fresh cache, a 28-character control id whose timestamp parses stays
      28 characters long, given that the shifted stamp is in range and renders
      in 14 characters. */
  lemma {:induction false} MsgControlIdLength(initial: string, ymdhms: DateSpec, rng: Rng, cal: Calendar)
    requires |initial| == 28
    requires ymdhms.format == FullStamp && ymdhms.delta.Number?
    requires ParseLenient(initial[10..24], FullStamp, cal).Ok?
    requires var u := ParseLenient(initial[10..24], FullStamp, cal).value + ymdhms.delta.n;
      InRange(u) && cal.render(u, FullStamp).Some? && |cal.render(u, FullStamp).value| == 14
    ensures var r := MsgControlId(initial, ymdhms, map[], rng, cal);
      r.Ok? && |r.value.value.text| == 28
  {
    var sourceId, timestamp := SliceTo(initial, -18), Slice(initial, -18, -4);
    assert |sourceId| == 10 && timestamp == initial[10..24];
    var a := AnonTerm(sourceId, Digits(TenDigitSpec), map[], rng, cal).value;
    assert a.cache == map[sourceId := a.value];
    assert Get(a.cache, Str(timestamp)) == Null;
  }
}

=== FILE: results.dfy ===
/** Failure-carrying results for the anonymization model.

  The Python source signals failure by raising exceptions; the model returns
  a `Result` whose error names the exception class the source raises.
 */
module Results {

  /** The exception classes the modelled code raises. */
  datatype Error =
    | ValueError      // malformed key, parameter or date; refused overwrite
    | KeyError        // missing segment, leaf or cache entry
    | IndexError      // random choice from an empty range, missing segment tag
    | TypeError       // a non-text or non-numeric cached value used as one
    | AttributeError  // a leaf looked up where a segment map was expected
    | OverflowError   // a shifted date outside the range of `datetime`

  datatype Result<+T> = Ok(value: T) | Err(error: Error)

  datatype Option<+T> = None | Some(value: T)
}

=== FILE: termcache.dfy ===
/** The term cache: the durable map from an original term to its substitute.

  The source keeps one module-level `TermCache` over a `shelve` file; here the
  cache is an immutable map that every operation takes and returns.  Keys are
  strings; any other key is first converted with `str()`.
 */
module TermCache {
  import opened Results
  import opened PyText

  /** A cached substitute.  `Null` is Python's None, which `get` also returns
      for a missing key.  `Number` holds the cached date delta in seconds. */
  datatype Value = Null | Text(text: string) | Number(n: int)

  /** A term used as a key: a string, or an integer that `str()` converts. */
  datatype Term = Str(s: string) | Int(i: int)

  type Cache = map<string, Value>

  /** `_convert_key`: strings are used as they are, anything else via `str()`. */
  function Key(t: Term): string {
    match t
    case Str(s) => s
    case Int(i) => IntToDecimal(i)
  }

  /** `__getitem__` / `lookup_term`: the stored value, or None when absent. */
  function Get(c: Cache, t: Term): (v: Value)
    ensures Key(t) !in c ==> v == Null
    ensures Key(t) in c ==> v == c[Key(t)]
  {
    if Key(t) in c then c[Key(t)] else Null
  }

  /** `__contains__` */
  predicate Has(c: Cache, t: Term) {
    Key(t) in c
  }

  /** `__setitem__` / `store_term`: silently overwrites.  Afterwards the term is
      present and reads back as `v`; every other key reads as before. */
  function Set(c: Cache, t: Term, v: Value): (c': Cache)
    ensures Has(c', t) && Get(c', t) == v
    ensures forall u :: Key(u) != Key(t) ==> Get(c', u) == Get(c, u)
    ensures c'.Keys == c.Keys + {Key(t)}
  {
    c[Key(t) := v]
  }

  /** `__delitem__` / `delete_term`: KeyError when the term is absent;
      otherwise the term reads as None afterwards and nothing else changes. */
  function Delete(c: Cache, t: Term): (r: Result<Cache>)
    ensures r.Err? <==> !Has(c, t)
    ensures r.Err? ==> r.error == KeyError
    ensures r.Ok? ==> !Has(r.value, t) && Get(r.value, t) == Null
    ensures r.Ok? ==> forall u :: Key(u) != Key(t) ==> Get(r.value, u) == Get(c, u)
  {
    if Key(t) in c then Ok(c - {Key(t)}) else Err(KeyError)
  }

  /** The overwrite guard of `store_term_ep`: storing over a term that already
      has a (non-None) value needs the overwrite flag, else ValueError. */
  function StoreGuarded(c: Cache, term: string, value: string, overwrite: bool): (r: Result<Cache>)
    ensures r.Err? <==> !overwrite && Get(c, Str(term)) != Null
    ensures r.Err? ==> r.error == ValueError
    ensures r.Ok? ==> Get(r.value, Str(term)) == Text(value)
    ensures r.Ok? ==> forall u :: Key(u) != term ==> Get(r.value, u) == Get(c, u)
  {
    if !overwrite && Get(c, Str(term)) != Null then Err(ValueError)
    else Ok(Set(c, Str(term), Text(value)))
  }

  /** `unicode()` of a cached value, as the message renderer applies it. */
  function Render(v: Value): string {
    match v
    case Null => "None"
    case Text(s) => s
    case Number(n) => IntToDecimal(n)
  }

  /** Two terms with the same string form address the same entry: an integer
      and its decimal text read, write and test the same slot. */
  lemma {:induction false} CanonicalKeysShareEntry(c: Cache, n: int, v: Value)
    ensures Get(c, Int(n)) == Get(c, Str(IntToDecimal(n)))
    ensures Has(c, Int(n)) <==> Has(c, Str(IntToDecimal(n)))
    ensures Get(Set(c, Int(n), v), Str(IntToDecimal(n))) == v
  {
  }

  /** Distinct integer terms never share an entry. */
  lemma {:induction false} DistinctIntsDistinctEntries(c: Cache, i: int, j: int, v: Value)
    requires i != j
    ensures Get(Set(c, Int(i), v), Int(j)) == Get(c, Int(j))
  {
    if Key(Int(i)) == Key(Int(j)) {
      IntToDecimalInjective(i, j);
    }
  }

  /** A stored None cannot be told apart from a missing entry by `get`. */
  lemma {:induction false} StoredNoneReadsAsMissing(c: Cache, t: Term)
    requires !Has(c, t)
    ensures Get(Set(c, t, Null), t) == Get(c, t)
  {
  }
}
